=== FILE: README.md ===
# schema, modelled in Dafny

A functional model of the core of `schema`, a Ruby library that maps hashes
and spreadsheet rows onto declared object schemas. A schema class is a
registry of field entries: attributes, their aliases, has-one and has-many
associations, and the type tables of polymorphic associations. Four
algorithms run over that registry:

- the **header mapper** turns a header row into an index map, a tree of
  `index`, `indexes` and nested branches; a has-many branch carries its size;
- the **array decoder** builds a model from one row through that map, each
  repetition of a has-many group reading its own offset;
- the **hash decoder** builds a model from a payload hash. It picks the
  Symbol or String view of the registry from the first key, records unknown
  keys, and assigns scalars before associations. `as_json` / `to_hash`
  project the model back to a hash;
- the **association resolver** turns a nested value into a model, or a list
  of models, of the declared class or of the class its type names. Problems
  are recorded as `unknown`, `invalid` or `incompatable`.

Around them are the error sink, the parsers (`parse_<type>`), `Assign`
(which copies a decoded tree into another object), the CSV parser's header
bookkeeping and `classify_name`.

Everything is immutable data and pure functions:

- a Ruby value is a `Values.Value`;
- a registry is an ordered sequence of `(name, options)` pairs with Ruby
  hash-assignment semantics (`OrderedMaps.Put`);
- a model instance is its class, its instance variables in assignment order,
  and its error sink;
- a Ruby method that mutates `self` becomes a function from the old
  instance to the new one.

Modules follow the source files:

| Module | Source |
|---|---|
| `ErrorSink` | `errors.rb` and `parsing_errors.rb` |
| `Parsers` | the three parser files |
| `Registry`, `AttributeAppends` and `RegistryFacts` | the declarations in `model.rb` |
| `Utils` | `utils.rb` |
| `DynamicTypes` | `dynamic_types.rb` |
| `Instances`, `HashDecoder` and `HashDecoderFacts` | the instance side of `model.rb` and `schema_creator.rb` |
| `IndexMaps` and `ArrayHeaders` | `array_headers.rb` |
| `ArrayDecoder` | `arrays.rb` |
| `Assign` | `assign.rb` |
| `CsvParser` | `csv_parser.rb` |
| `RawMaps` | the index map as the Ruby hash it really is (see Findings) |

`Seqs`, `Wrappers`, `Strings`, `Values` and `OrderedMaps` are helpers.

**Index maps.** `arrays.rb` reads `:index`, `:indexes` and `:size` from
the field options. `array_headers.rb` instead builds a separate hash, and
stores a has-many's size under the key `:__size` inside the branch. One
`IndexMaps.Node` datatype reconciles the two:

- `Index(at)`;
- `Indexes(ats)`;
- `One(sub)`;
- `Many(size, sub)`, where the size is a field of the node.

The decoder reads the node the map holds under an entry's name. The CSV
parser passes its map to `from_array`. `arrays.rb` declares `from_array`
with one argument, so the map is passed explicitly.

## Model

| member | source | states |
|---|---|---|
| ErrorSink.Add | lib/schema/errors.rb:18-22 | `add` (and `[]=`) appends the code to that name's list, keeping duplicates; every other name's list is unchanged; afterwards `empty?` is false; a name enters the key order at its first code |
| ErrorSink.EmptySink | lib/schema/errors.rb:10-16 | a new sink is empty and `[]` gives the empty list for every name |
| ErrorSink.IsEmptyMeansNoCodes | lib/schema/errors.rb:14-26 | `empty?` holds exactly when no name has a code |
| Parsers.ParseInteger | lib/schema/parsers/common.rb:13-33 | an Integer is kept; a String is accepted iff it matches INTEGER_REGEX and then becomes the signed value of its digits, else nil and `invalid`; a Float becomes its value truncated toward zero and records an error iff it is not whole; nil is nil without error; anything else is nil and `unhandled_type` |
| Parsers.SplitIntegerSound | lib/schema/parsers/common.rb:9 | every string INTEGER_REGEX accepts is an optional sign, `0` or digits without a leading zero, and an optional `.0+` |
| Parsers.SplitIntegerComplete | lib/schema/parsers/common.rb:9 | every string of that shape is accepted and splits back into the same pieces |
| Parsers.IntegerLiteralRoundTrip | lib/schema/parsers/common.rb:9-19 | the decimal rendering of any Integer is accepted by INTEGER_REGEX and `to_i` gives the Integer back |
| Parsers.ParseIntegerOfRendering | lib/schema/parsers/common.rb:13-23 | `parse_integer` of an Integer's rendering is that Integer, without error |
| Parsers.ParseString | lib/schema/parsers/common.rb:35-47 | a String is kept; a Hash or Array is nil and `incompatable`; nil is nil; an Integer becomes its decimal rendering; only Hash and Array record an error |
| Parsers.ParseStringOrNil | lib/schema/parsers/common.rb:50-62 | the empty String becomes nil without error; every other value is parsed as `parse_string` parses it |
| Parsers.ParseFloat | lib/schema/parsers/common.rb:64-83 | a Float is kept; an Integer becomes the equal Float; a String is accepted iff it matches FLOAT_REGEX and then becomes the decimal its digits, fraction and exponent denote, else nil and `invalid`; nil is nil; anything else is nil and `unhandled_type` |
| Parsers.WholeFloatLiteral | lib/schema/parsers/common.rb:64-74 | a signed integer without fraction or exponent matches FLOAT_REGEX and denotes that integer |
| Parsers.ParseFloatOfRendering | lib/schema/parsers/common.rb:64-74 | `parse_float` of an Integer's rendering (a natural's digits, after `-` when negative) is the Float equal to that Integer, the one `parse_float` makes of the Integer itself |
| Parsers.SplitFloatComplete | lib/schema/parsers/common.rb:10 | every string built from a sign, integer digits, an optional fraction and an optional exponent is accepted by FLOAT_REGEX and splits back into the same pieces |
| Parsers.ParseBoolean | lib/schema/parsers/common.rb:127-141 | booleans are kept; numbers become `value != 0`; a String becomes whether it is one of the BOOLEAN_REGEX words, case ignored, without error; nil is nil; anything else is nil and `unhandled_type` |
| Parsers.ParseHash | lib/schema/parsers/hash.rb:7-15 | a Hash is kept without error; every other value, nil included, is nil and `incompatable` |
| Parsers.ParseArray | lib/schema/parsers/array.rb:7-15 | an Array is kept without error; every other value, nil included, is nil and `incompatable` |
| Parsers.Apply | lib/schema/parsers/common.rb:13-141 | a parser call records at most one code, only under the field's name; a call without error leaves the sink as it was |
| Parsers.NilHandling | lib/schema/parsers/common.rb:27-28 | every parser maps nil to nil; it records an error for nil exactly when it is not one of the common parsers |
| Parsers.ParseIdempotent | lib/schema/parsers/common.rb:13-141 | parsing a parser's result again gives that result without error (for the hash and array parsers, when it is not nil) |
| Strings.IntToStringRoundTrip | lib/schema/array_headers.rb:119 | reading the digits of `Integer#to_s` back, negated after a minus sign, gives the Integer |
| Strings.IntToStringInjective | lib/schema/array_headers.rb:119 | two Integers with the same rendering are equal |
| Strings.IndexOf | lib/schema/array_headers.rb:108 | `Array#index`: the first position holding the value; nil exactly when the value is absent |
| Strings.DowncaseIdempotent | lib/schema/associations/schema_creator.rb:56-58 | downcasing twice is downcasing once |
| Registry.DefaultAttributeOptions | lib/schema/model.rb:14-23 | the default key and getter are the name, the setter is `name=`, the storage `@name`; no aliases, no association flag |
| Registry.DefaultNamesDistinct | lib/schema/model.rb:14-23 | distinct names get distinct default setters and storage |
| Registry.Merge | lib/schema/model.rb:49-52 | every option the caller gives replaces the default; the rest keep their defaults |
| Registry.AttributeOptions | lib/schema/model.rb:46-52 | `alias:` becomes `aliases: [alias]`; the parser defaults to `parse_<type>`; with no options the result is the default options |
| Registry.AliasOptions | lib/schema/model.rb:88 | an alias entry copies the field's options with `key` set to the alias and `alias_of` to the field's name |
| Registry.AliasEntries | lib/schema/model.rb:87-88 | one entry per alias, in the order given |
| Registry.AddAliases | lib/schema/model.rb:84-92 | every alias maps to its alias entry; every other name keeps its entry |
| Registry.Store | lib/schema/model.rb:54 | the name maps to the new options; every other name keeps its entry |
| Registry.DeclareAttribute | lib/schema/model.rb:46-57 | `attribute` maps the field and each alias to its options and leaves every other name as it was |
| Registry.AddField | lib/schema/model.rb:54-56 | the field's entry, then its aliases' entries; nothing else changes |
| AttributeAppends.AddFieldAppends | lib/schema/model.rb:54-56 | with fresh names, `attribute` appends the field's entry, then its alias entries in order |
| RegistryFacts.DeclareAttributeKeepsWellFormed | lib/schema/model.rb:46-92 | declaring a fresh attribute keeps the registry consistent: one entry per name, aliases pointing at a declared field with the same storage, distinct storage for declared fields |
| Utils.KeepNameChars | lib/schema/utils.rb:9 | the first substitution leaves only digits, lower-case letters, `_` and `-` (upper-case letters are dropped) and never lengthens the name |
| Utils.ClassifyName | lib/schema/utils.rb:9 | the class name is never longer than the name |
| Utils.ClassifyEmpty | lib/schema/utils.rb:9 | the class name is empty exactly when the name has no kept character |
| Utils.ClassifyIgnoringCase | lib/schema/utils.rb:9 | up to letter case, the class name is the first kept character followed by the remaining kept characters without `_` and `-` |
| Utils.CamelizeIgnoringCase | lib/schema/utils.rb:9 | up to letter case, the second substitution only removes the joiners |
| Utils.CamelizeJoin | lib/schema/utils.rb:9 | a joiner and the character after it become that character upcased |
| Utils.CamelizePlainPrefix | lib/schema/utils.rb:9 | characters that are not joiners pass through the second substitution unchanged |
| Utils.ClassifyPlainName | lib/schema/utils.rb:9 | a name of digits and lower-case letters is only capitalised |
| Utils.ClassifyExample | spec/schema/utils_spec.rb:5-13 | `'name-foo_bar_1!'` becomes `'NameFooBar1'` |
| Utils.AssociationOptions | lib/schema/utils.rb:31-34 | the class name is the one given, else `'Schema' + classify(type) + classify(name)`; the default options, overridden by the caller's |
| Utils.DefaultHasOneClassName | lib/schema/utils.rb:32 | a has-one without a class name is named `SchemaHasOne` + the classified name |
| Utils.DefaultHasManyClassName | lib/schema/utils.rb:32 | a has-many without a class name is named `SchemaHasMany` + the classified name |
| Utils.DeclareAssociation | lib/schema/utils.rb:36-46 | the association's options are stored under its name; every other entry is unchanged |
| Utils.DeclareAssociationKeepsWellFormed | lib/schema/utils.rb:36-46 | declaring a fresh association, flagged as one, with a consistent nested class and unused storage keeps the registry consistent |
| DynamicTypes.TypeClassName | lib/schema/associations/dynamic_types.rb:14 | the class name given; otherwise `AssociationType` followed by `classify_name(type.to_s)`, for a type of any kind |
| DynamicTypes.IntegerTypeClassName | lib/schema/associations/dynamic_types.rb:14 | an Integer type `n` names its class `AssociationType` followed by the digits of `n` |
| DynamicTypes.WithType | lib/schema/associations/dynamic_types.rb:16-20 | the new table maps the type, whatever value it is, to the class; every other type keeps its class; a new type is appended after the old keys |
| DynamicTypes.AddType | lib/schema/associations/dynamic_types.rb:13-23 | nothing exactly when the name is not an association; otherwise only the association's entry changes, and only in its type table, where the type (an Integer, Symbol, String or any other value) now maps to the class; no name is added or removed |
| DynamicTypes.AddTypeOrder | lib/schema/associations/dynamic_types.rb:17-18 | earlier types keep their classes and their place in the key order |
| DynamicTypes.AddTypeKeepsWellFormed | lib/schema/associations/dynamic_types.rb:13-23 | adding a consistent type class keeps the parent's registry consistent |
| Instances.New | lib/schema/model.rb:116-118 | a new instance has no instance variable and an empty error sink |
| Instances.SetIvar | lib/schema/model.rb:77-79 | the variable holds the new slot; every other variable keeps its slot; a new variable is added last |
| Instances.NotSetUntilAssigned | lib/schema/model.rb:120-124 | a new instance is not set; assigning any entry's storage makes it set |
| Instances.AsJson | lib/schema/model.rb:102-109 | `as_json` emits a pair for exactly the non-alias entries whose value is not nil (all of them when nils are included): the entry's name with its value as JSON, and nothing else |
| Instances.ToHash | lib/schema/model.rb:111-113 | `to_hash` has one key per non-alias entry, in registry order, each holding that entry's value as JSON |
| Instances.AsJsonIsToHashWithoutNils | lib/schema/model.rb:102-113 | `as_json` without nils is `to_hash` with the nil values left out |
| HashDecoder.ViewOf | lib/schema/model.rb:128-135 | an empty payload is read against the String-keyed registry; a non-empty one against the Symbol-keyed registry exactly when its first key is a Symbol |
| HashDecoder.Resolve | lib/schema/model.rb:31-38 | the Symbol view finds Symbol keys by name, the String view String keys by text; a key of the other kind is never found |
| HashDecoder.ViewFirstKeyOnly | lib/schema/model.rb:128-135 | payloads with the same first key are read against the same view, whatever follows |
| HashDecoder.OtherKindUnknown | lib/schema/model.rb:128-142 | when the first key is a Symbol every String key is unknown, and the other way round |
| HashDecoder.TypeKeys | lib/schema/associations/schema_creator.rb:76-81 | the type keys are the type field as declared (Symbol or String), then its `to_s` as a String, then the entry's aliases as declared |
| HashDecoder.FirstTruthy | lib/schema/associations/schema_creator.rb:65-70 | the first truthy `data[key]` in key order; nil exactly when none is truthy |
| HashDecoder.DynamicType | lib/schema/associations/schema_creator.rb:64-74 | with a type field, the first truthy payload value under the type keys; otherwise the parent's accessor named by the external type field |
| HashDecoder.SelectType | lib/schema/associations/schema_creator.rb:54-62 | the class of the first table name that matches the type: equal values when case is kept, a String name equal to the type's `to_s` after both are downcased when case is ignored; none exactly when no name matches |
| HashDecoder.SelectTypeExact | lib/schema/associations/schema_creator.rb:54-62 | when case is kept, the class found is the one the type table stores under the type value itself |
| HashDecoder.SelectTypeIgnoresCase | lib/schema/associations/schema_creator.rb:56-58 | with case ignored, type values that differ only in case select the same class |
| HashDecoder.IntegerTypes | spec/examples/company_schema_spec.rb:69-80 | with Integer type names 1 and 2 and a `:default` name, `type: 2` selects the second class, while `type: 3` and the String `"2"` select none |
| HashDecoder.SchemaClassFor | lib/schema/associations/schema_creator.rb:42-52 | a non-dynamic association always uses its declared class; a dynamic one uses the type-table lookup |
| HashDecoder.Setter | lib/schema/model.rb:77-79 | an attribute stores its parser's value and appends the parser's code, if any, under its declared name, leaving every other name's codes alone; the setter writes only the entry's own storage |
| HashDecoderFacts.SetterErrors | lib/schema/model.rb:77-79 | an attribute setter leaves the errors unchanged exactly when its parser accepts the value, and otherwise adds the parser's code under the declared name |
| HashDecoderFacts.SetterUnhandledExample | lib/schema/model.rb:77-79 | `age = true` on an Integer attribute stores nil and records `unhandled_type` under `age` |
| HashDecoder.CreateSchema | lib/schema/associations/schema_creator.rb:18-31 | a Hash with no class gives nil and `unknown`; with a class, the nested model, plus `invalid` when it has errors; another non-nil value gives nil and `incompatable`; nil gives nil silently |
| HashDecoder.CreateSchemas | lib/schema/associations/schema_creator.rb:33-40 | an Array gives a list of the same length with nil holes kept; nil gives nil silently; anything else gives nil and `incompatable` under the name |
| HashDecoder.CreateEach | lib/schema/associations/schema_creator.rb:35 | one result per element, nil for a nil element |
| HashDecoderFacts.CallGetterFirstAnswer | lib/schema/associations/schema_creator.rb:71-72 | `public_send(name)` reads the storage of the first entry defining the method `name` |
| HashDecoderFacts.CallGetterNoAnswer | lib/schema/associations/schema_creator.rb:71-72 | a method no entry defines reads as nil |
| HashDecoderFacts.AliasGetterReadsField | lib/schema/model.rb:84-91 | calling an alias name reads the aliased field's own value, since `alias_method` gives the alias the field's getter |
| HashDecoderFacts.AliasedIdExample | lib/schema/model.rb:87-89 | with `id` aliased as `ID`, both `id` and `ID` read the stored id; an undeclared `Id` reads nil |
| HashDecoderFacts.CallGetterIgnoresErrors | lib/schema/associations/schema_creator.rb:71-72 | the parent's accessor gives the same value whatever errors the parent has recorded |
| HashDecoderFacts.CreateSchemaIgnoresErrors | lib/schema/associations/schema_creator.rb:18-31 | the model `create_schema` builds does not depend on errors recorded before it |
| HashDecoderFacts.CreateEachValues | lib/schema/associations/schema_creator.rb:33-40 | element `j` becomes exactly what `create_schema` makes of it, reporting under `"name:idx"` for its position |
| HashDecoderFacts.CreateEachValueAt | lib/schema/associations/schema_creator.rb:35 | element `j` alone: the errors earlier elements record do not change the model made of it |
| HashDecoderFacts.CreateSchemasValues | lib/schema/associations/schema_creator.rb:33-40 | each element of an Array value becomes the model `create_schema` makes of it under `"name:idx"` |
| HashDecoderFacts.CreateSchemaErrors | lib/schema/associations/schema_creator.rb:18-31 | `create_schema` adds at most one code, only under the error name it is given, and that code is `unknown`, `invalid` or `incompatable` |
| HashDecoderFacts.ElementNamesDistinct | lib/schema/associations/schema_creator.rb:35 | distinct positions report under distinct `"name:idx"` names |
| HashDecoderFacts.CreateSchemasErrorNames | lib/schema/associations/schema_creator.rb:33-35 | an Array value records errors only under the `"name:idx"` names of its positions |
| HashDecoderFacts.UnknownKeysOnly | lib/schema/model.rb:137-157 | a payload of unknown keys assigns nothing and records one `unknown_attribute` under each key, once per occurrence |
| HashDecoderFacts.FromEmptyHashNotSet | lib/schema/model.rb:59-61 | `from_hash({})` is not set |
| HashDecoderFacts.KnownScalarKeySets | lib/schema/model.rb:137-148 | a payload with a known scalar key gives a model that is set |
| HashDecoderFacts.ScalarsBeforeAssociations | lib/schema/model.rb:95-100 | each attribute ends as the scalar pass left it, and the scalar pass leaves every association untouched, whatever the payload order |
| HashDecoderFacts.StorageDisjoint | lib/schema/model.rb:137-157 | in a consistent registry an attribute and an association never share storage |
| IndexMaps.Largest | lib/schema/array_headers.rb:126-137 | 0 for an empty map; at least every entry's count, where a nested has-one or has-many branch counts its own largest list, and equal to one of them |
| IndexMaps.LargestBound | lib/schema/array_headers.rb:126-137 | the size bounds every `indexes` list in the map or in its nested has-one and has-many branches, at any depth |
| IndexMaps.LargestAttained | lib/schema/array_headers.rb:126-137 | a non-zero size is the length of one of those lists |
| ArrayHeaders.ProbeNameInjective | lib/schema/array_headers.rb:119 | different repetition numbers give different probe names |
| ArrayHeaders.FindIndexes | lib/schema/array_headers.rb:115-124 | entry `j` is where repetition `start + j` was found; probing stops at the first missing repetition; the positions are distinct headers, so there are at most as many as headers |
| ArrayHeaders.DistinctBelow | lib/schema/array_headers.rb:119-122 | distinct positions below `n` number at most `n` (the scan's termination bound) |
| ArrayHeaders.FieldLeaf | lib/schema/array_headers.rb:102-113 | without a prefix a field maps to the first position of its key, and is absent iff the key is not a header; with a prefix, to its repetitions, absent when there are none |
| ArrayHeaders.LastAssigned | lib/schema/array_headers.rb:102-113 | reference definition: the value of the last assignment to a key |
| ArrayHeaders.AssignLastWins | lib/schema/array_headers.rb:106-109 | after a run of hash assignments a key holds its last assignment, or its old value when nobody assigns it |
| ArrayHeaders.Contribution | lib/schema/array_headers.rb:76-113 | the literal per-pass step, stated case by case for the lemmas on the finished map to build on: what one entry assigns in each pass: a field leaf under the canonical name; a non-empty has-one branch under the prefix given; a non-empty has-many branch under its own prefix, with the largest count as size |
| ArrayHeaders.MapHeadersGet | lib/schema/array_headers.rb:12-18 | the map is the three passes in order: a has-many assignment overrides a has-one one, which overrides a field one |
| ArrayHeaders.MapKeysNameFields | lib/schema/array_headers.rb:106-109 | every key of the map names a declared entry, never an alias |
| ArrayHeaders.AttributeNode | lib/schema/array_headers.rb:102-113 | an attribute's node is the leaf of some entry recorded under its name (the field or one of its aliases); it is absent iff none of them matches |
| ArrayHeaders.HasOneNode | lib/schema/array_headers.rb:76-86 | a has-one with a non-empty nested map is recorded as that map, built with the current prefix |
| ArrayHeaders.HasManyNode | lib/schema/array_headers.rb:88-100 | a has-many with a prefix and a non-empty nested map is recorded as that map, built with its own prefix, sized by its largest count |
| ArrayHeaders.MapHeadersInRange | lib/schema/array_headers.rb:12-18 | every position in the map is a column of the header row |
| ArrayHeaders.SubMap | lib/schema/array_headers.rb:47 | an association's nested map, or the empty map |
| ArrayHeaders.BranchPrefix | lib/schema/array_headers.rb:50 | a nested class is listed under the caller's prefix, else the branch's own |
| ArrayHeaders.DisplayName | lib/schema/array_headers.rb:66-70 | the field's name, or its first alias when aliases are declared (the empty string for an empty list); under a prefix, exactly `prefix + "X"` in front of that |
| ArrayHeaders.EntryNamesListed | lib/schema/array_headers.rb:28-42 | every name an entry contributes appears in the listing |
| ArrayHeaders.ListedFromEntry | lib/schema/array_headers.rb:28-42 | every listed name was contributed by some entry |
| ArrayHeaders.AttributeListed | lib/schema/array_headers.rb:28-64 | a declared attribute is listed under its display name as mapped exactly when the index map has a node for it, and contributes nothing to the other list |
| ArrayHeaders.AliasNotListed | lib/schema/array_headers.rb:55-64 | an alias entry contributes no name: whatever is listed comes from some other entry |
| ArrayHeaders.AssociationListed | lib/schema/array_headers.rb:44-53 | an association's own names, against its nested map and under the caller's or its own prefix, are all in the parent's list |
| ArrayHeaders.MappedUnmappedPartition | lib/schema/array_headers.rb:28-64 | the mapped and the unmapped names together are exactly the listable names, as a multiset |
| ArrayDecoder.RowAt | lib/schema/arrays.rb:28 | `array[index]`: the row's value, nil past its end |
| ArrayDecoder.Column | lib/schema/arrays.rb:17-24 | without an offset, the `index` of the node; with one, `indexes[offset]`; nothing otherwise |
| ArrayDecoder.Repetitions | lib/schema/arrays.rb:60-62 | `size` models, the `k`-th built with offset `k` |
| ArrayDecoder.HasOneStep | lib/schema/arrays.rb:43-50 | a has-one entry stores its nested model; nothing else changes |
| ArrayDecoder.HasManyStep | lib/schema/arrays.rb:54-64 | a has-many entry with a sized node stores its list; nothing else changes |
| ArrayDecoder.AttributeFromColumn | lib/schema/arrays.rb:17-31 | an attribute with a column holds its parser's value of the row's value there, unless a later entry with a column shares its storage |
| ArrayDecoder.AttributeUnsetWithoutColumn | lib/schema/arrays.rb:17-31 | an attribute no entry of its storage has a column for stays unset |
| ArrayDecoder.HasOneAlwaysBuilt | lib/schema/arrays.rb:42-51 | every has-one holds a model built from its nested map with the same offset, even when nothing in it is mapped |
| ArrayDecoder.HasManySized | lib/schema/arrays.rb:53-65 | a sized has-many holds exactly `size` models built with offsets 0 to size-1 in order, the same whatever the caller's offset |
| ArrayDecoder.HasManyUnsetWithoutSize | lib/schema/arrays.rb:53-65 | a has-many without size (and no column) stays unset |
| Assign.CopyValue | lib/schema/assign.rb:20-25 | the value is written iff the include filter, when given, accepts it and the exclude filter, when given, does not; nothing else changes |
| Assign.UpdateAssociation | lib/schema/assign.rb:29-87 | a flag on a non-association raises; a nil association leaves the target unchanged; otherwise only that association changes |
| Assign.HasOneReusesOrBuilds | lib/schema/assign.rb:53-64 | a has-one is copied, with the same filters, into the target's object or a freshly built one |
| Assign.HasManyUpdatesList | lib/schema/assign.rb:66-87 | a has-many is copied element by element into the target's list |
| Assign.MatchId | lib/schema/assign.rb:72-75 | the first target element with an equal `id`; none exactly when no element has it |
| Assign.UpdateElement | lib/schema/assign.rb:72-85 | a matched element is updated in place and the others keep their positions; otherwise one element is appended after the old ones |
| Assign.UpdateEach | lib/schema/assign.rb:77-86 | the list grows by at most one element per schema element and never shrinks |
| Assign.UpdateFrame | lib/schema/assign.rb:6-27 | attributes and associations no declared field writes are untouched |
| Assign.FiltersDecide | lib/schema/assign.rb:20-25 | a field with its own getter ends with the schema's value iff the filters admit it at its turn, else with the target's old value |
| Assign.NoFiltersCopyAll | lib/schema/assign.rb:20-25 | without filters every field with its own getter ends with the schema's value |
| Assign.FlaggedAttributeRaises | lib/schema/assign.rb:48-49 | an association flag on a field that is not a has-one or has-many makes the copy raise |
| Assign.UnmatchedElementKept | lib/schema/assign.rb:72-86 | a target element that no later schema element matches keeps its position and value |
| Assign.NilElementRaises | lib/schema/assign.rb:73 | a nil element in the schema's list makes the copy raise |
| CsvParser.NewParser | lib/schema/csv_parser.rb:8-13 | the header row is the one given, else the first row, which is then consumed; the map is built from it once |
| CsvParser.Shift | lib/schema/csv_parser.rb:19-23 | nil once the rows run out; otherwise the next row decoded with the parser's map |
| CsvParser.ShiftUsesConstructorMap | lib/schema/csv_parser.rb:8-23 | every later `shift` decodes with the map the constructor built |
| CsvParser.HeadersAt | lib/schema/csv_parser.rb:37 | one header per position, in order |
| CsvParser.MappedHeadersFromRow | lib/schema/csv_parser.rb:31-43 | every header the map yields is a name from the header row |
| CsvParser.Without | lib/schema/csv_parser.rb:16 | Ruby's array difference: it keeps exactly the elements that are not in the second list |
| CsvParser.WithoutConcat | lib/schema/csv_parser.rb:16 | the difference distributes over concatenation, so survivors keep their order |
| CsvParser.MissingFields | lib/schema/csv_parser.rb:15-17 | a required name is missing iff no mapped header carries it |
| CsvParser.AbsentHeaderMissing | lib/schema/csv_parser.rb:8-17 | a required name absent from the header row is always missing |
| RawMaps.PlainMappedHeaders | lib/schema/csv_parser.rb:31-43 | on a map without has-many branches the written reader lists the corrected reader's headers |
| RawMaps.HasManyBreaksHeaders | lib/schema/csv_parser.rb:31-43 | a has-many branch makes the written reader raise |
| RawMaps.HasManyFieldBreaksMappedHeaders | lib/schema/csv_parser.rb:31-43 | a mapped has-many branch of a class makes `get_mapped_headers` raise on its header map |
| RawMaps.FriendsHeaders | lib/schema/csv_parser.rb:31-43 | on a one-column has-many map the written reader raises where the corrected one lists the column |
| RawMaps.RepeatedLargest | lib/schema/array_headers.rb:126-137 | on a map of `indexes` leaves and nested branches the written count is `IndexMaps.Largest` |
| RawMaps.NestedManyBreaksLargest | lib/schema/array_headers.rb:126-137 | a nested has-many branch makes the written count raise |
| RawMaps.NestedHasManyBreaksCount | lib/schema/array_headers.rb:88-100 | a class whose mapped has-many is nested in a has-many group makes the size computation raise |
| RawMaps.NestedManyCount | lib/schema/array_headers.rb:126-137 | a concrete nested group whose written count raises, where `Largest` walks into the inner group and gives its two columns |

## Left out

- Floats are exact decimals (mantissa and power of ten), with no binary rounding. `Float#to_s` is modelled only for moderate magnitudes.
- `parse_time`, `parse_date` and `parsers/american.rb` are left out, because they depend on Ruby's date and time libraries.
- `parsers/json.rb` is left out: it is a thin wrapper over `JSON.parse`.
- Regular expressions match the whole string. Ruby's `^` and `$` match at line boundaries, so a multi-line string that Ruby would accept is rejected by the model.
- Metaprogramming is replaced by an explicit registry that holds class references. This covers `class_eval`, the generated getters and setters, `const_get`/`const_set`, `create_schema_class`, `associations/has_one.rb`, `has_many.rb`, `base.rb`, `relation/*.rb`, `all.rb` and the autoloads.
  - The generated methods become `HashDecoder.Setter` and `Instances.Read`.
- The has-one and has-many setters call `Schema::Utils.create_schema` and `create_schemas`. `utils.rb` does not define these. The model uses `SchemaCreator#create_schema` and `#create_schemas` in their place.
- `add_type` calls `create_schema_class` with an argument list that `utils.rb` does not accept. The new class is therefore a parameter of `DynamicTypes.AddType`.
- `SchemaCreator` sets `ignorecase` from `!options[:type_ignorecase].nil?`. The model keeps this as written, so `type_ignorecase: false` also ignores case.
- `public_send(external_type_field)` (`schema_creator.rb:71-72`) and `schema_association.id` (`assign.rb:73`, read as `CallGetter(e, "id")` in `Assign.MatchId`) read the first registry entry that defines that method: its generated getter, or an alias entry's alias name. A method the registry does not declare reads as nil; Ruby raises `NoMethodError`. When two entries define the same method, Ruby calls the later definition and the model reads the first; an alias and its field read the same storage, so this matters only for a redeclared name.
- Symbols are not a `Value` case of their own. A Symbol value such as the `:default` type is `Other("default")`, carried by its `to_s`; it equals only itself and never a String.
- HashDecoder.SelectType: with case ignored, a type-table name that is neither a String nor a Symbol (an Integer from `add_type(1)`) makes Ruby raise `NoMethodError` at `name.downcase`; the model treats it as a name that does not match.
- `Strings.Downcase` folds the ASCII letters only. Ruby's `String#downcase` (`schema_creator.rb:56-58`) and the `/i` of BOOLEAN_REGEX also fold non-ASCII letters, so a type or boolean word that differs only in such a letter matches in Ruby and not in the model.
- HashDecoder.Resolve: assumes every field is declared with a Symbol name and that no field is declared after the first String-keyed decode. `attribute 'name', …` keys `schema` by the String (`model.rb:46-55`), which Ruby's Symbol view (`model.rb:128-135`) never finds; the model's registry names carry no key kind, so either view finds it. `schema_with_string_keys` is memoized with `||=` (`model.rb:31-38`), so Ruby's String view misses fields declared after its first use; the model derives both views from the current registry.
- Error codes are one enum. The source mixes Symbol and String spellings of the same codes.
- ActiveModel validation (`active_model_validations.rb`, `schema_validator.rb`) is left out: it is a third-party engine.
- CSV tokenising, `CSVParser#each` and file I/O are left out. Rows arrive as a sequence of value rows.
  - A missing header row (an empty CSV) gives no parser. Ruby would fail inside the mapper.
- `Assign` iterates over the registry in order and skips alias entries. `each_attribute` is not defined in the library, so this order is an assumption.
- Assign targets are plain values: attributes, has-one objects and has-many lists are keyed by getter name. `build_<name>` and `collection.new` give an empty object.
  - A has-many the target does not have is read as an empty list.
  - Ruby mutates shared objects in place, and an exception leaves earlier writes done. The model returns a failure and discards them.
- The options `:association` is read from are set by the caller. No declaration in the library sets the flag, so the consistency invariant asks that exactly the has-one and has-many entries carry it.
- Behaviour that only the specs assert is left out: the `capture_unknown_attributes` toggle, `skip_fields`, attribute defaults, `select_filter`/`reject_filter`, a `:default` type, the array `separator` option and `was_set`.
  - `was_set_filter` can be passed as an ordinary filter.
- Value equality is structural. Ruby's `1 == 1.0` and `1.eql?` distinctions are not modelled.
- Keys named `index`, `indexes` or `__size` would collide with the leaf keys in Ruby's header hash. `IndexMaps.Node` has no such collision; `RawMaps` keeps it only to state the findings.
- HashDecoder.Setter: for associations states only that their own storage alone may change; the association cases are stated by HashDecoder.CreateSchema and HashDecoder.CreateSchemas.
- Parsers.ParseString: for Float, boolean and other values it states only that no error is recorded, not the text of the rendering.
- Assign.UpdateEach: states how the list length can change; which positions keep their value is stated by Assign.UnmatchedElementKept and Assign.UpdateElement.

## Findings

| source | as written | input that shows it | evidently intended | confidence | as-written member | corrected member |
|---|---|---|---|---|---|---|
| lib/schema/csv_parser.rb:31-43 | `get_mapped_headers` recurses into every value that has neither `:index` nor `:indexes`, including a has-many branch; there it sends `[:index]` to the Integer stored under `:__size`, which raises `TypeError` | headers `["Friends1Name"]`, a class with `has_many :friends, header_prefix: 'Friends'` whose nested class has `name`; the map is `{ friends: { name: { indexes: [0] }, __size: 1 } }` | skip the `:__size` entry and list `Friends1Name` | not executed | RawMaps.HasManyBreaksHeaders | CsvParser.MappedHeaders |
| lib/schema/array_headers.rb:126-137 | `largest_number_of_indexes_from_map` recurses into a nested has-many branch and sends `[:indexes]` to its `:__size` Integer, which raises `TypeError`; a has-many group nested inside another has-many group cannot be mapped | `{ name: { indexes: [0] }, games: { title: { indexes: [1, 2] }, __size: 2 } }` | walk into the nested branch like any other hash, count its largest list (2), and skip `:__size` | not executed | RawMaps.NestedManyBreaksLargest | IndexMaps.Largest |

=== FILE: array_decoder.dfy ===
/**
 * `from_array` / `update_attributes_with_array`: a model from one row, read
 * through an index map. The options `:index`, `:indexes` and `:size` that
 * the decoder reads for an entry are the node the map holds under the
 * entry's name; a nested class reads the map nested under its branch.
 */
module ArrayDecoder {
  import opened Wrappers
  import opened Values
  import opened OrderedMaps
  import opened Registry
  import opened Parsers
  import opened IndexMaps
  import opened Instances
  import opened HashDecoder
  import opened HashDecoderFacts
  import opened ArrayHeaders

  /** `array[index]`: nil past the end of the row. */
  function RowAt(row: seq<Value>, i: nat): (v: Value)
    ensures i < |row| ==> v == row[i]
    ensures i >= |row| ==> v == Nil
  {
    if i < |row| then row[i] else Nil
  }

  /**
   * The column a scalar entry reads: `index` without an offset;
   * `indexes[offset]` with one, nothing when the list is shorter.
   */
  function Column(node: Option<Node>, offset: Option<nat>): (r: Option<nat>)
    ensures offset.None? ==> (r.Some? <==> node.Some? && node.value.Index?)
    ensures offset.None? && r.Some? ==> r.value == node.value.at
    ensures offset.Some? ==> (r.Some? <==> node.Some? && node.value.Indexes? && offset.value < |node.value.ats|)
    ensures offset.Some? && r.Some? ==> r.value == node.value.ats[offset.value]
  {
    match offset
    case None => if node.Some? && node.value.Index? then Some(node.value.at) else None
    case Some(k) =>
      if node.Some? && node.value.Indexes? && k < |node.value.ats| then Some(node.value.ats[k]) else None
  }

  /** `from_array(array)`, and `create_schema_with_array` for a nested class. */
  function FromArray(cls: SchemaClass, row: seq<Value>, im: IndexMap, offset: Option<nat>): (m: Model)
    ensures m.cls == cls
    decreases cls, 3
  {
    var scalars := ScalarsFrom(New(cls), cls, row, im, offset, 0);
    var ones := HasOnesFrom(scalars, cls, row, im, offset, 0);
    HasManysFrom(ones, cls, row, im, 0)
  }

  /** The column an entry reads, if any. */
  function EntryColumn(cls: SchemaClass, im: IndexMap, offset: Option<nat>, i: nat): Option<nat>
    requires i < |cls.fields|
  {
    Column(NodeOf(im, cls.fields[i].0), offset)
  }

  /** The setter of every entry that has a column, called with the row's value there. */
  function ScalarsFrom(m: Model, cls: SchemaClass, row: seq<Value>, im: IndexMap, offset: Option<nat>, i: nat): (r: Model)
    requires i <= |cls.fields|
    ensures r.cls == m.cls
    decreases |cls.fields| - i
  {
    if i == |cls.fields| then m
    else
      var col := EntryColumn(cls, im, offset, i);
      var m' := if col.Some? then Setter(m, cls.fields[i].1, RowAt(row, col.value)) else m;
      ScalarsFrom(m', cls, row, im, offset, i + 1)
  }

  /** Every has-one is built, from its nested map, with the same offset. */
  function HasOnesFrom(m: Model, cls: SchemaClass, row: seq<Value>, im: IndexMap, offset: Option<nat>, i: nat): (r: Model)
    requires i <= |cls.fields|
    ensures r.cls == m.cls
    decreases cls, 2, |cls.fields| - i
  {
    if i == |cls.fields| then m
    else HasOnesFrom(HasOneStep(m, cls, row, im, offset, i), cls, row, im, offset, i + 1)
  }

  /** What entry `i` of the has-one pass writes. */
  function HasOneStep(m: Model, cls: SchemaClass, row: seq<Value>, im: IndexMap, offset: Option<nat>, i: nat): (r: Model)
    requires i < |cls.fields|
    ensures r.cls == m.cls
    ensures cls.fields[i].1.kind.HasOne? ==> Get(r.ivars, cls.fields[i].1.ivar) == Some(OneValue(cls, row, im, offset, i))
    ensures forall x :: !cls.fields[i].1.kind.HasOne? || x != cls.fields[i].1.ivar ==> Get(r.ivars, x) == Get(m.ivars, x)
    decreases cls, 1
  {
    var o := cls.fields[i].1;
    if o.kind.HasOne? then SetIvar(m, o.ivar, OneValue(cls, row, im, offset, i)) else m
  }

  /** The model a has-one entry is given: its class built from the map nested under its name. */
  function OneValue(cls: SchemaClass, row: seq<Value>, im: IndexMap, offset: Option<nat>, i: nat): Slot
    requires i < |cls.fields| && cls.fields[i].1.kind.HasOne?
    decreases cls, 0
  {
    var (name, o) := cls.fields[i];
    Slot.One(FromArray(o.kind.meta.target, row, SubMap(im, name), offset))
  }

  /** Whether entry `i` is a has-many whose node carries a size. */
  predicate Sized(cls: SchemaClass, im: IndexMap, i: nat)
    requires i < |cls.fields|
  {
    var node := NodeOf(im, cls.fields[i].0);
    cls.fields[i].1.kind.HasMany? && node.Some? && node.value.Many?
  }

  /** Every has-many with a size gets that many models, one per offset; no caller offset is passed down. */
  function HasManysFrom(m: Model, cls: SchemaClass, row: seq<Value>, im: IndexMap, i: nat): (r: Model)
    requires i <= |cls.fields|
    ensures r.cls == m.cls
    decreases cls, 2, |cls.fields| - i
  {
    if i == |cls.fields| then m
    else HasManysFrom(HasManyStep(m, cls, row, im, i), cls, row, im, i + 1)
  }

  /** What entry `i` of the has-many pass writes. */
  function HasManyStep(m: Model, cls: SchemaClass, row: seq<Value>, im: IndexMap, i: nat): (r: Model)
    requires i < |cls.fields|
    ensures r.cls == m.cls
    ensures Sized(cls, im, i) ==> Get(r.ivars, cls.fields[i].1.ivar) == Some(ManyValue(cls, row, im, i))
    ensures forall x :: !Sized(cls, im, i) || x != cls.fields[i].1.ivar ==> Get(r.ivars, x) == Get(m.ivars, x)
    decreases cls, 1
  {
    var (name, o) := cls.fields[i];
    var node := NodeOf(im, name);
    if o.kind.HasMany? && node.Some? && node.value.Many? then SetIvar(m, o.ivar, ManyValue(cls, row, im, i))
    else m
  }

  /** The list a sized has-many entry is given. */
  function ManyValue(cls: SchemaClass, row: seq<Value>, im: IndexMap, i: nat): Slot
    requires i < |cls.fields| && Sized(cls, im, i)
    decreases cls, 0
  {
    var node := NodeOf(im, cls.fields[i].0).value;
    Slot.Many(Repetitions(cls.fields[i].1.kind.meta.target, row, node.sub, node.size))
  }

  /** `size.times.map { |offset| create_schema_with_array(...) }` */
  function Repetitions(cls: SchemaClass, row: seq<Value>, im: IndexMap, size: nat): (r: seq<Option<Model>>)
    ensures |r| == size
    ensures forall k :: 0 <= k < size ==> r[k] == Some(FromArray(cls, row, im, Some(k)))
    decreases cls, 4
  {
    seq(size, k requires 0 <= k < size => Some(FromArray(cls, row, im, Some(k))))
  }

  // ---------------------------------------------------------------------
  // Which storage each pass writes.

  /** Two different association entries never share storage. */
  lemma AssociationStorageDistinct(cls: SchemaClass, a: nat, b: nat)
    requires WellFormed(cls) && a < |cls.fields| && b < |cls.fields| && a != b
    requires IsAssociation(cls.fields[a].1) && IsAssociation(cls.fields[b].1)
    ensures cls.fields[a].1.ivar != cls.fields[b].1.ivar
  {
    assert EntryOk(cls, a) && EntryOk(cls, b);
    assert DistinctStorage(cls);
  }

  lemma {:induction false} ScalarsKeep(m: Model, cls: SchemaClass, row: seq<Value>, im: IndexMap, offset: Option<nat>, i: nat, x: string)
    requires i <= |cls.fields|
    requires forall k :: i <= k < |cls.fields| && EntryColumn(cls, im, offset, k).Some? ==> cls.fields[k].1.ivar != x
    ensures Get(ScalarsFrom(m, cls, row, im, offset, i).ivars, x) == Get(m.ivars, x)
    decreases |cls.fields| - i
  {
    if i < |cls.fields| {
      var col := EntryColumn(cls, im, offset, i);
      var m' := if col.Some? then Setter(m, cls.fields[i].1, RowAt(row, col.value)) else m;
      ScalarsKeep(m', cls, row, im, offset, i + 1, x);
    }
  }

  lemma {:induction false} ScalarsLast(m: Model, cls: SchemaClass, row: seq<Value>, im: IndexMap, offset: Option<nat>, i: nat, j: nat)
    requires i <= j < |cls.fields| && cls.fields[j].1.kind.Attribute? && EntryColumn(cls, im, offset, j).Some?
    requires forall k :: j < k < |cls.fields| && EntryColumn(cls, im, offset, k).Some? ==>
      cls.fields[k].1.ivar != cls.fields[j].1.ivar
    ensures var o := cls.fields[j].1;
      Get(ScalarsFrom(m, cls, row, im, offset, i).ivars, o.ivar)
        == Some(Scalar(Parse(o.kind.parser, RowAt(row, EntryColumn(cls, im, offset, j).value)).value))
    decreases j - i
  {
    var col := EntryColumn(cls, im, offset, i);
    var m' := if col.Some? then Setter(m, cls.fields[i].1, RowAt(row, col.value)) else m;
    assert ScalarsFrom(m, cls, row, im, offset, i) == ScalarsFrom(m', cls, row, im, offset, i + 1);
    if i < j {
      ScalarsLast(m', cls, row, im, offset, i + 1, j);
    } else {
      var o := cls.fields[j].1;
      assert Get(m'.ivars, o.ivar) == Some(Scalar(Parse(o.kind.parser, RowAt(row, col.value)).value));
      ScalarsKeep(m', cls, row, im, offset, i + 1, o.ivar);
    }
  }

  lemma {:induction false} HasOnesKeep(m: Model, cls: SchemaClass, row: seq<Value>, im: IndexMap, offset: Option<nat>, i: nat, x: string)
    requires i <= |cls.fields|
    requires forall k :: i <= k < |cls.fields| && cls.fields[k].1.kind.HasOne? ==> cls.fields[k].1.ivar != x
    ensures Get(HasOnesFrom(m, cls, row, im, offset, i).ivars, x) == Get(m.ivars, x)
    decreases |cls.fields| - i
  {
    if i < |cls.fields| {
      HasOnesKeep(HasOneStep(m, cls, row, im, offset, i), cls, row, im, offset, i + 1, x);
    }
  }

  lemma {:induction false} HasOnesLast(m: Model, cls: SchemaClass, row: seq<Value>, im: IndexMap, offset: Option<nat>, i: nat, j: nat)
    requires i <= j < |cls.fields| && cls.fields[j].1.kind.HasOne?
    requires forall k :: j < k < |cls.fields| && cls.fields[k].1.kind.HasOne? ==> cls.fields[k].1.ivar != cls.fields[j].1.ivar
    ensures Get(HasOnesFrom(m, cls, row, im, offset, i).ivars, cls.fields[j].1.ivar) == Some(OneValue(cls, row, im, offset, j))
    decreases j - i
  {
    var m' := HasOneStep(m, cls, row, im, offset, i);
    if i < j {
      HasOnesLast(m', cls, row, im, offset, i + 1, j);
    } else {
      HasOnesKeep(m', cls, row, im, offset, i + 1, cls.fields[j].1.ivar);
    }
  }


  lemma {:induction false} HasManysKeep(m: Model, cls: SchemaClass, row: seq<Value>, im: IndexMap, i: nat, x: string)
    requires i <= |cls.fields|
    requires forall k :: i <= k < |cls.fields| && Sized(cls, im, k) ==> cls.fields[k].1.ivar != x
    ensures Get(HasManysFrom(m, cls, row, im, i).ivars, x) == Get(m.ivars, x)
    decreases |cls.fields| - i
  {
    if i < |cls.fields| {
      HasManysKeep(HasManyStep(m, cls, row, im, i), cls, row, im, i + 1, x);
    }
  }

  lemma {:induction false} HasManysLast(m: Model, cls: SchemaClass, row: seq<Value>, im: IndexMap, i: nat, j: nat)
    requires i <= j < |cls.fields| && Sized(cls, im, j)
    requires forall k :: j < k < |cls.fields| && Sized(cls, im, k) ==> cls.fields[k].1.ivar != cls.fields[j].1.ivar
    ensures Get(HasManysFrom(m, cls, row, im, i).ivars, cls.fields[j].1.ivar) == Some(ManyValue(cls, row, im, j))
    decreases j - i
  {
    var m' := HasManyStep(m, cls, row, im, i);
    assert HasManysFrom(m, cls, row, im, i) == HasManysFrom(m', cls, row, im, i + 1);
    if i < j {
      HasManysLast(m', cls, row, im, i + 1, j);
    } else {
      assert Get(m'.ivars, cls.fields[j].1.ivar) == Some(ManyValue(cls, row, im, j));
      HasManysKeep(m', cls, row, im, i + 1, cls.fields[j].1.ivar);
    }
  }

  // ---------------------------------------------------------------------
  // What the decoded model holds.

  /**
   * An attribute with a column (`index` without an offset, `indexes[offset]`
   * with one) holds the row's value there, coerced by its parser as the hash
   * path's setter does, unless a later entry sharing its storage (an alias)
   * also has a column.
   */
  lemma AttributeFromColumn(cls: SchemaClass, row: seq<Value>, im: IndexMap, offset: Option<nat>, j: nat)
    requires WellFormed(cls) && j < |cls.fields| && cls.fields[j].1.kind.Attribute?
    requires EntryColumn(cls, im, offset, j).Some?
    requires forall k :: j < k < |cls.fields| && EntryColumn(cls, im, offset, k).Some? ==>
      cls.fields[k].1.ivar != cls.fields[j].1.ivar
    ensures var o := cls.fields[j].1;
      Read(FromArray(cls, row, im, offset), o)
        == Some(Scalar(Parse(o.kind.parser, RowAt(row, EntryColumn(cls, im, offset, j).value)).value))
  {
    var x := cls.fields[j].1.ivar;
    WellFormedSeparated(cls);
    var scalars := ScalarsFrom(New(cls), cls, row, im, offset, 0);
    var ones := HasOnesFrom(scalars, cls, row, im, offset, 0);
    ScalarsLast(New(cls), cls, row, im, offset, 0, j);
    HasOnesKeep(scalars, cls, row, im, offset, 0, x);
    HasManysKeep(ones, cls, row, im, 0, x);
  }

  /** An attribute none of whose storage-sharing entries has a column stays unset. */
  lemma AttributeUnsetWithoutColumn(cls: SchemaClass, row: seq<Value>, im: IndexMap, offset: Option<nat>, j: nat)
    requires WellFormed(cls) && j < |cls.fields| && cls.fields[j].1.kind.Attribute?
    requires forall k :: 0 <= k < |cls.fields| && EntryColumn(cls, im, offset, k).Some? ==>
      cls.fields[k].1.ivar != cls.fields[j].1.ivar
    ensures Read(FromArray(cls, row, im, offset), cls.fields[j].1).None?
  {
    var x := cls.fields[j].1.ivar;
    WellFormedSeparated(cls);
    var scalars := ScalarsFrom(New(cls), cls, row, im, offset, 0);
    var ones := HasOnesFrom(scalars, cls, row, im, offset, 0);
    ScalarsKeep(New(cls), cls, row, im, offset, 0, x);
    HasOnesKeep(scalars, cls, row, im, offset, 0, x);
    HasManysKeep(ones, cls, row, im, 0, x);
  }

  /**
   * Every has-one is instantiated, whether or not any of its fields has a
   * column, from the map nested under its name and with the caller's offset.
   */
  lemma HasOneAlwaysBuilt(cls: SchemaClass, row: seq<Value>, im: IndexMap, offset: Option<nat>, j: nat)
    requires WellFormed(cls) && j < |cls.fields| && cls.fields[j].1.kind.HasOne?
    ensures var (name, o) := cls.fields[j];
      Read(FromArray(cls, row, im, offset), o) == Some(Slot.One(FromArray(o.kind.meta.target, row, SubMap(im, name), offset)))
  {
    var x := cls.fields[j].1.ivar;
    forall k | 0 <= k < |cls.fields| && k != j && IsAssociation(cls.fields[k].1) ensures cls.fields[k].1.ivar != x {
      AssociationStorageDistinct(cls, j, k);
    }
    var scalars := ScalarsFrom(New(cls), cls, row, im, offset, 0);
    var ones := HasOnesFrom(scalars, cls, row, im, offset, 0);
    HasOnesLast(scalars, cls, row, im, offset, 0, j);
    HasManysKeep(ones, cls, row, im, 0, x);
  }

  /**
   * A has-many whose node carries a size holds exactly `size` models, the
   * k-th decoded with offset k; the caller's offset plays no part.
   */
  lemma HasManySized(cls: SchemaClass, row: seq<Value>, im: IndexMap, offset: Option<nat>, j: nat)
    requires WellFormed(cls) && j < |cls.fields| && Sized(cls, im, j)
    ensures var (name, o) := cls.fields[j];
      var node := NodeOf(im, name).value;
      && Read(FromArray(cls, row, im, offset), o).Some?
      && Read(FromArray(cls, row, im, offset), o).value.Many?
      && var items := Read(FromArray(cls, row, im, offset), o).value.items;
      && |items| == node.size
      && (forall k :: 0 <= k < node.size ==> items[k] == Some(FromArray(o.kind.meta.target, row, node.sub, Some(k))))
      && Read(FromArray(cls, row, im, offset), o) == Read(FromArray(cls, row, im, None), o)
  {
    forall k | 0 <= k < |cls.fields| && k != j && IsAssociation(cls.fields[k].1)
      ensures cls.fields[k].1.ivar != cls.fields[j].1.ivar
    {
      AssociationStorageDistinct(cls, j, k);
    }
    HasManySizedAt(cls, row, im, offset, j);
    HasManySizedAt(cls, row, im, None, j);
  }

  lemma HasManySizedAt(cls: SchemaClass, row: seq<Value>, im: IndexMap, offset: Option<nat>, j: nat)
    requires j < |cls.fields| && Sized(cls, im, j)
    requires forall k :: 0 <= k < |cls.fields| && k != j && IsAssociation(cls.fields[k].1) ==>
      cls.fields[k].1.ivar != cls.fields[j].1.ivar
    ensures Read(FromArray(cls, row, im, offset), cls.fields[j].1) == Some(ManyValue(cls, row, im, j))
  {
    var scalars := ScalarsFrom(New(cls), cls, row, im, offset, 0);
    var ones := HasOnesFrom(scalars, cls, row, im, offset, 0);
    HasManysLast(ones, cls, row, im, 0, j);
  }

  /** A has-many without a sized node and without a column of its own is left unset. */
  lemma HasManyUnsetWithoutSize(cls: SchemaClass, row: seq<Value>, im: IndexMap, offset: Option<nat>, j: nat)
    requires WellFormed(cls) && j < |cls.fields| && cls.fields[j].1.kind.HasMany?
    requires !Sized(cls, im, j) && EntryColumn(cls, im, offset, j).None?
    ensures Read(FromArray(cls, row, im, offset), cls.fields[j].1).None?
  {
    var x := cls.fields[j].1.ivar;
    WellFormedSeparated(cls);
    forall k | 0 <= k < |cls.fields| && k != j && IsAssociation(cls.fields[k].1) ensures cls.fields[k].1.ivar != x {
      AssociationStorageDistinct(cls, j, k);
    }
    var scalars := ScalarsFrom(New(cls), cls, row, im, offset, 0);
    var ones := HasOnesFrom(scalars, cls, row, im, offset, 0);
    ScalarsKeep(New(cls), cls, row, im, offset, 0, x);
    HasOnesKeep(scalars, cls, row, im, offset, 0, x);
    HasManysKeep(ones, cls, row, im, 0, x);
  }
}

=== FILE: array_headers.dfy ===
/**
 * `map_headers_to_attributes`: from a header row to the index map. FieldPass
 * are matched by key (or, under a prefix, as `prefix + N + key` for N = 1,
 * 2, ...), has-one branches inherit the prefix, and has-many branches use
 * their own `header_prefix` and record how many repetitions they found.
 */
module ArrayHeaders {
  import opened Wrappers
  import opened Strings
  import opened Values
  import opened OrderedMaps
  import opened Registry
  import opened IndexMaps

  // ---------------------------------------------------------------------
  // Repeated columns.

  /** The header of repetition `n` of a field: `prefix + n.to_s + key`. */
  function ProbeName(prefix: string, n: int, key: string): string {
    prefix + IntToString(n) + key
  }

  /** `headers.index(prefix + n.to_s + key)`: where repetition `n` is found, if anywhere. */
  function Probe(headers: seq<Value>, prefix: string, key: string, n: int): Option<nat> {
    IndexOf(headers, Str(ProbeName(prefix, n, key)))
  }

  /** `acc[j]` is where repetition `start + j` was found. */
  predicate Probed(headers: seq<Value>, prefix: string, key: string, start: int, acc: seq<nat>) {
    forall j :: 0 <= j < |acc| ==> Probe(headers, prefix, key, start + j) == Some(acc[j])
  }

  lemma ProbeNameInjective(prefix: string, a: int, b: int, key: string)
    requires ProbeName(prefix, a, key) == ProbeName(prefix, b, key)
    ensures a == b
  {
    var sa, sb := IntToString(a), IntToString(b);
    assert |sa| == |sb|;
    assert ProbeName(prefix, a, key)[|prefix|..|prefix| + |sa|] == sa;
    assert ProbeName(prefix, b, key)[|prefix|..|prefix| + |sb|] == sb;
    IntToStringInjective(a, b);
  }

  /** Different repetitions are found at different columns. */
  lemma ProbedDistinct(headers: seq<Value>, prefix: string, key: string, start: int, acc: seq<nat>)
    requires Probed(headers, prefix, key, start, acc)
    ensures forall j :: 0 <= j < |acc| ==> acc[j] < |headers|
    ensures forall j, k :: 0 <= j < k < |acc| ==> acc[j] != acc[k]
  {
    forall j, k | 0 <= j < k < |acc| ensures acc[j] != acc[k] {
      if acc[j] == acc[k] {
        assert headers[acc[j]] == Str(ProbeName(prefix, start + j, key));
        assert headers[acc[k]] == Str(ProbeName(prefix, start + k, key));
        ProbeNameInjective(prefix, start + j, start + k, key);
      }
    }
  }

  /** A list of distinct numbers below `n` has at most `n` elements. */
  lemma {:induction false} DistinctBelow(s: seq<nat>, n: nat)
    requires forall j :: 0 <= j < |s| ==> s[j] < n
    requires forall j, k :: 0 <= j < k < |s| ==> s[j] != s[k]
    ensures |s| <= n
    decreases |s|
  {
    if |s| > 0 {
      var x := s[|s| - 1];
      var t := seq(|s| - 1, j requires 0 <= j < |s| - 1 => if s[j] > x then s[j] - 1 else s[j]);
      forall j, k | 0 <= j < k < |t| ensures t[j] != t[k] {
        assert s[j] != s[k] && s[j] != x && s[k] != x;
      }
      forall j | 0 <= j < |t| ensures t[j] < n - 1 {
        assert s[j] != x;
      }
      DistinctBelow(t, n - 1);
    }
  }

  /**
   * `find_indexes_for_field`: the columns of repetitions `start`, `start+1`,
   * ..., up to the first one missing. Each is the first column with that
   * header, no column is found twice, so there are at most as many as headers.
   */
  function FindIndexes(headers: seq<Value>, prefix: string, key: string, start: int): (r: seq<nat>)
    ensures Probed(headers, prefix, key, start, r)
    ensures IndexOf(headers, Str(ProbeName(prefix, start + |r|, key))).None?
    ensures forall j, k :: 0 <= j < k < |r| ==> r[j] != r[k]
    ensures forall j :: 0 <= j < |r| ==> r[j] < |headers|
    ensures |r| <= |headers|
  {
    var r := FindIndexesFrom(headers, prefix, key, start, []);
    ProbedDistinct(headers, prefix, key, start, r);
    DistinctBelow(r, |headers|);
    r
  }

  function FindIndexesFrom(headers: seq<Value>, prefix: string, key: string, start: int, acc: seq<nat>): (r: seq<nat>)
    requires Probed(headers, prefix, key, start, acc)
    ensures Probed(headers, prefix, key, start, r)
    ensures IndexOf(headers, Str(ProbeName(prefix, start + |r|, key))).None?
    decreases |headers| - |acc|
  {
    match Probe(headers, prefix, key, start + |acc|)
    case None => acc
    case Some(i) =>
      ProbedExtend(headers, prefix, key, start, acc, i);
      FindIndexesFrom(headers, prefix, key, start, acc + [i])
  }

  /** One more repetition found: the probe still holds, and there are no more found columns than headers. */
  lemma ProbedExtend(headers: seq<Value>, prefix: string, key: string, start: int, acc: seq<nat>, i: nat)
    requires Probed(headers, prefix, key, start, acc)
    requires Probe(headers, prefix, key, start + |acc|) == Some(i)
    ensures Probed(headers, prefix, key, start, acc + [i])
    ensures |acc| + 1 <= |headers|
  {
    ProbedAppend(headers, prefix, key, start, acc, i);
    ProbedBound(headers, prefix, key, start, acc + [i]);
  }

  lemma ProbedAppend(headers: seq<Value>, prefix: string, key: string, start: int, acc: seq<nat>, i: nat)
    requires Probed(headers, prefix, key, start, acc)
    requires Probe(headers, prefix, key, start + |acc|) == Some(i)
    ensures Probed(headers, prefix, key, start, acc + [i])
  {
    var acc' := acc + [i];
    forall j | 0 <= j < |acc'| ensures Probe(headers, prefix, key, start + j) == Some(acc'[j]) {
      if j < |acc| {
        assert acc'[j] == acc[j];
      }
    }
  }

  /** No more repetitions are found than there are headers. */
  lemma ProbedBound(headers: seq<Value>, prefix: string, key: string, start: int, acc: seq<nat>)
    requires Probed(headers, prefix, key, start, acc)
    ensures |acc| <= |headers|
  {
    ProbedDistinct(headers, prefix, key, start, acc);
    DistinctBelow(acc, |headers|);
  }

  // ---------------------------------------------------------------------
  // The three passes over the registry.

  /** The name a field's match is recorded under: the aliased field for an alias. */
  function Canonical(name: string, o: FieldOptions): string {
    o.aliasOf.GetOr(name)
  }

  /**
   * The leaf of one registry entry: the first column equal to its key, or,
   * under a prefix, its repetitions counted from `starting_index` (default 1);
   * nothing when there is no match.
   */
  function FieldLeaf(headers: seq<Value>, prefix: Option<string>, o: FieldOptions): (r: Option<Node>)
    ensures prefix.None? ==> (r.Some? <==> Str(o.key) in headers)
    ensures prefix.None? && r.Some? ==> r.value == Index(IndexOf(headers, Str(o.key)).value)
    ensures prefix.Some? ==> var ix := FindIndexes(headers, prefix.value, o.key, o.startingIndex.GetOr(1));
      r == (if |ix| == 0 then None else Some(Indexes(ix)))
  {
    match prefix
    case Some(p) =>
      var ix := FindIndexes(headers, p, o.key, o.startingIndex.GetOr(1));
      if |ix| == 0 then None else Some(Indexes(ix))
    case None =>
      match IndexOf(headers, Str(o.key))
      case Some(i) => Some(Index(i))
      case None => None
  }

  /** `map_headers_to_fields`, `map_headers_to_has_one_associations`, `map_headers_to_has_many_associations` */
  datatype Pass = FieldPass | HasOnePass | HasManyPass

  // ---------------------------------------------------------------------
  // A pass as a run of assignments.

  /** `hash[k] = v` for every `Some((k, v))` in order. */
  function Assign<K(==,!new), V>(m: seq<(K, V)>, cs: seq<Option<(K, V)>>): seq<(K, V)>
    decreases |cs|
  {
    if |cs| == 0 then m
    else
      var c := cs[0];
      Assign(if c.Some? then Put(m, c.value.0, c.value.1) else m, cs[1..])
  }

  /** Reference definition: the value of the last assignment to `k`, if any. */
  function LastAssigned<K(==), V(==)>(cs: seq<Option<(K, V)>>, k: K): (r: Option<V>)
    ensures r.None? <==> forall j :: 0 <= j < |cs| ==> cs[j].None? || cs[j].value.0 != k
    ensures r.Some? ==> exists j :: (0 <= j < |cs| && cs[j] == Some((k, r.value))
      && forall l :: j < l < |cs| ==> cs[l].None? || cs[l].value.0 != k)
    decreases |cs|
  {
    if |cs| == 0 then None
    else
      var later := LastAssigned(cs[1..], k);
      assert forall j :: 0 < j < |cs| ==> cs[j] == cs[1..][j - 1];
      if later.Some? then
        var j :| (0 <= j < |cs[1..]| && cs[1..][j] == Some((k, later.value))
          && forall l :: j < l < |cs[1..]| ==> cs[1..][l].None? || cs[1..][l].value.0 != k);
        assert cs[j + 1] == Some((k, later.value));
        later
      else if cs[0].Some? && cs[0].value.0 == k then Some(cs[0].value.1)
      else None
  }

  /** The last assignment to a key wins; a key nobody assigns keeps its value. */
  lemma {:induction false} AssignLastWins<K(!new), V>(m: seq<(K, V)>, cs: seq<Option<(K, V)>>, k: K)
    ensures Get(Assign(m, cs), k) == (if LastAssigned(cs, k).Some? then LastAssigned(cs, k) else Get(m, k))
    decreases |cs|
  {
    if |cs| > 0 {
      var c := cs[0];
      var m' := if c.Some? then Put(m, c.value.0, c.value.1) else m;
      AssignLastWins(m', cs[1..], k);
    }
  }

  // ---------------------------------------------------------------------
  // The header mapper.

  /**
   * `map_headers_to_attributes(headers, header_prefix)`: the field pass, then
   * the has-one pass, then the has-many pass, each an assignment per entry.
   */
  function MapHeaders(cls: SchemaClass, headers: seq<Value>, prefix: Option<string>): (r: IndexMap)
    decreases cls, 2
  {
    var fields := Assign([], Contributions(cls, headers, prefix, FieldPass));
    var ones := Assign(fields, Contributions(cls, headers, prefix, HasOnePass));
    IndexMap(Assign(ones, Contributions(cls, headers, prefix, HasManyPass)))
  }

  /** What each entry of the registry assigns in a pass, in registry order. */
  function Contributions(cls: SchemaClass, headers: seq<Value>, prefix: Option<string>, pass: Pass): (cs: seq<Option<(string, Node)>>)
    ensures |cs| == |cls.fields|
    decreases cls, 1
  {
    seq(|cls.fields|, i requires 0 <= i < |cls.fields| => Contribution(cls, headers, prefix, pass, i))
  }

  /**
   * What entry `i` assigns in a pass. Fields: its leaf, under the canonical
   * name. Has-one: the nested map under the same prefix, when not empty.
   * Has-many: only with a `header_prefix`, the nested map under that prefix,
   * when not empty, with the largest repetition count as its size.
   */
  function Contribution(cls: SchemaClass, headers: seq<Value>, prefix: Option<string>, pass: Pass, i: nat): (r: Option<(string, Node)>)
    requires i < |cls.fields|
    ensures pass.FieldPass? ==> r.Some? == FieldLeaf(headers, prefix, cls.fields[i].1).Some?
    ensures pass.FieldPass? && r.Some? ==>
      r.value == (Canonical(cls.fields[i].0, cls.fields[i].1), FieldLeaf(headers, prefix, cls.fields[i].1).value)
    ensures pass.HasOnePass? ==> var o := cls.fields[i].1;
      r.Some? <==> o.kind.HasOne? && |MapHeaders(o.kind.meta.target, headers, prefix).entries| > 0
    ensures pass.HasOnePass? && r.Some? ==>
      r.value == (cls.fields[i].0, One(MapHeaders(cls.fields[i].1.kind.meta.target, headers, prefix)))
    ensures pass.HasManyPass? ==> var o := cls.fields[i].1;
      r.Some? <==> (o.kind.HasMany? && o.kind.meta.headerPrefix.Some?
        && |MapHeaders(o.kind.meta.target, headers, o.kind.meta.headerPrefix).entries| > 0)
    ensures pass.HasManyPass? && r.Some? ==>
      var sub := MapHeaders(cls.fields[i].1.kind.meta.target, headers, cls.fields[i].1.kind.meta.headerPrefix);
      r.value == (cls.fields[i].0, Many(Largest(sub), sub))
    decreases cls, 0
  {
    var (name, o) := cls.fields[i];
    match pass
    case FieldPass =>
      var leaf := FieldLeaf(headers, prefix, o);
      if leaf.None? then None else Some((Canonical(name, o), leaf.value))
    case HasOnePass =>
      if !o.kind.HasOne? then None
      else
        var sub := MapHeaders(o.kind.meta.target, headers, prefix);
        if |sub.entries| == 0 then None else Some((name, One(sub)))
    case HasManyPass =>
      if !o.kind.HasMany? || o.kind.meta.headerPrefix.None? then None
      else
        var sub := MapHeaders(o.kind.meta.target, headers, o.kind.meta.headerPrefix);
        if |sub.entries| == 0 then None else Some((name, Many(Largest(sub), sub)))
  }

  // ---------------------------------------------------------------------
  // What the map holds.

  /**
   * Under a well-formed class every contribution is recorded under the name
   * of a declared (non-alias) field; a branch pass only under its own name.
   */
  lemma ContributionNamesField(cls: SchemaClass, headers: seq<Value>, prefix: Option<string>, pass: Pass, j: nat)
    requires WellFormed(cls) && j < |cls.fields|
    requires Contribution(cls, headers, prefix, pass, j).Some?
    ensures var n := Contribution(cls, headers, prefix, pass, j).value.0;
      Lookup(cls, n).Some? && !IsAlias(Lookup(cls, n).value)
    ensures !pass.FieldPass? ==>
      Contribution(cls, headers, prefix, pass, j).value.0 == cls.fields[j].0 && IsAssociation(cls.fields[j].1)
  {
    var (name, o) := cls.fields[j];
    assert EntryOk(cls, j);
    GetEntry(cls.fields, j);
    if pass.FieldPass? && IsAlias(o) {
      assert CanonicalOk(cls, o);
    }
  }

  /** The three passes, as one lookup: the latest pass that assigns `n` decides. */
  lemma MapHeadersGet(cls: SchemaClass, headers: seq<Value>, prefix: Option<string>, n: string)
    ensures var f := LastAssigned(Contributions(cls, headers, prefix, FieldPass), n);
      var o := LastAssigned(Contributions(cls, headers, prefix, HasOnePass), n);
      var h := LastAssigned(Contributions(cls, headers, prefix, HasManyPass), n);
      NodeOf(MapHeaders(cls, headers, prefix), n) == (if h.Some? then h else if o.Some? then o else f)
  {
    var fields := Assign([], Contributions(cls, headers, prefix, FieldPass));
    var ones := Assign(fields, Contributions(cls, headers, prefix, HasOnePass));
    AssignLastWins([], Contributions(cls, headers, prefix, FieldPass), n);
    AssignLastWins(fields, Contributions(cls, headers, prefix, HasOnePass), n);
    AssignLastWins(ones, Contributions(cls, headers, prefix, HasManyPass), n);
  }

  /** The keys of the map name declared fields, never aliases. */
  lemma MapKeysNameFields(cls: SchemaClass, headers: seq<Value>, prefix: Option<string>, n: string)
    requires WellFormed(cls)
    requires NodeOf(MapHeaders(cls, headers, prefix), n).Some?
    ensures Lookup(cls, n).Some? && !IsAlias(Lookup(cls, n).value)
  {
    MapHeadersGet(cls, headers, prefix, n);
    if LastAssigned(Contributions(cls, headers, prefix, HasManyPass), n).Some? {
      PassNamesField(cls, headers, prefix, HasManyPass, n);
    } else if LastAssigned(Contributions(cls, headers, prefix, HasOnePass), n).Some? {
      PassNamesField(cls, headers, prefix, HasOnePass, n);
    } else {
      PassNamesField(cls, headers, prefix, FieldPass, n);
    }
  }

  /** A name some pass assigns is the name of a declared entry. */
  lemma PassNamesField(cls: SchemaClass, headers: seq<Value>, prefix: Option<string>, pass: Pass, n: string)
    requires WellFormed(cls)
    requires LastAssigned(Contributions(cls, headers, prefix, pass), n).Some?
    ensures Lookup(cls, n).Some? && !IsAlias(Lookup(cls, n).value)
  {
    var cs := Contributions(cls, headers, prefix, pass);
    var j :| 0 <= j < |cs| && cs[j].Some? && cs[j].value.0 == n;
    ContributionNamesField(cls, headers, prefix, pass, j);
  }

  /** In a branch pass nothing is assigned under the name of a plain attribute. */
  lemma BranchPassSkips(cls: SchemaClass, headers: seq<Value>, prefix: Option<string>, pass: Pass, j: nat)
    requires WellFormed(cls) && j < |cls.fields| && !pass.FieldPass?
    requires !IsAssociation(cls.fields[j].1)
    ensures LastAssigned(Contributions(cls, headers, prefix, pass), cls.fields[j].0).None?
  {
    var cs := Contributions(cls, headers, prefix, pass);
    forall k | 0 <= k < |cs| && cs[k].Some? ensures cs[k].value.0 != cls.fields[j].0 {
      ContributionNamesField(cls, headers, prefix, pass, k);
    }
  }

  /**
   * A declared attribute `n` is mapped to the leaf of the last entry whose
   * canonical name is `n` (the attribute itself or one of its aliases) and
   * whose key matched; it is absent when none matched.
   */
  lemma AttributeNode(cls: SchemaClass, headers: seq<Value>, prefix: Option<string>, j: nat)
    requires WellFormed(cls) && j < |cls.fields|
    requires !IsAssociation(cls.fields[j].1) && !IsAlias(cls.fields[j].1)
    ensures var n := cls.fields[j].0;
      var r := NodeOf(MapHeaders(cls, headers, prefix), n);
      && (r.Some? ==> exists i :: (0 <= i < |cls.fields| && Canonical(cls.fields[i].0, cls.fields[i].1) == n
            && FieldLeaf(headers, prefix, cls.fields[i].1) == r))
      && (r.None? <==> forall i :: 0 <= i < |cls.fields| && Canonical(cls.fields[i].0, cls.fields[i].1) == n ==>
            FieldLeaf(headers, prefix, cls.fields[i].1).None?)
  {
    var n := cls.fields[j].0;
    AttributeNodeFromFields(cls, headers, prefix, j);
    var cs := Contributions(cls, headers, prefix, FieldPass);
    var r := NodeOf(MapHeaders(cls, headers, prefix), n);
    forall i | 0 <= i < |cs|
      ensures (cs[i].Some? && cs[i].value.0 == n) <==>
        (Canonical(cls.fields[i].0, cls.fields[i].1) == n && FieldLeaf(headers, prefix, cls.fields[i].1).Some?)
      ensures cs[i].Some? ==> cs[i].value.1 == FieldLeaf(headers, prefix, cls.fields[i].1).value
    {
      assert cs[i] == Contribution(cls, headers, prefix, FieldPass, i);
    }
    if r.Some? {
      var i :| 0 <= i < |cs| && cs[i] == Some((n, r.value));
      assert FieldLeaf(headers, prefix, cls.fields[i].1) == r;
    }
  }

  /** Only the field pass can assign the name of a plain attribute. */
  lemma AttributeNodeFromFields(cls: SchemaClass, headers: seq<Value>, prefix: Option<string>, j: nat)
    requires WellFormed(cls) && j < |cls.fields| && !IsAssociation(cls.fields[j].1)
    ensures NodeOf(MapHeaders(cls, headers, prefix), cls.fields[j].0)
      == LastAssigned(Contributions(cls, headers, prefix, FieldPass), cls.fields[j].0)
  {
    MapHeadersGet(cls, headers, prefix, cls.fields[j].0);
    BranchPassSkips(cls, headers, prefix, HasOnePass, j);
    BranchPassSkips(cls, headers, prefix, HasManyPass, j);
  }

  /** Only entry `j` can assign its own name in a branch pass. */
  lemma BranchPassOwnName(cls: SchemaClass, headers: seq<Value>, prefix: Option<string>, pass: Pass, j: nat)
    requires WellFormed(cls) && j < |cls.fields| && !pass.FieldPass?
    requires Contribution(cls, headers, prefix, pass, j).Some?
    ensures LastAssigned(Contributions(cls, headers, prefix, pass), cls.fields[j].0)
      == Some(Contribution(cls, headers, prefix, pass, j).value.1)
  {
    var cs := Contributions(cls, headers, prefix, pass);
    var n := cls.fields[j].0;
    ContributionNamesField(cls, headers, prefix, pass, j);
    forall k | 0 <= k < |cs| && k != j && cs[k].Some? ensures cs[k].value.0 != n {
      ContributionNamesField(cls, headers, prefix, pass, k);
    }
    assert cs[j] == Contribution(cls, headers, prefix, pass, j);
    var r := LastAssigned(cs, n);
    assert r.Some?;
    var i :| 0 <= i < |cs| && cs[i] == Some((n, r.value));
    assert i == j;
  }

  /**
   * A has-one branch whose class maps any header is recorded as that nested
   * map, built under the same prefix as its parent.
   */
  lemma HasOneNode(cls: SchemaClass, headers: seq<Value>, prefix: Option<string>, j: nat)
    requires WellFormed(cls) && j < |cls.fields| && cls.fields[j].1.kind.HasOne?
    requires |MapHeaders(cls.fields[j].1.kind.meta.target, headers, prefix).entries| > 0
    ensures NodeOf(MapHeaders(cls, headers, prefix), cls.fields[j].0)
      == Some(One(MapHeaders(cls.fields[j].1.kind.meta.target, headers, prefix)))
  {
    MapHeadersGet(cls, headers, prefix, cls.fields[j].0);
    BranchPassOwnName(cls, headers, prefix, HasOnePass, j);
    HasManyPassSkips(cls, headers, prefix, j);
  }

  /** The has-many pass assigns nothing under the name of an entry that is not a has-many. */
  lemma HasManyPassSkips(cls: SchemaClass, headers: seq<Value>, prefix: Option<string>, j: nat)
    requires WellFormed(cls) && j < |cls.fields| && !cls.fields[j].1.kind.HasMany?
    ensures LastAssigned(Contributions(cls, headers, prefix, HasManyPass), cls.fields[j].0).None?
  {
    var n := cls.fields[j].0;
    var cs := Contributions(cls, headers, prefix, HasManyPass);
    forall k | 0 <= k < |cs| && cs[k].Some? ensures cs[k].value.0 != n {
      ContributionNamesField(cls, headers, prefix, HasManyPass, k);
    }
  }

  /**
   * A has-many branch with a `header_prefix` whose class maps any header is
   * recorded as the nested map built under its own prefix, whatever the
   * parent's, with the largest repetition count as its size.
   */
  lemma HasManyNode(cls: SchemaClass, headers: seq<Value>, prefix: Option<string>, j: nat)
    requires WellFormed(cls) && j < |cls.fields|
    requires cls.fields[j].1.kind.HasMany? && cls.fields[j].1.kind.meta.headerPrefix.Some?
    requires |MapHeaders(cls.fields[j].1.kind.meta.target, headers, cls.fields[j].1.kind.meta.headerPrefix).entries| > 0
    ensures var sub := MapHeaders(cls.fields[j].1.kind.meta.target, headers, cls.fields[j].1.kind.meta.headerPrefix);
      NodeOf(MapHeaders(cls, headers, prefix), cls.fields[j].0) == Some(Many(Largest(sub), sub))
  {
    MapHeadersGet(cls, headers, prefix, cls.fields[j].0);
    BranchPassOwnName(cls, headers, prefix, HasManyPass, j);
  }

  /** Every position the mapper records is a column of the header row. */
  lemma {:induction false} MapHeadersInRange(cls: SchemaClass, headers: seq<Value>, prefix: Option<string>)
    ensures InRange(MapHeaders(cls, headers, prefix), |headers|)
    decreases cls, 2
  {
    var fields := Contributions(cls, headers, prefix, FieldPass);
    var ones := Contributions(cls, headers, prefix, HasOnePass);
    var manys := Contributions(cls, headers, prefix, HasManyPass);
    ContributionsInRange(cls, headers, prefix, FieldPass);
    ContributionsInRange(cls, headers, prefix, HasOnePass);
    ContributionsInRange(cls, headers, prefix, HasManyPass);
    var m1 := Assign([], fields);
    var m2 := Assign(m1, ones);
    AssignInRange([], fields, |headers|);
    assert InRange(IndexMap(m1), |headers|);
    assert forall i :: 0 <= i < |m1| ==> NodeInRange(m1[i].1, |headers|) by {
      assert IndexMap(m1).entries == m1;
    }
    AssignInRange(m1, ones, |headers|);
    assert forall i :: 0 <= i < |m2| ==> NodeInRange(m2[i].1, |headers|) by {
      assert IndexMap(m2).entries == m2;
    }
    AssignInRange(m2, manys, |headers|);
  }

  lemma {:induction false} ContributionsInRange(cls: SchemaClass, headers: seq<Value>, prefix: Option<string>, pass: Pass)
    ensures ContributionsIn(Contributions(cls, headers, prefix, pass), |headers|)
    decreases cls, 1
  {
    var cs := Contributions(cls, headers, prefix, pass);
    forall i | 0 <= i < |cs| && cs[i].Some? ensures NodeInRange(cs[i].value.1, |headers|) {
      assert cs[i] == Contribution(cls, headers, prefix, pass, i);
      var o := cls.fields[i].1;
      match pass
      case FieldPass =>
      case HasOnePass => MapHeadersInRange(o.kind.meta.target, headers, prefix);
      case HasManyPass => MapHeadersInRange(o.kind.meta.target, headers, o.kind.meta.headerPrefix);
    }
  }

  ghost predicate ContributionsIn(cs: seq<Option<(string, Node)>>, n: nat) {
    forall i :: 0 <= i < |cs| && cs[i].Some? ==> NodeInRange(cs[i].value.1, n)
  }

  lemma {:induction false} AssignInRange(m: seq<(string, Node)>, cs: seq<Option<(string, Node)>>, n: nat)
    requires forall i :: 0 <= i < |m| ==> NodeInRange(m[i].1, n)
    requires ContributionsIn(cs, n)
    ensures InRange(IndexMap(Assign(m, cs)), n)
    decreases |cs|
  {
    if |cs| > 0 {
      var c := cs[0];
      var m' := if c.Some? then Put(m, c.value.0, c.value.1) else m;
      if c.Some? {
        PutEntries(m, c.value.0, c.value.1);
      }
      assert ContributionsIn(cs[1..], n) by {
        forall i | 0 <= i < |cs[1..]| && cs[1..][i].Some? ensures NodeInRange(cs[1..][i].value.1, n) {
          assert cs[1..][i] == cs[i + 1];
        }
      }
      AssignInRange(m', cs[1..], n);
    }
  }

  // ---------------------------------------------------------------------
  // Mapped and unmapped field names.

  /** `mapped_headers[name] || {}` for an association: its nested map, or an empty one. */
  function SubMap(im: IndexMap, name: string): (r: IndexMap)
    ensures NodeOf(im, name).Some? && (NodeOf(im, name).value.One? || NodeOf(im, name).value.Many?) ==>
      r == NodeOf(im, name).value.sub
  {
    match NodeOf(im, name)
    case Some(One(sub)) => sub
    case Some(Many(_, sub)) => sub
    case _ => EmptyMap
  }

  /** The prefix a nested class is listed under: the caller's, else the branch's own. */
  function BranchPrefix(prefix: Option<string>, o: FieldOptions): (r: Option<string>)
    requires IsAssociation(o)
    ensures prefix.Some? ==> r == prefix
    ensures prefix.None? ==> r == o.kind.meta.headerPrefix
  {
    if prefix.Some? then prefix else o.kind.meta.headerPrefix
  }

  /**
   * `generate_field_name`: the first alias when aliases are declared (an
   * empty list gives `nil.to_s`, the empty string), then `prefix + "X"` in
   * front under a prefix.
   */
  function DisplayName(name: string, o: FieldOptions, prefix: Option<string>): (r: string)
    ensures o.aliases.None? && prefix.None? ==> r == name
    ensures o.aliases.Some? && prefix.None? ==>
      r == (if |o.aliases.value| > 0 then KeyText(o.aliases.value[0]) else "")
    ensures prefix.Some? ==> r == prefix.value + "X" + DisplayName(name, o, None)
    ensures prefix.Some? ==> |r| > |prefix.value| && r[..|prefix.value| + 1] == prefix.value + "X"
    decreases if prefix.Some? then 1 else 0
  {
    var base := match o.aliases
      case Some(names) => if |names| > 0 then KeyText(names[0]) else ""
      case None => name;
    match prefix
    case Some(p) => p + "X" + base
    case None => base
  }

  /**
   * `get_field_names(mapped_headers, header_prefix, mapped)`: the names of
   * the declared attributes that are (or, with `mapped` false, are not) in
   * the im, descending into every association with its nested im.
   */
  function FieldNames(cls: SchemaClass, im: IndexMap, prefix: Option<string>, mapped: bool): seq<string>
    decreases cls, 1
  {
    FieldNamesFrom(cls, im, prefix, mapped, 0)
  }

  function FieldNamesFrom(cls: SchemaClass, im: IndexMap, prefix: Option<string>, mapped: bool, i: nat): seq<string>
    requires i <= |cls.fields|
    decreases cls, 0, |cls.fields| - i
  {
    if i == |cls.fields| then []
    else
      EntryNames(cls, im, prefix, mapped, i) + FieldNamesFrom(cls, im, prefix, mapped, i + 1)
  }

  /** What one registry entry adds to the list. */
  function EntryNames(cls: SchemaClass, im: IndexMap, prefix: Option<string>, mapped: bool, i: nat): seq<string>
    requires i < |cls.fields|
    decreases cls, 0, 0
  {
    var (name, o) := cls.fields[i];
    if IsAssociation(o) then FieldNames(o.kind.meta.target, SubMap(im, name), BranchPrefix(prefix, o), mapped)
    else if IsAlias(o) || NodeOf(im, name).Some? != mapped then []
    else [DisplayName(name, o, prefix)]
  }

  /** Reference definition: every name `get_field_names` can list, mapped or not. */
  function AllFieldNames(cls: SchemaClass, prefix: Option<string>): seq<string>
    decreases cls, 1
  {
    AllFieldNamesFrom(cls, prefix, 0)
  }

  function AllFieldNamesFrom(cls: SchemaClass, prefix: Option<string>, i: nat): seq<string>
    requires i <= |cls.fields|
    decreases cls, 0, |cls.fields| - i
  {
    if i == |cls.fields| then []
    else
      AllEntryNames(cls, prefix, i) + AllFieldNamesFrom(cls, prefix, i + 1)
  }

  function AllEntryNames(cls: SchemaClass, prefix: Option<string>, i: nat): seq<string>
    requires i < |cls.fields|
    decreases cls, 0, 0
  {
    var (name, o) := cls.fields[i];
    if IsAssociation(o) then AllFieldNames(o.kind.meta.target, BranchPrefix(prefix, o))
    else if IsAlias(o) then []
    else [DisplayName(name, o, prefix)]
  }

  /**
   * `get_mapped_field_names` and `get_unmapped_field_names` split the field
   * names between them: every name is listed by exactly one of the two,
   * whatever the map.
   */
  lemma {:induction false} MappedUnmappedPartition(cls: SchemaClass, im: IndexMap, prefix: Option<string>)
    ensures multiset(FieldNames(cls, im, prefix, true)) + multiset(FieldNames(cls, im, prefix, false))
      == multiset(AllFieldNames(cls, prefix))
    decreases cls, 1
  {
    PartitionFrom(cls, im, prefix, 0);
  }

  lemma {:induction false} PartitionFrom(cls: SchemaClass, im: IndexMap, prefix: Option<string>, i: nat)
    requires i <= |cls.fields|
    ensures multiset(FieldNamesFrom(cls, im, prefix, true, i)) + multiset(FieldNamesFrom(cls, im, prefix, false, i))
      == multiset(AllFieldNamesFrom(cls, prefix, i))
    decreases cls, 0, |cls.fields| - i
  {
    if i < |cls.fields| {
      var t, f, all := EntryNames(cls, im, prefix, true, i), EntryNames(cls, im, prefix, false, i), AllEntryNames(cls, prefix, i);
      EntryPartition(cls, im, prefix, i);
      PartitionFrom(cls, im, prefix, i + 1);
      assert FieldNamesFrom(cls, im, prefix, true, i) == t + FieldNamesFrom(cls, im, prefix, true, i + 1);
      assert FieldNamesFrom(cls, im, prefix, false, i) == f + FieldNamesFrom(cls, im, prefix, false, i + 1);
      assert AllFieldNamesFrom(cls, prefix, i) == all + AllFieldNamesFrom(cls, prefix, i + 1);
    }
  }

  lemma {:induction false} EntryPartition(cls: SchemaClass, im: IndexMap, prefix: Option<string>, i: nat)
    requires i < |cls.fields|
    ensures multiset(EntryNames(cls, im, prefix, true, i)) + multiset(EntryNames(cls, im, prefix, false, i))
      == multiset(AllEntryNames(cls, prefix, i))
    decreases cls, 0, 0
  {
    var (name, o) := cls.fields[i];
    if IsAssociation(o) {
      MappedUnmappedPartition(o.kind.meta.target, SubMap(im, name), BranchPrefix(prefix, o));
    }
  }

  /** Every name an entry contributes is in the list from any earlier position on. */
  lemma {:induction false} EntryNamesListed(cls: SchemaClass, im: IndexMap, prefix: Option<string>, mapped: bool, i: nat, j: nat)
    requires i <= j < |cls.fields|
    ensures forall x :: x in EntryNames(cls, im, prefix, mapped, j) ==> x in FieldNamesFrom(cls, im, prefix, mapped, i)
    decreases j - i
  {
    if i < j {
      EntryNamesListed(cls, im, prefix, mapped, i + 1, j);
    }
  }

  /** Every listed name was contributed by some entry at or after position `i`. */
  lemma {:induction false} ListedFromEntry(cls: SchemaClass, im: IndexMap, prefix: Option<string>, mapped: bool, i: nat, x: string)
    requires i <= |cls.fields| && x in FieldNamesFrom(cls, im, prefix, mapped, i)
    ensures exists j :: i <= j < |cls.fields| && x in EntryNames(cls, im, prefix, mapped, j)
    decreases |cls.fields| - i
  {
    if x !in EntryNames(cls, im, prefix, mapped, i) {
      ListedFromEntry(cls, im, prefix, mapped, i + 1, x);
    }
  }

  /**
   * A declared attribute (not an alias) is listed under its display name by
   * `get_mapped_field_names` when the map has a node for it and by
   * `get_unmapped_field_names` when it has none; the other call gets
   * nothing from it.
   */
  lemma AttributeListed(cls: SchemaClass, im: IndexMap, prefix: Option<string>, j: nat)
    requires j < |cls.fields| && !IsAlias(cls.fields[j].1) && !IsAssociation(cls.fields[j].1)
    ensures var here := NodeOf(im, cls.fields[j].0).Some?;
      && DisplayName(cls.fields[j].0, cls.fields[j].1, prefix) in FieldNames(cls, im, prefix, here)
      && EntryNames(cls, im, prefix, !here, j) == []
  {
    EntryNamesListed(cls, im, prefix, NodeOf(im, cls.fields[j].0).Some?, 0, j);
  }

  /** An alias entry contributes no name: every listed name comes from another entry. */
  lemma AliasNotListed(cls: SchemaClass, im: IndexMap, prefix: Option<string>, mapped: bool, j: nat, x: string)
    requires j < |cls.fields| && IsAlias(cls.fields[j].1) && !IsAssociation(cls.fields[j].1)
    requires x in FieldNames(cls, im, prefix, mapped)
    ensures exists k :: 0 <= k < |cls.fields| && k != j && x in EntryNames(cls, im, prefix, mapped, k)
  {
    ListedFromEntry(cls, im, prefix, mapped, 0, x);
  }

  /**
   * An association's names, listed by its class against its nested map and
   * under the caller's prefix or else its own, are all in the parent's list.
   */
  lemma AssociationListed(cls: SchemaClass, im: IndexMap, prefix: Option<string>, mapped: bool, j: nat)
    requires j < |cls.fields| && IsAssociation(cls.fields[j].1)
    ensures var (name, o) := cls.fields[j];
      forall x :: x in FieldNames(o.kind.meta.target, SubMap(im, name), BranchPrefix(prefix, o), mapped) ==>
        x in FieldNames(cls, im, prefix, mapped)
  {
    EntryNamesListed(cls, im, prefix, mapped, 0, j);
  }
}

=== FILE: assign.dfy ===
/**
 * `Schema::Assign.update_model`: copies a decoded schema tree into a plain
 * target object, attribute by attribute, through optional include and
 * exclude filters; has-one objects are reused or built, has-many elements
 * are matched by `id` or appended.
 */
module Assign {
  import opened Wrappers
  import opened Strings
  import opened Values
  import opened OrderedMaps
  import opened Registry
  import opened Instances
  import opened HashDecoder

  /**
   * The target object: attribute values under their getter names, has-one
   * objects and has-many lists under the association's getter.
   */
  datatype Target = Target(attrs: seq<(string, Value)>, ones: seq<(string, Target)>, manys: seq<(string, seq<Target>)>)

  /** `build_<name>` / `collection.new`: an object with nothing set. */
  const Blank := Target([], [], [])

  /** `filter.call(schema, model, field_name, value, field_options)` */
  type Filter = (Model, Target, string, Value, FieldOptions) -> bool

  /** What `update_model` raises: an association flag on an attribute, or a nil has-many element. */
  datatype Failure = UnknownAssociationType | NilElement

  /** `model.id` */
  function TargetId(t: Target): Value {
    Get(t.attrs, "id").GetOr(Nil)
  }

  /** Both filters let the value through: the include filter, when given, accepts it and the exclude filter, when given, does not. */
  predicate Admits(incl: Option<Filter>, excl: Option<Filter>, schema: Model, t: Target, name: string, value: Value, o: FieldOptions) {
    && (incl.None? || incl.value(schema, t, name, value, o))
    && (excl.None? || !excl.value(schema, t, name, value, o))
  }

  /** Whether `update_model` copies entry `i` as a plain value: a declared, unflagged field. */
  predicate CopiesValue(cls: SchemaClass, i: nat)
    requires i < |cls.fields|
  {
    !IsAlias(cls.fields[i].1) && !cls.fields[i].1.association
  }

  /** `update_model(schema:, model:, include_filter:, exclude_filter:)` */
  function UpdateModel(schema: Model, t: Target, incl: Option<Filter>, excl: Option<Filter>): (r: Result<Target, Failure>)
    decreases schema, 2
  {
    UpdateFrom(schema, t, incl, excl, 0)
  }

  function UpdateFrom(schema: Model, t: Target, incl: Option<Filter>, excl: Option<Filter>, i: nat): (r: Result<Target, Failure>)
    requires i <= |schema.cls.fields|
    decreases schema, 1, |schema.cls.fields| - i
  {
    if i == |schema.cls.fields| then Success(t)
    else
      var (name, o) := schema.cls.fields[i];
      if IsAlias(o) then UpdateFrom(schema, t, incl, excl, i + 1)
      else if o.association then
        match UpdateAssociation(schema, t, o, incl, excl)
        case Failure(e) => Failure(e)
        case Success(t') => UpdateFrom(schema, t', incl, excl, i + 1)
      else
        UpdateFrom(schema, CopyValue(schema, t, name, o, incl, excl), incl, excl, i + 1)
  }

  /** One plain value: read through the schema's getter, written through the target's setter when admitted. */
  function CopyValue(schema: Model, t: Target, name: string, o: FieldOptions, incl: Option<Filter>, excl: Option<Filter>): (r: Target)
    ensures r.ones == t.ones && r.manys == t.manys
    ensures var value := SlotValue(Read(schema, o));
      Get(r.attrs, o.getter) == (if Admits(incl, excl, schema, t, name, value, o) then Some(value) else Get(t.attrs, o.getter))
    ensures forall g :: g != o.getter ==> Get(r.attrs, g) == Get(t.attrs, g)
  {
    var value := SlotValue(Read(schema, o));
    if Admits(incl, excl, schema, t, name, value, o) then t.(attrs := Put(t.attrs, o.getter, value)) else t
  }

  /**
   * `update_association`: has-one and has-many copy their nested models;
   * any other kind raises.
   */
  function UpdateAssociation(schema: Model, t: Target, o: FieldOptions, incl: Option<Filter>, excl: Option<Filter>): (r: Result<Target, Failure>)
    ensures o.kind.Attribute? ==> r == Failure(UnknownAssociationType)
    ensures r.Success? ==> r.value.attrs == t.attrs
    ensures r.Success? && o.kind.HasOne? ==>
      r.value.manys == t.manys && forall g :: g != o.getter ==> Get(r.value.ones, g) == Get(t.ones, g)
    ensures r.Success? && o.kind.HasMany? ==>
      r.value.ones == t.ones && forall g :: g != o.getter ==> Get(r.value.manys, g) == Get(t.manys, g)
    ensures !(Read(schema, o).Some? && Read(schema, o).value.One?) && o.kind.HasOne? ==> r == Success(t)
    ensures !(Read(schema, o).Some? && Read(schema, o).value.Many?) && o.kind.HasMany? ==> r == Success(t)
    decreases schema, 0
  {
    if o.kind.Attribute? then Failure(UnknownAssociationType)
    else
      match Find(schema.ivars, o.ivar)
      case None => Success(t)
      case Some(p) =>
        var slot := schema.ivars[p].1;
        assert slot < schema;
        if o.kind.HasOne? then
          match slot
          case One(sm) => (
            match UpdateModel(sm, Get(t.ones, o.getter).GetOr(Blank), incl, excl)
            case Failure(e) => Failure(e)
            case Success(u) => Success(t.(ones := Put(t.ones, o.getter, u))))
          case _ => Success(t)
        else
          match slot
          case Many(_) => (
            match UpdateEach(slot, Get(t.manys, o.getter).GetOr([]), incl, excl, 0)
            case Failure(e) => Failure(e)
            case Success(list) => Success(t.(manys := Put(t.manys, o.getter, list))))
          case _ => Success(t)
  }

  /**
   * A has-one with a nested model is copied into the target's existing
   * object, or into a freshly built one, with the same filters.
   */
  lemma HasOneReusesOrBuilds(schema: Model, t: Target, o: FieldOptions, incl: Option<Filter>, excl: Option<Filter>, sm: Model)
    requires o.kind.HasOne? && Read(schema, o) == Some(Slot.One(sm))
    ensures var base := Get(t.ones, o.getter).GetOr(Blank);
      var r := UpdateAssociation(schema, t, o, incl, excl);
      && (r.Success? <==> UpdateModel(sm, base, incl, excl).Success?)
      && (r.Success? ==> Get(r.value.ones, o.getter) == Some(UpdateModel(sm, base, incl, excl).value))
  {
  }

  /**
   * A has-many with a list is copied element by element into the target's
   * list (an empty one when it has none), with the same filters.
   */
  lemma HasManyUpdatesList(schema: Model, t: Target, o: FieldOptions, incl: Option<Filter>, excl: Option<Filter>, s: Slot)
    requires o.kind.HasMany? && Read(schema, o) == Some(s) && s.Many?
    ensures var r := UpdateAssociation(schema, t, o, incl, excl);
      var each := UpdateEach(s, Get(t.manys, o.getter).GetOr([]), incl, excl, 0);
      && (r.Success? <==> each.Success?)
      && (r.Success? ==> Get(r.value.manys, o.getter) == Some(each.value))
  {
  }

  /** The first element of the target's list whose `id` equals `id`. */
  function MatchId(list: seq<Target>, id: Value): (r: Option<nat>)
    ensures r.Some? ==> r.value < |list| && TargetId(list[r.value]) == id
    ensures r.Some? ==> forall p :: 0 <= p < r.value ==> TargetId(list[p]) != id
    ensures r.None? <==> forall p :: 0 <= p < |list| ==> TargetId(list[p]) != id
  {
    var ids := seq(|list|, p requires 0 <= p < |list| => TargetId(list[p]));
    assert forall p :: 0 <= p < |list| ==> ids[p] == TargetId(list[p]);
    IndexOf(ids, id)
  }

  /** `schema_associations.each`: every element updates its match or is appended. */
  function UpdateEach(s: Slot, list: seq<Target>, incl: Option<Filter>, excl: Option<Filter>, k: nat): (r: Result<seq<Target>, Failure>)
    requires s.Many? && k <= |s.items|
    ensures r.Success? ==> |list| <= |r.value| <= |list| + (|s.items| - k)
    decreases s, 0, |s.items| - k
  {
    if k == |s.items| then Success(list)
    else
      match s.items[k]
      case None => Failure(NilElement)
      case Some(e) =>
        match UpdateElement(list, e, incl, excl)
        case Failure(f) => Failure(f)
        case Success(list') => UpdateEach(s, list', incl, excl, k + 1)
  }

  /**
   * One schema element: the first target element with the same `id` is
   * updated in place; without one, a new element is appended.
   */
  function UpdateElement(list: seq<Target>, e: Model, incl: Option<Filter>, excl: Option<Filter>): (r: Result<seq<Target>, Failure>)
    ensures r.Success? ==> var pos := MatchId(list, CallGetter(e, "id"));
      && (pos.Some? ==> |r.value| == |list| && forall p :: 0 <= p < |list| && p != pos.value ==> r.value[p] == list[p])
      && (pos.None? ==> |r.value| == |list| + 1 && r.value[..|list|] == list)
    decreases e, 3
  {
    var pos := MatchId(list, CallGetter(e, "id"));
    var base := if pos.Some? then list[pos.value] else Blank;
    match UpdateModel(e, base, incl, excl)
    case Failure(f) => Failure(f)
    case Success(u) => Success(if pos.Some? then list[pos.value := u] else list + [u])
  }

  // ---------------------------------------------------------------------
  // What a copy changes.

  /** Whether some declared field of the class writes the target attribute `g`. */
  predicate WritesAttr(cls: SchemaClass, g: string) {
    exists j :: 0 <= j < |cls.fields| && CopiesValue(cls, j) && cls.fields[j].1.getter == g
  }

  /** Whether some declared association of the class writes the target association `g`. */
  predicate WritesAssociation(cls: SchemaClass, g: string) {
    exists j :: (0 <= j < |cls.fields| && !IsAlias(cls.fields[j].1) && cls.fields[j].1.association
      && cls.fields[j].1.getter == g)
  }

  /**
   * Target attributes and associations that no declared field of the schema
   * names keep their values.
   */
  lemma {:induction false} UpdateFrame(schema: Model, t: Target, incl: Option<Filter>, excl: Option<Filter>, i: nat, g: string)
    requires i <= |schema.cls.fields|
    requires UpdateFrom(schema, t, incl, excl, i).Success?
    ensures var r := UpdateFrom(schema, t, incl, excl, i).value;
      && (!WritesAttr(schema.cls, g) ==> Get(r.attrs, g) == Get(t.attrs, g))
      && (!WritesAssociation(schema.cls, g) ==> Get(r.ones, g) == Get(t.ones, g) && Get(r.manys, g) == Get(t.manys, g))
    decreases |schema.cls.fields| - i
  {
    if i < |schema.cls.fields| {
      UpdateFromStep(schema, t, incl, excl, i);
      UpdateFrame(schema, Next(schema, t, incl, excl, i), incl, excl, i + 1, g);
      NextFrame(schema, t, incl, excl, i, g);
    }
  }

  /** The target after entry `i` (unchanged when the entry raises). */
  function Next(schema: Model, t: Target, incl: Option<Filter>, excl: Option<Filter>, i: nat): Target
    requires i < |schema.cls.fields|
  {
    var (name, o) := schema.cls.fields[i];
    if IsAlias(o) then t
    else if o.association then
      match UpdateAssociation(schema, t, o, incl, excl)
      case Success(t') => t'
      case Failure(_) => t
    else CopyValue(schema, t, name, o, incl, excl)
  }

  /** A copy that succeeds from entry `i` is entry `i`'s step, then a copy that succeeds from `i + 1`. */
  lemma UpdateFromStep(schema: Model, t: Target, incl: Option<Filter>, excl: Option<Filter>, i: nat)
    requires i < |schema.cls.fields| && UpdateFrom(schema, t, incl, excl, i).Success?
    ensures UpdateFrom(schema, Next(schema, t, incl, excl, i), incl, excl, i + 1) == UpdateFrom(schema, t, incl, excl, i)
  {
  }

  /** Entry `i` changes only the attribute or association its getter names. */
  lemma NextFrame(schema: Model, t: Target, incl: Option<Filter>, excl: Option<Filter>, i: nat, g: string)
    requires i < |schema.cls.fields| && UpdateFrom(schema, t, incl, excl, i).Success?
    ensures var t' := Next(schema, t, incl, excl, i);
      && (!WritesAttr(schema.cls, g) ==> Get(t'.attrs, g) == Get(t.attrs, g))
      && (!WritesAssociation(schema.cls, g) ==> Get(t'.ones, g) == Get(t.ones, g) && Get(t'.manys, g) == Get(t.manys, g))
  {
    var o := schema.cls.fields[i].1;
    if !IsAlias(o) && o.association {
      if !WritesAssociation(schema.cls, g) {
        assert o.getter != g;
      }
    } else if !IsAlias(o) {
      if !WritesAttr(schema.cls, g) {
        assert CopiesValue(schema.cls, i);
      }
    }
  }

  /**
   * A declared field whose getter no other declared field shares ends up
   * with its schema value exactly when the filters admit it, judged against
   * the target as it stands when the field's turn comes (in which the
   * attribute still holds its original value); otherwise it is untouched.
   */
  lemma FiltersDecide(schema: Model, t: Target, incl: Option<Filter>, excl: Option<Filter>, i: nat, j: nat)
    requires i <= j < |schema.cls.fields| && SoleWriter(schema.cls, j)
    requires UpdateFrom(schema, t, incl, excl, i).Success?
    ensures var g := schema.cls.fields[j].1.getter;
      Get(UpdateFrom(schema, t, incl, excl, i).value.attrs, g)
        == Decided(schema, incl, excl, j, TargetBefore(schema, t, incl, excl, i, j), Get(t.attrs, g))
  {
    var u := TargetBefore(schema, t, incl, excl, i, j);
    ResumeAt(schema, t, incl, excl, i, j);
    CopyDecides(schema, u, incl, excl, j);
    TargetBeforeKeeps(schema, t, incl, excl, i, j);
  }

  /** A copy from entry `i` is the copy resumed at entry `j` from the target as it stands then. */
  lemma {:induction false} ResumeAt(schema: Model, t: Target, incl: Option<Filter>, excl: Option<Filter>, i: nat, j: nat)
    requires i <= j < |schema.cls.fields|
    requires UpdateFrom(schema, t, incl, excl, i).Success?
    ensures UpdateFrom(schema, TargetBefore(schema, t, incl, excl, i, j), incl, excl, j) == UpdateFrom(schema, t, incl, excl, i)
    decreases j - i
  {
    if i < j {
      UpdateFromStep(schema, t, incl, excl, i);
      var t' := Next(schema, t, incl, excl, i);
      ResumeAt(schema, t', incl, excl, i + 1, j);
      TargetBeforeStep(schema, t, incl, excl, i, j);
    } else {
      assert TargetBefore(schema, t, incl, excl, i, j) == t;
    }
  }

  lemma TargetBeforeStep(schema: Model, t: Target, incl: Option<Filter>, excl: Option<Filter>, i: nat, j: nat)
    requires i < j < |schema.cls.fields|
    ensures TargetBefore(schema, t, incl, excl, i, j) == TargetBefore(schema, Next(schema, t, incl, excl, i), incl, excl, i + 1, j)
  {
  }

  /** Up to entry `j`'s turn, the attribute only entry `j` writes keeps its value. */
  lemma {:induction false} TargetBeforeKeeps(schema: Model, t: Target, incl: Option<Filter>, excl: Option<Filter>, i: nat, j: nat)
    requires i <= j < |schema.cls.fields| && SoleWriter(schema.cls, j)
    ensures var g := schema.cls.fields[j].1.getter;
      Get(TargetBefore(schema, t, incl, excl, i, j).attrs, g) == Get(t.attrs, g)
    decreases j - i
  {
    if i < j {
      TargetBeforeKeeps(schema, Next(schema, t, incl, excl, i), incl, excl, i + 1, j);
      NextKeepsOwnedAttr(schema, t, incl, excl, i, j);
      TargetBeforeStep(schema, t, incl, excl, i, j);
    }
  }

  /**
   * What entry `j`'s attribute holds after its turn, given the target `t'`
   * at that turn and the value `orig` the attribute had: the schema value
   * when the filters admit it, `orig` otherwise.
   */
  function Decided(schema: Model, incl: Option<Filter>, excl: Option<Filter>, j: nat, t': Target, orig: Option<Value>): Option<Value>
    requires j < |schema.cls.fields|
  {
    var (name, o) := schema.cls.fields[j];
    var value := SlotValue(Read(schema, o));
    if Admits(incl, excl, schema, t', name, value, o) then Some(value) else orig
  }

  /** The target as it stands when entry `j`'s turn comes, in a copy from entry `i`. */
  function TargetBefore(schema: Model, t: Target, incl: Option<Filter>, excl: Option<Filter>, i: nat, j: nat): Target
    requires i <= j < |schema.cls.fields|
    decreases j - i
  {
    if i == j then t else TargetBefore(schema, Next(schema, t, incl, excl, i), incl, excl, i + 1, j)
  }

  /** Entry `j`'s own turn: the filters decide against the target as it stands, and no later entry overwrites it. */
  lemma CopyDecides(schema: Model, t: Target, incl: Option<Filter>, excl: Option<Filter>, j: nat)
    requires j < |schema.cls.fields| && SoleWriter(schema.cls, j)
    requires UpdateFrom(schema, t, incl, excl, j).Success?
    ensures var g := schema.cls.fields[j].1.getter;
      Get(UpdateFrom(schema, t, incl, excl, j).value.attrs, g) == Decided(schema, incl, excl, j, t, Get(t.attrs, g))
  {
    UpdateFromStep(schema, t, incl, excl, j);
    UpdateFrameAfter(schema, Next(schema, t, incl, excl, j), incl, excl, j + 1, schema.cls.fields[j].1.getter);
  }

  /** Entry `j` is copied as a plain value and no other such entry shares its getter. */
  ghost predicate SoleWriter(cls: SchemaClass, j: nat)
    requires j < |cls.fields|
  {
    && CopiesValue(cls, j)
    && forall k :: 0 <= k < |cls.fields| && k != j && CopiesValue(cls, k) ==> cls.fields[k].1.getter != cls.fields[j].1.getter
  }

  /** An entry before `j` leaves the attribute only entry `j` writes as it was. */
  lemma NextKeepsOwnedAttr(schema: Model, t: Target, incl: Option<Filter>, excl: Option<Filter>, i: nat, j: nat)
    requires i < j < |schema.cls.fields| && SoleWriter(schema.cls, j)
    ensures var g := schema.cls.fields[j].1.getter;
      Get(Next(schema, t, incl, excl, i).attrs, g) == Get(t.attrs, g)
  {
  }

  /** No later field writes a getter that only entry before `i` owns. */
  lemma {:induction false} UpdateFrameAfter(schema: Model, t: Target, incl: Option<Filter>, excl: Option<Filter>, i: nat, g: string)
    requires i <= |schema.cls.fields|
    requires forall k :: i <= k < |schema.cls.fields| && CopiesValue(schema.cls, k) ==> schema.cls.fields[k].1.getter != g
    requires UpdateFrom(schema, t, incl, excl, i).Success?
    ensures Get(UpdateFrom(schema, t, incl, excl, i).value.attrs, g) == Get(t.attrs, g)
    decreases |schema.cls.fields| - i
  {
    if i < |schema.cls.fields| {
      UpdateFromStep(schema, t, incl, excl, i);
      UpdateFrameAfter(schema, Next(schema, t, incl, excl, i), incl, excl, i + 1, g);
    }
  }

  /** Without filters every declared field with its own getter is copied. */
  lemma NoFiltersCopyAll(schema: Model, t: Target, j: nat)
    requires j < |schema.cls.fields| && CopiesValue(schema.cls, j)
    requires forall k :: 0 <= k < |schema.cls.fields| && k != j && CopiesValue(schema.cls, k) ==>
      schema.cls.fields[k].1.getter != schema.cls.fields[j].1.getter
    requires UpdateModel(schema, t, None, None).Success?
    ensures var o := schema.cls.fields[j].1;
      Get(UpdateModel(schema, t, None, None).value.attrs, o.getter) == Some(SlotValue(Read(schema, o)))
  {
    FiltersDecide(schema, t, None, None, 0, j);
  }

  /** A flagged entry that is not a has-one or has-many makes the whole copy raise. */
  lemma {:induction false} FlaggedAttributeRaises(schema: Model, t: Target, incl: Option<Filter>, excl: Option<Filter>, i: nat, j: nat)
    requires i <= j < |schema.cls.fields|
    requires !IsAlias(schema.cls.fields[j].1) && schema.cls.fields[j].1.association && schema.cls.fields[j].1.kind.Attribute?
    ensures UpdateFrom(schema, t, incl, excl, i).Failure?
    decreases j - i
  {
    var (name, o) := schema.cls.fields[i];
    if i < j && !(o.association && !IsAlias(o) && UpdateAssociation(schema, t, o, incl, excl).Failure?) {
      var t' :=
        if IsAlias(o) then t
        else if o.association then UpdateAssociation(schema, t, o, incl, excl).value
        else CopyValue(schema, t, name, o, incl, excl);
      assert UpdateFrom(schema, t, incl, excl, i) == UpdateFrom(schema, t', incl, excl, i + 1);
      FlaggedAttributeRaises(schema, t', incl, excl, i + 1, j);
    }
  }

  // ---------------------------------------------------------------------
  // Has-many lists.

  /**
   * An element of the target's list whose `id` no remaining schema element
   * carries keeps its position and its contents.
   */
  lemma {:induction false} UnmatchedElementKept(s: Slot, list: seq<Target>, incl: Option<Filter>, excl: Option<Filter>, k: nat, p: nat)
    requires s.Many? && k <= |s.items| && p < |list|
    requires forall q :: k <= q < |s.items| && s.items[q].Some? ==> CallGetter(s.items[q].value, "id") != TargetId(list[p])
    requires UpdateEach(s, list, incl, excl, k).Success?
    ensures p < |UpdateEach(s, list, incl, excl, k).value| && UpdateEach(s, list, incl, excl, k).value[p] == list[p]
    decreases |s.items| - k
  {
    if k < |s.items| {
      var e := s.items[k].value;
      var list' := UpdateElement(list, e, incl, excl).value;
      var pos := MatchId(list, CallGetter(e, "id"));
      assert pos.Some? ==> pos.value != p;
      assert list'[p] == list[p];
      UnmatchedElementKept(s, list', incl, excl, k + 1, p);
    }
  }

  /** A nil element in the schema's list makes the copy raise. */
  lemma {:induction false} NilElementRaises(s: Slot, list: seq<Target>, incl: Option<Filter>, excl: Option<Filter>, k: nat, q: nat)
    requires s.Many? && k <= q < |s.items| && s.items[q].None?
    ensures UpdateEach(s, list, incl, excl, k).Failure?
    decreases q - k
  {
    if k < q && s.items[k].Some? {
      var r := UpdateElement(list, s.items[k].value, incl, excl);
      if r.Success? {
        NilElementRaises(s, r.value, incl, excl, k + 1, q);
      }
    }
  }
}

=== FILE: csv_parser.dfy ===
/**
 * `Schema::CSVParser`: the header row is mapped once, when the parser is
 * built, and every later row is decoded against that one map. The parser
 * can also list the header names its map uses and the required fields it
 * does not.
 */
module CsvParser {
  import opened Wrappers
  import opened Values
  import opened OrderedMaps
  import opened Registry
  import opened IndexMaps
  import opened Instances
  import opened ArrayHeaders
  import opened ArrayDecoder

  /** The parser's state: the schema class, the header row, its map, and the rows not read yet. */
  datatype Parser = Parser(cls: SchemaClass, headers: seq<Value>, im: IndexMap, rows: seq<seq<Value>>)

  /**
   * `CSVParser.new(csv, schema_class, headers)`: the given headers, else the
   * first row; the map is built here. Without either there is no parser.
   */
  function NewParser(rows: seq<seq<Value>>, cls: SchemaClass, headers: Option<seq<Value>>): (p: Option<Parser>)
    ensures p.None? <==> headers.None? && |rows| == 0
    ensures p.Some? ==> p.value.cls == cls && p.value.im == MapHeaders(cls, p.value.headers, None)
    ensures p.Some? && headers.Some? ==> p.value.headers == headers.value && p.value.rows == rows
    ensures p.Some? && headers.None? ==> p.value.headers == rows[0] && p.value.rows == rows[1..]
  {
    match headers
    case Some(hs) => Some(Parser(cls, hs, MapHeaders(cls, hs, None), rows))
    case None =>
      if |rows| == 0 then None
      else Some(Parser(cls, rows[0], MapHeaders(cls, rows[0], None), rows[1..]))
  }

  /** `shift`: nil once the rows run out; otherwise the next row decoded against the parser's map. */
  function Shift(p: Parser): (r: Option<(Model, Parser)>)
    ensures r.None? <==> |p.rows| == 0
    ensures r.Some? ==> r.value.0 == FromArray(p.cls, p.rows[0], p.im, None)
    ensures r.Some? ==> r.value.1 == p.(rows := p.rows[1..])
  {
    if |p.rows| == 0 then None
    else Some((FromArray(p.cls, p.rows[0], p.im, None), p.(rows := p.rows[1..])))
  }

  /** The parser after `k` shifts. */
  function Advanced(p: Parser, k: nat): (q: Parser)
    requires k <= |p.rows|
    ensures q.cls == p.cls && q.headers == p.headers && q.im == p.im && q.rows == p.rows[k..]
    decreases k
  {
    if k == 0 then p
    else
      var q := Advanced(p, k - 1);
      assert q.rows[1..] == p.rows[k..];
      q.(rows := q.rows[1..])
  }

  /**
   * The map is computed once: the k-th shift decodes the k-th row against
   * the map the constructor built from the header row.
   */
  lemma {:induction false} ShiftUsesConstructorMap(rows: seq<seq<Value>>, cls: SchemaClass, headers: Option<seq<Value>>, k: nat)
    requires NewParser(rows, cls, headers).Some?
    requires k < |NewParser(rows, cls, headers).value.rows|
    ensures var p := NewParser(rows, cls, headers).value;
      var r := Shift(Advanced(p, k));
      && r.Some?
      && r.value.0 == FromArray(cls, p.rows[k], MapHeaders(cls, p.headers, None), None)
      && r.value.1 == Advanced(p, k + 1)
  {
    var p := NewParser(rows, cls, headers).value;
    var q := Advanced(p, k);
    assert q.rows[0] == p.rows[k];
  }

  // ---------------------------------------------------------------------
  // Mapped header names.

  /** `@headers[index]` for each position (`RowAt`: nil past the end of the header row). */
  function HeadersAt(headers: seq<Value>, ats: seq<nat>): (hs: seq<Value>)
    ensures |hs| == |ats|
    ensures forall j :: 0 <= j < |ats| ==> hs[j] == RowAt(headers, ats[j])
  {
    seq(|ats|, j requires 0 <= j < |ats| => RowAt(headers, ats[j]))
  }

  /**
   * `get_mapped_headers`, as it is evidently meant to read the map: the
   * header of every `index` leaf and of every entry of every `indexes`
   * leaf, in map order, descending into has-one and has-many branches
   * (a has-many's size is not a leaf).
   */
  function MappedHeaders(headers: seq<Value>, im: IndexMap): seq<Value>
    decreases im, 1
  {
    MappedHeadersFrom(headers, im, 0)
  }

  function MappedHeadersFrom(headers: seq<Value>, im: IndexMap, i: nat): seq<Value>
    requires i <= |im.entries|
    decreases im, 0, |im.entries| - i
  {
    if i == |im.entries| then []
    else NodeHeaders(headers, im.entries[i].1) + MappedHeadersFrom(headers, im, i + 1)
  }

  function NodeHeaders(headers: seq<Value>, n: Node): seq<Value>
    decreases n, 2
  {
    match n
    case Index(at) => [RowAt(headers, at)]
    case Indexes(ats) => HeadersAt(headers, ats)
    case One(sub) => MappedHeaders(headers, sub)
    case Many(_, sub) => MappedHeaders(headers, sub)
  }

  /** Every header name a map in range yields is a name from the header row. */
  lemma {:induction false} MappedHeadersFromRow(headers: seq<Value>, im: IndexMap)
    requires InRange(im, |headers|)
    ensures forall h :: h in MappedHeaders(headers, im) ==> h in headers
    decreases im, 1
  {
    MappedHeadersFromRowFrom(headers, im, 0);
  }

  lemma {:induction false} MappedHeadersFromRowFrom(headers: seq<Value>, im: IndexMap, i: nat)
    requires i <= |im.entries| && InRange(im, |headers|)
    ensures forall h :: h in MappedHeadersFrom(headers, im, i) ==> h in headers
    decreases im, 0, |im.entries| - i
  {
    if i < |im.entries| {
      var node := im.entries[i].1;
      assert NodeInRange(node, |headers|);
      MappedHeadersFromRowFrom(headers, im, i + 1);
      if node.One? || node.Many? {
        MappedHeadersFromRow(headers, node.sub);
      }
    }
  }

  // ---------------------------------------------------------------------
  // Missing fields.

  /** `required_fields - mapped`: Ruby's array difference, which keeps order and duplicates of what survives. */
  function Without(required: seq<Value>, mapped: seq<Value>): (r: seq<Value>)
    ensures |r| <= |required|
    ensures forall x :: x in r <==> x in required && x !in mapped
    decreases |required|
  {
    if |required| == 0 then []
    else
      var rest := Without(required[1..], mapped);
      assert forall x :: x in required <==> x == required[0] || x in required[1..];
      if required[0] in mapped then rest else [required[0]] + rest
  }

  /** Array difference distributes over concatenation: the survivors keep their order. */
  lemma {:induction false} WithoutConcat(a: seq<Value>, b: seq<Value>, mapped: seq<Value>)
    ensures Without(a + b, mapped) == Without(a, mapped) + Without(b, mapped)
    decreases |a|
  {
    if |a| > 0 {
      assert (a + b)[1..] == a[1..] + b;
      WithoutConcat(a[1..], b, mapped);
    } else {
      assert a + b == b;
    }
  }

  /** `missing_fields(required_fields)`: the required names no mapped header carries. */
  function MissingFields(p: Parser, required: seq<Value>): (r: seq<Value>)
    ensures forall x :: x in r <==> x in required && x !in MappedHeaders(p.headers, p.im)
  {
    Without(required, MappedHeaders(p.headers, p.im))
  }

  /**
   * For a parser built from a header row, a required name that is not in
   * the header row at all is always reported missing.
   */
  lemma AbsentHeaderMissing(rows: seq<seq<Value>>, cls: SchemaClass, headers: Option<seq<Value>>, required: seq<Value>, x: Value)
    requires NewParser(rows, cls, headers).Some?
    requires x in required && x !in NewParser(rows, cls, headers).value.headers
    ensures x in MissingFields(NewParser(rows, cls, headers).value, required)
  {
    var p := NewParser(rows, cls, headers).value;
    MapHeadersInRange(cls, p.headers, None);
    MappedHeadersFromRow(p.headers, p.im);
  }
}

=== FILE: dynamic_types.dfy ===
/**
 * `add_type`: a nested association class registers a concrete class for one
 * value of its type field. The entry in the parent's registry gets a new
 * type table with the type added; every other entry stays as it was.
 */
module DynamicTypes {
  import opened Wrappers
  import opened OrderedMaps
  import opened Registry
  import opened Utils
  import opened Values
  import opened Strings

  /** The class name `add_type` uses: the one given, or `AssociationType` and the classified `type.to_s`. */
  function TypeClassName(declaredType: Value, className: Option<string>): (r: string)
    ensures className.Some? ==> r == className.value
    ensures className.None? ==> r == "AssociationType" + ClassifyName(ToS(declaredType))
  {
    className.GetOr("AssociationType" + ClassifyName(ToS(declaredType)))
  }

  /** An Integer type such as `add_type(1)` names its class `AssociationType1`. */
  lemma IntegerTypeClassName(n: nat)
    ensures TypeClassName(Int(n), None) == "AssociationType" + NatToString(n)
  {
    var s := NatToString(n);
    assert ToS(Int(n)) == s;
    ClassifyPlainName(s);
    assert [UpcaseChar(s[0])] + s[1..] == s;
  }

  /** The type table with `type` mapped to `kls`; the rest of the options unchanged. */
  function WithType(meta: AssocMeta, declaredType: Value, kls: SchemaClass): (r: AssocMeta)
    ensures Get(r.types, declaredType) == Some(kls)
    ensures forall t :: t != declaredType ==> Get(r.types, t) == Get(meta.types, t)
    ensures Keys(r.types) == Keys(meta.types) + (if declaredType in Keys(meta.types) then [] else [declaredType])
    ensures r.className == meta.className && r.target == meta.target && r.typeField == meta.typeField
    ensures r.externalTypeField == meta.externalTypeField && r.typeIgnorecase == meta.typeIgnorecase
    ensures r.headerPrefix == meta.headerPrefix
  {
    PutKeys(meta.types, declaredType, kls);
    meta.(types := Put(meta.types, declaredType, kls))
  }

  /** The association entry with its options' type table replaced. */
  function WithMeta(o: FieldOptions, meta: AssocMeta): (r: FieldOptions)
    requires IsAssociation(o)
    ensures IsAssociation(r) && r.kind.HasMany? == o.kind.HasMany? && r.kind.meta == meta
    ensures r.key == o.key && r.name == o.name && r.getter == o.getter && r.setter == o.setter
    ensures r.ivar == o.ivar && r.aliases == o.aliases && r.aliasOf == o.aliasOf
    ensures r.association == o.association && r.startingIndex == o.startingIndex
  {
    o.(kind := if o.kind.HasOne? then HasOne(meta) else HasMany(meta))
  }

  /**
   * `add_type(type)` on the nested class of association `assoc` of `base`,
   * with `kls` the class it created. There is nothing to update when the
   * parent has no association of that name.
   */
  function AddType(base: SchemaClass, assoc: string, declaredType: Value, kls: SchemaClass): (r: Option<SchemaClass>)
    ensures r.None? <==> Lookup(base, assoc).None? || !IsAssociation(Lookup(base, assoc).value)
    ensures r.Some? ==>
      var o := Lookup(base, assoc).value;
      Lookup(r.value, assoc) == Some(WithMeta(o, WithType(o.kind.meta, declaredType, kls)))
    ensures r.Some? ==> forall n :: n != assoc ==> Lookup(r.value, n) == Lookup(base, n)
    ensures r.Some? ==> Names(r.value) == Names(base)
  {
    match Lookup(base, assoc)
    case None => None
    case Some(o) =>
      if !IsAssociation(o) then None
      else
        var r := Store(base, assoc, WithMeta(o, WithType(o.kind.meta, declaredType, kls)));
        PutKeys(base.fields, assoc, WithMeta(o, WithType(o.kind.meta, declaredType, kls)));
        Some(r)
  }

  /** Earlier types keep their classes and their place; a new type goes last. */
  lemma AddTypeOrder(base: SchemaClass, assoc: string, t: Value, kls: SchemaClass, u: Value)
    requires AddType(base, assoc, t, kls).Some?
    requires u in Keys(Lookup(base, assoc).value.kind.meta.types)
    ensures var types := Lookup(AddType(base, assoc, t, kls).value, assoc).value.kind.meta.types;
      var old_ := Lookup(base, assoc).value.kind.meta.types;
      && Keys(types)[..|old_|] == Keys(old_)
      && (u != t ==> Get(types, u) == Get(old_, u))
  {
  }

  /** Adding a well-formed type class keeps the parent's registry well formed. */
  lemma AddTypeKeepsWellFormed(base: SchemaClass, assoc: string, declaredType: Value, kls: SchemaClass)
    requires WellFormed(base) && WellFormed(kls)
    requires AddType(base, assoc, declaredType, kls).Some?
    ensures WellFormed(AddType(base, assoc, declaredType, kls).value)
  {
    var o := Lookup(base, assoc).value;
    var meta := WithType(o.kind.meta, declaredType, kls);
    var o' := WithMeta(o, meta);
    PutExisting(base.fields, assoc, o');
    var i := Find(base.fields, assoc).value;
    var r := AddType(base, assoc, declaredType, kls).value;
    assert r.fields == base.fields[i := (assoc, o')];
    assert EntryOk(base, i);
    assert DistinctKeys(r.fields) by {
      assert forall j :: 0 <= j < |r.fields| ==> r.fields[j].0 == base.fields[j].0;
    }
    forall j | 0 <= j < |r.fields| ensures EntryOk(r, j) {
      assert EntryOk(base, j);
      if j != i && IsAlias(r.fields[j].1) {
        var a := r.fields[j].1;
        assert CanonicalOk(base, a);
        assert a.aliasOf.value != assoc;
      }
    }
    assert DistinctStorage(r) by {
      assert forall j :: 0 <= j < |r.fields| ==> r.fields[j].1.ivar == base.fields[j].1.ivar;
      assert forall j :: 0 <= j < |r.fields| ==> (IsAlias(r.fields[j].1) <==> IsAlias(base.fields[j].1));
    }
    PutEntries(o.kind.meta.types, declaredType, kls);
    forall j | 0 <= j < |r.fields| && IsAssociation(r.fields[j].1)
      ensures WellFormed(r.fields[j].1.kind.meta.target)
      ensures forall k :: 0 <= k < |r.fields[j].1.kind.meta.types| ==> WellFormed(r.fields[j].1.kind.meta.types[k].1)
    {
      if j == i {
        forall k | 0 <= k < |meta.types| ensures WellFormed(meta.types[k].1) {
          if meta.types[k] != (declaredType, kls) {
            var e := meta.types[k];
            assert e in o.kind.meta.types;
            var k' :| 0 <= k' < |o.kind.meta.types| && o.kind.meta.types[k'] == e;
          }
        }
      }
    }
  }
}

=== FILE: errors.dfy ===
/**
 * The error sink: an ordered multimap from a field name (Symbol or String)
 * to the list of error codes recorded under it, in insertion order.
 */
module ErrorSink {
  import opened Values

  /** The closed set of parsing error codes. */
  datatype Code = Invalid | Incompatable | Unknown | UnknownAttribute | UnhandledType

  /**
   * `order` lists the names in first-insertion order (the Ruby hash's key
   * order); `lists` holds each name's codes.
   */
  datatype Errors = Errors(order: seq<Key>, lists: map<Key, seq<Code>>)

  const Empty: Errors := Errors([], map[])

  /** Every name appears once in `order`, exactly the names of `lists`, each with a code. */
  ghost predicate Valid(e: Errors) {
    && (forall i, j :: 0 <= i < j < |e.order| ==> e.order[i] != e.order[j])
    && (forall n :: n in e.lists <==> n in e.order)
    && (forall n :: n in e.lists ==> |e.lists[n]| > 0)
  }

  /** `errors[name]`: the codes recorded under `name`, or the empty list. */
  function Get(e: Errors, name: Key): seq<Code> {
    if name in e.lists then e.lists[name] else []
  }

  /** `errors.empty?` */
  predicate IsEmpty(e: Errors) {
    |e.lists| == 0
  }

  /** `errors.add(name, code)` (also `errors[name] = code`). */
  function Add(e: Errors, name: Key, code: Code): (r: Errors)
    ensures Get(r, name) == Get(e, name) + [code]
    ensures forall n :: n != name ==> Get(r, n) == Get(e, n)
    ensures !IsEmpty(r)
    ensures r.order == e.order + (if name in e.lists then [] else [name])
    ensures Valid(e) ==> Valid(r)
  {
    Errors(
      if name in e.lists then e.order else e.order + [name],
      e.lists[name := Get(e, name) + [code]])
  }

  /** A new sink is valid, empty, and has no codes under any name. */
  lemma EmptySink(name: Key)
    ensures Valid(Empty) && IsEmpty(Empty) && Get(Empty, name) == []
  {
  }

  /** For a valid sink, `empty?` holds exactly when no name has a code. */
  lemma IsEmptyMeansNoCodes(e: Errors)
    requires Valid(e)
    ensures IsEmpty(e) <==> forall n :: Get(e, n) == []
  {
    if !IsEmpty(e) {
      var n :| n in e.lists;
      assert Get(e, n) != [];
    }
  }
}

=== FILE: hash_decoder.dfy ===
/**
 * Building a model from a payload hash (`from_hash` / `update_attributes`)
 * and resolving its associations (`SchemaCreator`): the registry view chosen
 * by the first key, the scalar pass, the association pass, and the nested
 * models created for has-one and has-many values.
 */
module HashDecoder {
  import opened Wrappers
  import opened Strings
  import opened Values
  import ErrorSink
  import opened Parsers
  import opened OrderedMaps
  import opened Registry
  import opened Instances

  // ---------------------------------------------------------------------
  // Which registry a payload is read against.

  /** `schema` (Symbol keys) or `schema_with_string_keys` (String keys). */
  datatype View = SymbolView | StringView

  /** `get_schema`: only the first key is looked at. */
  function ViewOf(entries: seq<(Key, Value)>): (v: View)
    ensures |entries| == 0 ==> v == StringView
    ensures |entries| > 0 ==> (v == SymbolView <==> entries[0].0.SymKey?)
  {
    if |entries| > 0 && entries[0].0.SymKey? then SymbolView else StringView
  }

  /** `schema[key]` in the chosen view: a key of the other kind is never found. */
  function Resolve(cls: SchemaClass, view: View, k: Key): (r: Option<FieldOptions>)
    ensures r.Some? ==> exists i :: 0 <= i < |cls.fields| && cls.fields[i].1 == r.value
    ensures view.SymbolView? && k.SymKey? ==> r == Lookup(cls, k.name)
    ensures view.StringView? && k.StrKey? ==> r == Lookup(cls, k.text)
    ensures view.SymbolView? != k.SymKey? ==> r.None?
  {
    var r := match (view, k)
      case (SymbolView, SymKey(n)) => Lookup(cls, n)
      case (StringView, StrKey(t)) => Lookup(cls, t)
      case _ => None;
    if r.Some? then
      var name := if k.SymKey? then k.name else k.text;
      var i := Find(cls.fields, name).value;
      assert cls.fields[i].1 == r.value;
      r
    else r
  }

  /** Payloads that agree on their first key are read against the same registry. */
  lemma ViewFirstKeyOnly(a: seq<(Key, Value)>, b: seq<(Key, Value)>)
    requires |a| > 0 && |b| > 0 && a[0].0 == b[0].0
    ensures ViewOf(a) == ViewOf(b)
  {
  }

  /** A payload whose first key is a Symbol reads every String key as unknown, and the other way round. */
  lemma OtherKindUnknown(cls: SchemaClass, entries: seq<(Key, Value)>, k: Key)
    requires |entries| > 0 && entries[0].0.SymKey? != k.SymKey?
    ensures Resolve(cls, ViewOf(entries), k).None?
  {
  }

  // ---------------------------------------------------------------------
  // Selecting the nested class.

  /** `dynamic?` */
  predicate Dynamic(meta: AssocMeta) {
    meta.typeField.Some? || meta.externalTypeField.Some?
  }

  /** `type_fields`: the type field as declared, then its `to_s`, then the entry's aliases as declared. */
  function TypeKeys(typeField: Key, aliases: seq<Key>): (ks: seq<Key>)
    ensures |ks| == 2 + |aliases| && ks[0] == typeField && ks[1] == StrKey(KeyText(typeField))
    ensures ks[2..] == aliases
  {
    [typeField, StrKey(KeyText(typeField))] + aliases
  }

  /** The first truthy `data[key]` over the keys in order, or nil when none is truthy. */
  function FirstTruthy(entries: seq<(Key, Value)>, keys: seq<Key>): (r: Value)
    ensures r.Nil? || Truthy(r)
    ensures r.Nil? <==> forall j :: 0 <= j < |keys| ==> !Truthy(HashGet(entries, keys[j]))
    ensures Truthy(r) ==> exists j :: (0 <= j < |keys| && HashGet(entries, keys[j]) == r
      && forall j' :: 0 <= j' < j ==> !Truthy(HashGet(entries, keys[j'])))
  {
    if |keys| == 0 then Nil
    else
      var v := HashGet(entries, keys[0]);
      if Truthy(v) then v
      else
        var r := FirstTruthy(entries, keys[1..]);
        assert forall j :: 1 <= j < |keys| ==> keys[j] == keys[1..][j - 1];
        if Truthy(r) then
          var j :| 0 <= j < |keys[1..]| && HashGet(entries, keys[1..][j]) == r
            && forall j' :: 0 <= j' < j ==> !Truthy(HashGet(entries, keys[1..][j']));
          assert HashGet(entries, keys[j + 1]) == r;
          r
        else r
  }

  /** A value the getter returns, as seen by the type comparison. */
  function SlotValue(s: Option<Slot>): Value {
    match s
    case None => Nil
    case Some(Scalar(v)) => v
    case Some(_) => Other("#<Schema>")
  }

  /**
   * Does a registry entry define the method `name`? Every entry has its
   * generated getter; an alias entry also has the method `alias_method`
   * gives it under the alias name, reading the same storage.
   */
  predicate Answers(entry: (string, FieldOptions), name: string) {
    entry.1.getter == name || (IsAlias(entry.1) && entry.0 == name)
  }

  /** `base_schema.public_send(name)`: the storage of the first entry that defines the method. */
  function CallGetter(m: Model, name: string): Value {
    CallGetterFrom(m, name, 0)
  }

  function CallGetterFrom(m: Model, name: string, i: nat): Value
    requires i <= |m.cls.fields|
    decreases |m.cls.fields| - i
  {
    if i == |m.cls.fields| then Nil
    else if Answers(m.cls.fields[i], name) then SlotValue(Read(m, m.cls.fields[i].1))
    else CallGetterFrom(m, name, i + 1)
  }

  /** `get_dynamic_type`: from the payload's type field, else from the parent's accessor. */
  function DynamicType(parent: Model, meta: AssocMeta, aliases: seq<Key>, entries: seq<(Key, Value)>): (t: Value)
    ensures meta.typeField.Some? ==> t == FirstTruthy(entries, TypeKeys(meta.typeField.value, aliases))
    ensures meta.typeField.None? && meta.externalTypeField.Some? ==> t == CallGetter(parent, meta.externalTypeField.value)
  {
    if meta.typeField.Some? then FirstTruthy(entries, TypeKeys(meta.typeField.value, aliases))
    else if meta.externalTypeField.Some? then CallGetter(parent, meta.externalTypeField.value)
    else Nil
  }

  /**
   * Does a type-table name select the payload's type value? `name == type`;
   * with case ignored the type becomes `type.to_s.downcase` and a String name
   * is downcased, so a name of any other kind never matches.
   */
  predicate TypeMatches(name: Value, t: Value, ignorecase: bool) {
    if ignorecase then name.Str? && Downcase(name.s) == Downcase(ToS(t)) else name == t
  }

  /** The `@types.each` scan: the class of the first matching name; no match, no class. */
  function SelectType(types: seq<(Value, SchemaClass)>, t: Value, ignorecase: bool): (r: Option<SchemaClass>)
    ensures r.None? <==> forall j :: 0 <= j < |types| ==> !TypeMatches(types[j].0, t, ignorecase)
    ensures r.Some? ==> exists j :: (0 <= j < |types| && TypeMatches(types[j].0, t, ignorecase)
      && r.value == types[j].1 && forall j' :: 0 <= j' < j ==> !TypeMatches(types[j'].0, t, ignorecase))
  {
    if |types| == 0 then None
    else if TypeMatches(types[0].0, t, ignorecase) then Some(types[0].1)
    else
      var r := SelectType(types[1..], t, ignorecase);
      assert forall j :: 1 <= j < |types| ==> types[j] == types[1..][j - 1];
      if r.Some? then
        var j :| 0 <= j < |types[1..]| && TypeMatches(types[1..][j].0, t, ignorecase)
          && r.value == types[1..][j].1 && forall j' :: 0 <= j' < j ==> !TypeMatches(types[1..][j'].0, t, ignorecase);
        assert types[j + 1] == types[1..][j];
        r
      else r
  }

  /** With case ignored, type values that differ only in letter case select the same class. */
  lemma SelectTypeIgnoresCase(types: seq<(Value, SchemaClass)>, a: string, b: string)
    requires Downcase(a) == Downcase(b)
    ensures SelectType(types, Str(a), true) == SelectType(types, Str(b), true)
  {
    if |types| > 0 {
      SelectTypeIgnoresCase(types[1..], a, b);
    }
  }

  /** Without case folding the scan is the table lookup: the class stored under the type value itself. */
  lemma {:induction false} SelectTypeExact(types: seq<(Value, SchemaClass)>, t: Value)
    ensures SelectType(types, t, false) == Get(types, t)
  {
    if |types| > 0 && types[0].0 != t {
      SelectTypeExact(types[1..], t);
      GetTail(types, t);
    }
  }

  /**
   * The employee types of the company example: Integer type names select by
   * equality, so `type: 2` selects the manager class and `type: 3` nothing.
   */
  lemma IntegerTypes(worker: SchemaClass, manager: SchemaClass, fallback: SchemaClass)
    ensures var types := [(Int(1), worker), (Int(2), manager), (Other("default"), fallback)];
      && SelectType(types, Int(2), false) == Some(manager)
      && SelectType(types, Int(3), false).None?
      && SelectType(types, Str("2"), false).None?
  {
  }

  /**
   * `get_schema_class`: the declared class unless the association is dynamic;
   * a dynamic one takes the class its type selects. `ignorecase` is on
   * whenever `type_ignorecase` was given at all, even as false.
   */
  function SchemaClassFor(parent: Model, o: FieldOptions, entries: seq<(Key, Value)>): (r: Option<SchemaClass>)
    requires IsAssociation(o)
    ensures !Dynamic(o.kind.meta) ==> r == Some(o.kind.meta.target)
    ensures Dynamic(o.kind.meta) ==>
      r == SelectType(o.kind.meta.types, DynamicType(parent, o.kind.meta, o.aliases.GetOr([]), entries), o.kind.meta.typeIgnorecase.Some?)
  {
    var meta := o.kind.meta;
    if !Dynamic(meta) then Some(meta.target)
    else SelectType(meta.types, DynamicType(parent, meta, o.aliases.GetOr([]), entries), meta.typeIgnorecase.Some?)
  }

  // ---------------------------------------------------------------------
  // The decoder: setters, nested models, and the two passes over a payload.

  /** What `create_schema` returns and the parent's errors after it. */
  datatype Created = Created(value: Option<Model>, errors: ErrorSink.Errors)

  /** What `create_schemas` returns and the parent's errors after it. */
  datatype CreatedList = CreatedList(value: Option<seq<Option<Model>>>, errors: ErrorSink.Errors)
  datatype CreatedItems = CreatedItems(values: seq<Option<Model>>, errors: ErrorSink.Errors)

  /** The error name of element `idx` of a has-many value: `"name:idx"`. */
  function ElementName(name: string, idx: nat): Key {
    StrKey(name + ":" + IntToString(idx))
  }

  /**
   * The setter of an entry. An attribute stores its parser's result (nil
   * included) and records the parser's error under the declared name. A
   * has-one stores the created model, a has-many the created list, each only
   * when there is one.
   */
  function Setter(m: Model, o: FieldOptions, v: Value): (r: Model)
    ensures r.cls == m.cls
    ensures forall x :: x != o.ivar ==> Get(r.ivars, x) == Get(m.ivars, x)
    ensures Get(r.ivars, o.ivar).Some? || Get(r.ivars, o.ivar) == Get(m.ivars, o.ivar)
    ensures forall x :: x in Keys(m.ivars) ==> x in Keys(r.ivars)
    ensures o.kind.Attribute? ==> Get(r.ivars, o.ivar) == Some(Scalar(Parse(o.kind.parser, v).value))
    ensures o.kind.Attribute? ==>
      ErrorSink.Get(r.errors, SymKey(o.name)) == ErrorSink.Get(m.errors, SymKey(o.name)) + ErrorList(Parse(o.kind.parser, v).error)
    ensures o.kind.Attribute? ==> forall n :: n != SymKey(o.name) ==> ErrorSink.Get(r.errors, n) == ErrorSink.Get(m.errors, n)
    decreases v, 5
  {
    match o.kind
    case Attribute(_, parser) =>
      var (value, errs) := Apply(parser, SymKey(o.name), m.errors, v);
      SetIvar(m, o.ivar, Scalar(value)).(errors := errs)
    case HasOne(_) =>
      var c := CreateSchema(m, o, v, SymKey(o.name));
      var m' := m.(errors := c.errors);
      if c.value.Some? then SetIvar(m', o.ivar, One(c.value.value)) else m'
    case HasMany(_) =>
      var c := CreateSchemas(m, o, v);
      var m' := m.(errors := c.errors);
      if c.value.Some? then SetIvar(m', o.ivar, Many(c.value.value)) else m'
  }

  /**
   * `create_schema`: a Hash becomes a model of the selected class (reported
   * `unknown` when there is none, `invalid` when the nested model has errors,
   * and returned either way); any other non-nil value is `incompatable`; nil
   * is nothing, silently.
   */
  function CreateSchema(parent: Model, o: FieldOptions, data: Value, errName: Key): (r: Created)
    requires IsAssociation(o)
    ensures data.Nil? ==> r == Created(None, parent.errors)
    ensures !data.Nil? && !data.Hash? ==> r == Created(None, ErrorSink.Add(parent.errors, errName, ErrorSink.Incompatable))
    ensures data.Hash? ==> r.value.Some? == SchemaClassFor(parent, o, data.entries).Some?
    ensures data.Hash? && r.value.None? ==> r.errors == ErrorSink.Add(parent.errors, errName, ErrorSink.Unknown)
    ensures r.value.Some? ==> r.value.value == FromHash(SchemaClassFor(parent, o, data.entries).value, data)
    ensures r.value.Some? ==> r.errors == (if ErrorSink.IsEmpty(r.value.value.errors) then parent.errors
                                          else ErrorSink.Add(parent.errors, errName, ErrorSink.Invalid))
    decreases data, 4
  {
    if data.Hash? then
      match SchemaClassFor(parent, o, data.entries)
      case None => Created(None, ErrorSink.Add(parent.errors, errName, ErrorSink.Unknown))
      case Some(c) =>
        var nested := FromHash(c, data);
        Created(Some(nested),
          if ErrorSink.IsEmpty(nested.errors) then parent.errors
          else ErrorSink.Add(parent.errors, errName, ErrorSink.Invalid))
    else if data.Nil? then Created(None, parent.errors)
    else Created(None, ErrorSink.Add(parent.errors, errName, ErrorSink.Incompatable))
  }

  /**
   * `create_schemas`: an Array becomes the list of `create_schema` results,
   * element `idx` reporting under `"name:idx"`; any other non-nil value is
   * `incompatable` under the name; nil is nothing.
   */
  function CreateSchemas(parent: Model, o: FieldOptions, list: Value): (r: CreatedList)
    requires IsAssociation(o)
    ensures list.Array? <==> r.value.Some?
    ensures list.Array? ==> |r.value.value| == |list.items|
    ensures list.Array? ==> forall j :: 0 <= j < |list.items| && list.items[j].Nil? ==> r.value.value[j].None?
    ensures list.Nil? ==> r.errors == parent.errors
    ensures !list.Nil? && !list.Array? ==> r.errors == ErrorSink.Add(parent.errors, SymKey(o.name), ErrorSink.Incompatable)
    decreases list, 4
  {
    if list.Array? then
      var each := CreateEach(parent, o, list.items, 0);
      CreatedList(Some(each.values), each.errors)
    else if list.Nil? then CreatedList(None, parent.errors)
    else CreatedList(None, ErrorSink.Add(parent.errors, SymKey(o.name), ErrorSink.Incompatable))
  }

  /** The remaining elements of a has-many payload, the first one reporting under `"name:i"`. */
  function CreateEach(parent: Model, o: FieldOptions, items: seq<Value>, i: nat): (r: CreatedItems)
    requires IsAssociation(o)
    ensures |r.values| == |items|
    ensures forall j :: 0 <= j < |items| && items[j].Nil? ==> r.values[j].None?
    decreases items, 3
  {
    if items == [] then CreatedItems([], parent.errors)
    else
      var c := CreateSchema(parent, o, items[0], ElementName(o.name, i));
      var rest := CreateEach(parent.(errors := c.errors), o, items[1..], i + 1);
      CreatedItems([c.value] + rest.values, rest.errors)
  }

  /** `from_hash(data)`: a new instance updated from the payload. */
  function FromHash(cls: SchemaClass, data: Value): (m: Model)
    requires data.Hash?
    ensures m.cls == cls
    decreases data, 3
  {
    UpdateAttributes(New(cls), data)
  }

  /** `update_attributes`: every scalar key first, then every association key. */
  function UpdateAttributes(m: Model, data: Value): (r: Model)
    requires data.Hash?
    ensures r.cls == m.cls
    decreases data, 2
  {
    var view := ViewOf(data.entries);
    AssociationPass(ScalarPass(m, view, data, 0), view, data, 0)
  }

  /**
   * One key of `update_model_attributes`: an unknown key records
   * `unknown_attribute` under itself; an entry flagged as an association
   * waits; any other goes through its setter.
   */
  function ScalarStep(m: Model, view: View, k: Key, v: Value): (r: Model)
    ensures r.cls == m.cls
    ensures forall x :: x in Keys(m.ivars) ==> x in Keys(r.ivars)
    decreases v, 6
  {
    match Resolve(m.cls, view, k)
    case None => m.(errors := ErrorSink.Add(m.errors, k, ErrorSink.UnknownAttribute))
    case Some(o) => if o.association then m else Setter(m, o, v)
  }

  /** `update_model_attributes`: `ScalarStep` for every key, in payload order. */
  function ScalarPass(m: Model, view: View, data: Value, i: nat): (r: Model)
    requires data.Hash? && i <= |data.entries|
    ensures r.cls == m.cls
    ensures forall x :: x in Keys(m.ivars) ==> x in Keys(r.ivars)
    decreases data, 1, |data.entries| - i
  {
    if i == |data.entries| then m
    else ScalarPass(ScalarStep(m, view, data.entries[i].0, data.entries[i].1), view, data, i + 1)
  }

  /** One key of `update_associations`: the setter of a known key flagged as an association. */
  function AssociationStep(m: Model, view: View, k: Key, v: Value): (r: Model)
    ensures r.cls == m.cls
    ensures forall x :: x in Keys(m.ivars) ==> x in Keys(r.ivars)
    decreases v, 6
  {
    match Resolve(m.cls, view, k)
    case Some(o) => if o.association then Setter(m, o, v) else m
    case None => m
  }

  /** `update_associations`: `AssociationStep` for every key, in payload order. */
  function AssociationPass(m: Model, view: View, data: Value, i: nat): (r: Model)
    requires data.Hash? && i <= |data.entries|
    ensures r.cls == m.cls
    ensures forall x :: x in Keys(m.ivars) ==> x in Keys(r.ivars)
    decreases data, 1, |data.entries| - i
  {
    if i == |data.entries| then m
    else AssociationPass(AssociationStep(m, view, data.entries[i].0, data.entries[i].1), view, data, i + 1)
  }
}

=== FILE: hash_decoder_facts.dfy ===
/**
 * What the hash decoder promises: unknown keys, the order of the two passes
 * over a payload, `not_set?` after `from_hash`, and the errors a nested
 * model can add to its parent.
 */
module HashDecoderFacts {
  import opened Wrappers
  import opened Values
  import ErrorSink
  import opened OrderedMaps
  import opened Registry
  import opened Instances
  import opened HashDecoder
  import opened Strings
  import Parsers

  // ---------------------------------------------------------------------
  // Unknown keys.

  /** How many entries from position `i` on carry key `k`. */
  function CountFrom(entries: seq<(Key, Value)>, k: Key, i: nat): nat
    requires i <= |entries|
    decreases |entries| - i
  {
    if i == |entries| then 0
    else (if entries[i].0 == k then 1 else 0) + CountFrom(entries, k, i + 1)
  }

  function Repeat(c: ErrorSink.Code, n: nat): (r: seq<ErrorSink.Code>)
    ensures |r| == n && forall j :: 0 <= j < n ==> r[j] == c
  {
    if n == 0 then [] else [c] + Repeat(c, n - 1)
  }

  /**
   * A payload none of whose keys the registry knows assigns nothing and
   * records exactly one `unknown_attribute` under each key per occurrence.
   */
  lemma UnknownKeysOnly(m: Model, data: Value)
    requires data.Hash?
    requires forall j :: 0 <= j < |data.entries| ==> Resolve(m.cls, ViewOf(data.entries), data.entries[j].0).None?
    ensures UpdateAttributes(m, data).ivars == m.ivars
    ensures forall k ::
      ErrorSink.Get(UpdateAttributes(m, data).errors, k)
        == ErrorSink.Get(m.errors, k) + Repeat(ErrorSink.UnknownAttribute, CountFrom(data.entries, k, 0))
  {
    var view := ViewOf(data.entries);
    ScalarPassAllUnknown(m, view, data, 0);
    AssociationPassAllUnknown(ScalarPass(m, view, data, 0), view, data, 0);
  }

  lemma {:induction false} ScalarPassAllUnknown(m: Model, view: View, data: Value, i: nat)
    requires data.Hash? && i <= |data.entries|
    requires forall j :: i <= j < |data.entries| ==> Resolve(m.cls, view, data.entries[j].0).None?
    ensures OnlyUnknowns(m, ScalarPass(m, view, data, i), data.entries, i)
    decreases |data.entries| - i
  {
    if i < |data.entries| {
      var m' := m.(errors := ErrorSink.Add(m.errors, data.entries[i].0, ErrorSink.UnknownAttribute));
      ScalarPassUnfold(m, view, data, i);
      UnknownScalarStep(m, view, data.entries[i].0, data.entries[i].1);
      ScalarPassAllUnknown(m', view, data, i + 1);
      OnlyUnknownsStep(m, ScalarPass(m', view, data, i + 1), data.entries, i);
    }
  }

  /**
   * `r` is `m` after recording one `unknown_attribute` per occurrence of a
   * key from position `i` on, and nothing else.
   */
  ghost predicate OnlyUnknowns(m: Model, r: Model, entries: seq<(Key, Value)>, i: nat)
    requires i <= |entries|
  {
    && r.ivars == m.ivars
    && forall k ::
      ErrorSink.Get(r.errors, k)
        == ErrorSink.Get(m.errors, k) + Repeat(ErrorSink.UnknownAttribute, CountFrom(entries, k, i))
  }

  lemma OnlyUnknownsStep(m: Model, r: Model, entries: seq<(Key, Value)>, i: nat)
    requires i < |entries|
    requires OnlyUnknowns(m.(errors := ErrorSink.Add(m.errors, entries[i].0, ErrorSink.UnknownAttribute)), r, entries, i + 1)
    ensures OnlyUnknowns(m, r, entries, i)
  {
    UnknownCountStep(m.errors, entries, i);
  }

  /** An unknown key only records `unknown_attribute` under itself. */
  lemma UnknownScalarStep(m: Model, view: View, k: Key, v: Value)
    requires Resolve(m.cls, view, k).None?
    ensures ScalarStep(m, view, k, v) == m.(errors := ErrorSink.Add(m.errors, k, ErrorSink.UnknownAttribute))
  {
  }

  /** `ScalarPass` from `i` is one `ScalarStep`, then `ScalarPass` from `i + 1`. */
  lemma ScalarPassUnfold(m: Model, view: View, data: Value, i: nat)
    requires data.Hash? && i < |data.entries|
    ensures ScalarPass(m, view, data, i)
      == ScalarPass(ScalarStep(m, view, data.entries[i].0, data.entries[i].1), view, data, i + 1)
  {
  }

  /** Recording `unknown_attribute` under key `i` accounts for that one occurrence. */
  lemma UnknownCountStep(e: ErrorSink.Errors, entries: seq<(Key, Value)>, i: nat)
    requires i < |entries|
    ensures forall k ::
      ErrorSink.Get(ErrorSink.Add(e, entries[i].0, ErrorSink.UnknownAttribute), k)
        + Repeat(ErrorSink.UnknownAttribute, CountFrom(entries, k, i + 1))
      == ErrorSink.Get(e, k) + Repeat(ErrorSink.UnknownAttribute, CountFrom(entries, k, i))
  {
    forall k
      ensures ErrorSink.Get(ErrorSink.Add(e, entries[i].0, ErrorSink.UnknownAttribute), k)
          + Repeat(ErrorSink.UnknownAttribute, CountFrom(entries, k, i + 1))
        == ErrorSink.Get(e, k) + Repeat(ErrorSink.UnknownAttribute, CountFrom(entries, k, i))
    {
      AddUnknownThenRepeat(e, entries[i].0, k, CountFrom(entries, k, i + 1));
    }
  }

  lemma AddUnknownThenRepeat(e: ErrorSink.Errors, k0: Key, k: Key, n: nat)
    ensures ErrorSink.Get(ErrorSink.Add(e, k0, ErrorSink.UnknownAttribute), k) + Repeat(ErrorSink.UnknownAttribute, n)
      == ErrorSink.Get(e, k) + Repeat(ErrorSink.UnknownAttribute, (if k == k0 then 1 else 0) + n)
  {
    if k == k0 {
      assert Repeat(ErrorSink.UnknownAttribute, 1 + n) == [ErrorSink.UnknownAttribute] + Repeat(ErrorSink.UnknownAttribute, n);
    }
  }

  lemma {:induction false} AssociationPassAllUnknown(m: Model, view: View, data: Value, i: nat)
    requires data.Hash? && i <= |data.entries|
    requires forall j :: i <= j < |data.entries| ==> Resolve(m.cls, view, data.entries[j].0).None?
    ensures AssociationPass(m, view, data, i) == m
    decreases |data.entries| - i
  {
    if i < |data.entries| {
      AssociationPassAllUnknown(m, view, data, i + 1);
    }
  }

  // ---------------------------------------------------------------------
  // not_set? after from_hash.

  /** `from_hash({})` is not set. */
  lemma FromEmptyHashNotSet(cls: SchemaClass)
    ensures NotSet(FromHash(cls, Hash([])))
  {
  }

  /** A payload with a known scalar key gives a model that is set. */
  lemma KnownScalarKeySets(cls: SchemaClass, data: Value, i: nat)
    requires data.Hash? && i < |data.entries|
    requires var o := Resolve(cls, ViewOf(data.entries), data.entries[i].0);
      o.Some? && o.value.kind.Attribute? && !o.value.association
    ensures !NotSet(FromHash(cls, data))
  {
    var view := ViewOf(data.entries);
    var o := Resolve(cls, view, data.entries[i].0).value;
    ScalarPassAssigns(New(cls), view, data, 0, i);
    var s := ScalarPass(New(cls), view, data, 0);
    var r := FromHash(cls, data);
    assert r == UpdateAttributes(New(cls), data);
    assert r == AssociationPass(s, view, data, 0);
    assert o.ivar in Keys(r.ivars);
    var k :| 0 <= k < |cls.fields| && cls.fields[k].1 == o;
    assert Read(r, r.cls.fields[k].1).Some?;
  }

  lemma {:induction false} ScalarPassAssigns(m: Model, view: View, data: Value, j: nat, i: nat)
    requires data.Hash? && j <= i < |data.entries|
    requires var o := Resolve(m.cls, view, data.entries[i].0);
      o.Some? && o.value.kind.Attribute? && !o.value.association
    ensures Resolve(m.cls, view, data.entries[i].0).value.ivar in Keys(ScalarPass(m, view, data, j).ivars)
    decreases i - j
  {
    var m' := ScalarStep(m, view, data.entries[j].0, data.entries[j].1);
    var x := Resolve(m.cls, view, data.entries[i].0).value.ivar;
    ScalarPassUnfold(m, view, data, j);
    if j < i {
      assert m'.cls == m.cls;
      ScalarPassAssigns(m', view, data, j + 1, i);
    } else {
      ScalarStepAssigns(m, view, data.entries[i].0, data.entries[i].1);
      assert x in Keys(m'.ivars);
    }
    assert x in Keys(ScalarPass(m', view, data, j + 1).ivars);
  }

  /**
   * An attribute setter records exactly what its parser reports: an accepted
   * value leaves the errors as they were, a rejected one adds the parser's
   * code under the declared name.
   */
  lemma SetterErrors(m: Model, o: FieldOptions, v: Value)
    requires o.kind.Attribute?
    ensures Parsers.Parse(o.kind.parser, v).error.None? <==> Setter(m, o, v).errors == m.errors
    ensures Parsers.Parse(o.kind.parser, v).error.Some? ==>
      Setter(m, o, v).errors == ErrorSink.Add(m.errors, SymKey(o.name), Parsers.Parse(o.kind.parser, v).error.value)
  {
    var r := Setter(m, o, v);
    var p := Parsers.Parse(o.kind.parser, v);
    if p.error.Some? {
      assert ErrorSink.Get(r.errors, SymKey(o.name)) == ErrorSink.Get(m.errors, SymKey(o.name)) + [p.error.value];
    }
  }

  /** `self.age = true` on an Integer attribute stores nil and records `unhandled_type` under `age`. */
  lemma SetterUnhandledExample(m: Model, o: FieldOptions)
    requires o.kind == Attribute(Parsers.ToInteger, Parsers.ToInteger) && o.name == "age"
    requires m.errors == ErrorSink.Empty
    ensures Get(Setter(m, o, Bool(true)).ivars, o.ivar) == Some(Scalar(Nil))
    ensures ErrorSink.Get(Setter(m, o, Bool(true)).errors, SymKey("age")) == [ErrorSink.UnhandledType]
  {
    assert Parsers.Parse(o.kind.parser, Bool(true)) == Parsers.Coerced(Nil, Some(ErrorSink.UnhandledType));
    assert ErrorSink.Get(m.errors, SymKey("age")) == [];
  }

  /** A known, non-association key stores into its field's storage. */
  lemma ScalarStepAssigns(m: Model, view: View, k: Key, v: Value)
    requires var o := Resolve(m.cls, view, k);
      o.Some? && o.value.kind.Attribute? && !o.value.association
    ensures Resolve(m.cls, view, k).value.ivar in Keys(ScalarStep(m, view, k, v).ivars)
  {
    var o := Resolve(m.cls, view, k).value;
    assert ScalarStep(m, view, k, v) == Setter(m, o, v);
  }

  // ---------------------------------------------------------------------
  // Scalars before associations.

  /** Attribute entries and association entries use different storage. */
  ghost predicate Separated(cls: SchemaClass) {
    forall a, b ::
      (0 <= a < |cls.fields| && 0 <= b < |cls.fields| && cls.fields[a].1.kind.Attribute? && IsAssociation(cls.fields[b].1))
      ==> cls.fields[a].1.ivar != cls.fields[b].1.ivar
  }

  /** The association flag marks exactly the has-one / has-many entries. */
  ghost predicate FlagsExact(cls: SchemaClass) {
    forall j :: 0 <= j < |cls.fields| ==> (cls.fields[j].1.association <==> IsAssociation(cls.fields[j].1))
  }

  lemma WellFormedSeparated(cls: SchemaClass)
    requires WellFormed(cls)
    ensures Separated(cls) && FlagsExact(cls)
  {
    forall a, b | 0 <= a < |cls.fields| && 0 <= b < |cls.fields| && cls.fields[a].1.kind.Attribute?
      && IsAssociation(cls.fields[b].1)
      ensures cls.fields[a].1.ivar != cls.fields[b].1.ivar
    {
      StorageDisjoint(cls, a, b);
    }
    forall j | 0 <= j < |cls.fields| ensures (cls.fields[j].1.association <==> IsAssociation(cls.fields[j].1)) {
      assert EntryOk(cls, j);
    }
  }

  /** In a well-formed class an attribute entry and an association entry never share storage. */
  lemma StorageDisjoint(cls: SchemaClass, a: nat, b: nat)
    requires WellFormed(cls) && a < |cls.fields| && b < |cls.fields|
    requires cls.fields[a].1.kind.Attribute? && IsAssociation(cls.fields[b].1)
    ensures cls.fields[a].1.ivar != cls.fields[b].1.ivar
  {
    assert EntryOk(cls, a) && EntryOk(cls, b);
    var fa := cls.fields[a].1;
    assert DistinctStorage(cls);
    if IsAlias(fa) {
      assert CanonicalOk(cls, fa);
      var c := Find(cls.fields, fa.aliasOf.value).value;
      assert c != b;
    }
  }

  /** One scalar step leaves every association's storage as it was. */
  lemma ScalarStepKeepsAssociations(m: Model, view: View, k: Key, v: Value, b: nat)
    requires Separated(m.cls) && FlagsExact(m.cls)
    requires b < |m.cls.fields| && IsAssociation(m.cls.fields[b].1)
    ensures Get(ScalarStep(m, view, k, v).ivars, m.cls.fields[b].1.ivar) == Get(m.ivars, m.cls.fields[b].1.ivar)
  {
    match Resolve(m.cls, view, k)
    case None =>
    case Some(o) =>
      var a :| 0 <= a < |m.cls.fields| && m.cls.fields[a].1 == o;
      if !o.association {
        assert m.cls.fields[a].1.kind.Attribute?;
      }
  }

  /** One association step leaves every attribute's storage as it was. */
  lemma AssociationStepKeepsAttributes(m: Model, view: View, k: Key, v: Value, a: nat)
    requires Separated(m.cls) && FlagsExact(m.cls)
    requires a < |m.cls.fields| && m.cls.fields[a].1.kind.Attribute?
    ensures Get(AssociationStep(m, view, k, v).ivars, m.cls.fields[a].1.ivar) == Get(m.ivars, m.cls.fields[a].1.ivar)
  {
    match Resolve(m.cls, view, k)
    case None =>
    case Some(o) =>
      var b :| 0 <= b < |m.cls.fields| && m.cls.fields[b].1 == o;
      if o.association {
        assert IsAssociation(m.cls.fields[b].1);
      }
  }

  /** The scalar pass leaves every association's storage as it was. */
  lemma {:induction false} ScalarPassKeepsAssociations(m: Model, view: View, data: Value, i: nat, b: nat)
    requires data.Hash? && i <= |data.entries|
    requires Separated(m.cls) && FlagsExact(m.cls)
    requires b < |m.cls.fields| && IsAssociation(m.cls.fields[b].1)
    ensures Get(ScalarPass(m, view, data, i).ivars, m.cls.fields[b].1.ivar) == Get(m.ivars, m.cls.fields[b].1.ivar)
    decreases |data.entries| - i
  {
    if i < |data.entries| {
      var m' := ScalarStep(m, view, data.entries[i].0, data.entries[i].1);
      ScalarStepKeepsAssociations(m, view, data.entries[i].0, data.entries[i].1, b);
      ScalarPassKeepsAssociations(m', view, data, i + 1, b);
    }
  }

  /** The association pass leaves every attribute's storage as it was. */
  lemma {:induction false} AssociationPassKeepsAttributes(m: Model, view: View, data: Value, i: nat, a: nat)
    requires data.Hash? && i <= |data.entries|
    requires Separated(m.cls) && FlagsExact(m.cls)
    requires a < |m.cls.fields| && m.cls.fields[a].1.kind.Attribute?
    ensures Get(AssociationPass(m, view, data, i).ivars, m.cls.fields[a].1.ivar) == Get(m.ivars, m.cls.fields[a].1.ivar)
    decreases |data.entries| - i
  {
    if i < |data.entries| {
      var m' := AssociationStep(m, view, data.entries[i].0, data.entries[i].1);
      AssociationStepKeepsAttributes(m, view, data.entries[i].0, data.entries[i].1, a);
      AssociationPassKeepsAttributes(m', view, data, i + 1, a);
    }
  }

  /**
   * Whatever the payload order, every attribute ends as the scalar pass left
   * it, and no association is assigned before the scalar pass is over: the
   * association setters see the parent with all its scalars in place.
   */
  lemma ScalarsBeforeAssociations(m: Model, data: Value, a: nat, b: nat)
    requires data.Hash? && WellFormed(m.cls)
    requires a < |m.cls.fields| && m.cls.fields[a].1.kind.Attribute?
    requires b < |m.cls.fields| && IsAssociation(m.cls.fields[b].1)
    ensures var s := ScalarPass(m, ViewOf(data.entries), data, 0);
      && Get(UpdateAttributes(m, data).ivars, m.cls.fields[a].1.ivar) == Get(s.ivars, m.cls.fields[a].1.ivar)
      && Get(s.ivars, m.cls.fields[b].1.ivar) == Get(m.ivars, m.cls.fields[b].1.ivar)
  {
    WellFormedSeparated(m.cls);
    var view := ViewOf(data.entries);
    var s := ScalarPass(m, view, data, 0);
    AssociationPassKeepsAttributes(s, view, data, 0, a);
    ScalarPassKeepsAssociations(m, view, data, 0, b);
  }

  // ---------------------------------------------------------------------
  // Errors a nested model adds to its parent.

  predicate CreationCode(c: ErrorSink.Code) {
    c == ErrorSink.Unknown || c == ErrorSink.Invalid || c == ErrorSink.Incompatable
  }

  /**
   * `create_schema` adds at most one error to the parent, under the error
   * name it was given, and it is `unknown`, `invalid` or `incompatable`.
   */
  lemma CreateSchemaErrors(parent: Model, o: FieldOptions, data: Value, errName: Key)
    requires IsAssociation(o)
    ensures var r := CreateSchema(parent, o, data, errName);
      && (forall n :: n != errName ==> ErrorSink.Get(r.errors, n) == ErrorSink.Get(parent.errors, n))
      && exists cs: seq<ErrorSink.Code> :: |cs| <= 1 && (forall c :: c in cs ==> CreationCode(c))
           && ErrorSink.Get(r.errors, errName) == ErrorSink.Get(parent.errors, errName) + cs
  {
    var r := CreateSchema(parent, o, data, errName);
    if r.errors == parent.errors {
      assert ErrorSink.Get(r.errors, errName) == ErrorSink.Get(parent.errors, errName) + [];
    }
  }

  /** `create_schema` leaves the codes under every other name as they were. */
  lemma CreateSchemaKeepsOtherNames(parent: Model, o: FieldOptions, data: Value, errName: Key, n: Key)
    requires IsAssociation(o) && n != errName
    ensures ErrorSink.Get(CreateSchema(parent, o, data, errName).errors, n) == ErrorSink.Get(parent.errors, n)
  {
  }

  /** Distinct positions of a has-many payload report under distinct names. */
  lemma ElementNamesDistinct(name: string, a: nat, b: nat)
    requires a != b
    ensures ElementName(name, a) != ElementName(name, b)
  {
    var sa := name + ":" + IntToString(a);
    var sb := name + ":" + IntToString(b);
    if sa == sb {
      assert sa[|name| + 1..] == IntToString(a);
      assert sb[|name| + 1..] == IntToString(b);
      IntToStringInjective(a, b);
    }
  }

  /**
   * The elements of a has-many payload, from position `i` on, record errors
   * only under their own `"name:idx"` names: every other name keeps its codes.
   */
  lemma {:induction false} CreateEachErrorNames(parent: Model, o: FieldOptions, items: seq<Value>, i: nat, n: Key)
    requires IsAssociation(o)
    requires forall idx :: i <= idx < i + |items| ==> ElementName(o.name, idx) != n
    ensures ErrorSink.Get(CreateEach(parent, o, items, i).errors, n) == ErrorSink.Get(parent.errors, n)
    decreases |items|
  {
    if items != [] {
      var c := CreateSchema(parent, o, items[0], ElementName(o.name, i));
      CreateSchemaKeepsOtherNames(parent, o, items[0], ElementName(o.name, i), n);
      CreateEachErrorNames(parent.(errors := c.errors), o, items[1..], i + 1, n);
      CreateEachStep(parent, o, items, i);
    }
  }

  /** The errors after the elements from `i` are those after the elements from `i + 1`, started after element `i`. */
  lemma CreateEachStep(parent: Model, o: FieldOptions, items: seq<Value>, i: nat)
    requires IsAssociation(o) && items != []
    ensures var c := CreateSchema(parent, o, items[0], ElementName(o.name, i));
      CreateEach(parent, o, items, i).errors == CreateEach(parent.(errors := c.errors), o, items[1..], i + 1).errors
  {
  }

  /** An Array value of a has-many records errors only under the `"name:idx"` names of its positions. */
  lemma CreateSchemasErrorNames(parent: Model, o: FieldOptions, list: Value, n: Key)
    requires IsAssociation(o) && list.Array?
    requires forall idx :: 0 <= idx < |list.items| ==> ElementName(o.name, idx) != n
    ensures ErrorSink.Get(CreateSchemas(parent, o, list).errors, n) == ErrorSink.Get(parent.errors, n)
  {
    CreateEachErrorNames(parent, o, list.items, 0, n);
  }

  // ---------------------------------------------------------------------
  // The models a has-many payload creates.

  /** A getter reads instance variables only: the errors recorded so far do not change what it returns. */
  lemma {:induction false} CallGetterIgnoresErrors(m: Model, e: ErrorSink.Errors, name: string, i: nat)
    requires i <= |m.cls.fields|
    ensures CallGetterFrom(m.(errors := e), name, i) == CallGetterFrom(m, name, i)
    decreases |m.cls.fields| - i
  {
    if i < |m.cls.fields| && m.cls.fields[i].1.getter != name {
      CallGetterIgnoresErrors(m, e, name, i + 1);
    }
  }

  /** `public_send(name)` reads the storage of the first entry that defines the method `name`. */
  lemma {:induction false} CallGetterFirstAnswer(m: Model, name: string, i: nat, j: nat)
    requires i <= j < |m.cls.fields| && Answers(m.cls.fields[j], name)
    requires forall k :: i <= k < j ==> !Answers(m.cls.fields[k], name)
    ensures CallGetterFrom(m, name, i) == SlotValue(Read(m, m.cls.fields[j].1))
    decreases j - i
  {
    if i < j {
      CallGetterFirstAnswer(m, name, i + 1, j);
    }
  }

  /** A name no entry defines reads as nil. */
  lemma {:induction false} CallGetterNoAnswer(m: Model, name: string, i: nat)
    requires i <= |m.cls.fields|
    requires forall k :: i <= k < |m.cls.fields| ==> !Answers(m.cls.fields[k], name)
    ensures CallGetterFrom(m, name, i) == Nil
    decreases |m.cls.fields| - i
  {
    if i < |m.cls.fields| {
      CallGetterNoAnswer(m, name, i + 1);
    }
  }

  /**
   * `alias_method(alias_name, getter)`: calling an alias, when no earlier
   * entry defines a method of that name, reads the value of the field it
   * aliases.
   */
  lemma AliasGetterReadsField(m: Model, k: nat)
    requires WellFormed(m.cls) && k < |m.cls.fields| && IsAlias(m.cls.fields[k].1)
    requires forall j :: 0 <= j < k ==> !Answers(m.cls.fields[j], m.cls.fields[k].0)
    ensures Lookup(m.cls, m.cls.fields[k].1.aliasOf.value).Some?
    ensures CallGetter(m, m.cls.fields[k].0) == SlotValue(Read(m, Lookup(m.cls, m.cls.fields[k].1.aliasOf.value).value))
  {
    assert EntryOk(m.cls, k);
    CallGetterFirstAnswer(m, m.cls.fields[k].0, 0, k);
  }

  /** An `id` field and its alias `ID`: both names read the stored 4. */
  lemma AliasedIdExample(o: FieldOptions)
    requires !IsAlias(o) && o.getter == "id" && o.ivar == "@id"
    ensures var cls := SchemaClass([("id", o), ("ID", AliasOptions(o, "ID"))]);
      var m := Model(cls, [("@id", Scalar(Int(4)))], ErrorSink.Empty);
      && CallGetter(m, "id") == Int(4)
      && CallGetter(m, "ID") == Int(4)
      && CallGetter(m, "Id") == Nil
  {
    var cls := SchemaClass([("id", o), ("ID", AliasOptions(o, "ID"))]);
    var m := Model(cls, [("@id", Scalar(Int(4)))], ErrorSink.Empty);
    assert Keys(m.ivars) == ["@id"];
    assert Read(m, o) == Some(Scalar(Int(4)));
    assert !Answers(cls.fields[0], "ID") && Answers(cls.fields[1], "ID");
    CallGetterFirstAnswer(m, "ID", 0, 1);
    assert !Answers(cls.fields[0], "Id") && !Answers(cls.fields[1], "Id");
    CallGetterNoAnswer(m, "Id", 0);
  }

  /** The model `create_schema` builds does not depend on the errors its parent has already recorded. */
  lemma CreateSchemaIgnoresErrors(parent: Model, e: ErrorSink.Errors, o: FieldOptions, data: Value, errName: Key)
    requires IsAssociation(o)
    ensures CreateSchema(parent.(errors := e), o, data, errName).value == CreateSchema(parent, o, data, errName).value
  {
    var meta := o.kind.meta;
    if meta.externalTypeField.Some? {
      CallGetterIgnoresErrors(parent, e, meta.externalTypeField.value, 0);
    }
  }

  /**
   * Element `j` of a has-many payload, from position `i` on, becomes what
   * `create_schema` makes of it on the parent, reporting under `"name:(i + j)"`.
   */
  lemma CreateEachValues(parent: Model, o: FieldOptions, items: seq<Value>, i: nat)
    requires IsAssociation(o)
    ensures forall j :: 0 <= j < |items| ==>
      CreateEach(parent, o, items, i).values[j] == CreateSchema(parent, o, items[j], ElementName(o.name, i + j)).value
  {
    forall j | 0 <= j < |items|
      ensures CreateEach(parent, o, items, i).values[j] == CreateSchema(parent, o, items[j], ElementName(o.name, i + j)).value
    {
      CreateEachValueAt(parent, o, items, i, j);
    }
  }

  /** Element `j` alone, by induction on `j`: each earlier element only changes the errors. */
  lemma {:induction false} CreateEachValueAt(parent: Model, o: FieldOptions, items: seq<Value>, i: nat, j: nat)
    requires IsAssociation(o) && j < |items|
    ensures CreateEach(parent, o, items, i).values[j] == CreateSchema(parent, o, items[j], ElementName(o.name, i + j)).value
    decreases j
  {
    CreateEachValuesStep(parent, o, items, i);
    if j > 0 {
      var e := CreateSchema(parent, o, items[0], ElementName(o.name, i)).errors;
      var p' := parent.(errors := e);
      var n := i + j;
      assert items[1..][j - 1] == items[j] && (i + 1) + (j - 1) == n;
      CreateEachValueAt(p', o, items[1..], i + 1, j - 1);
      CreateSchemaIgnoresErrors(parent, e, o, items[j], ElementName(o.name, n));
    }
  }

  /** The models made from the elements from `i` are element `i`'s, then those from `i + 1` on, made after it. */
  lemma CreateEachValuesStep(parent: Model, o: FieldOptions, items: seq<Value>, i: nat)
    requires IsAssociation(o) && items != []
    ensures var c := CreateSchema(parent, o, items[0], ElementName(o.name, i));
      CreateEach(parent, o, items, i).values == [c.value] + CreateEach(parent.(errors := c.errors), o, items[1..], i + 1).values
  {
  }

  /** Each element of an Array value of a has-many becomes the model `create_schema` makes of it under `"name:idx"`. */
  lemma CreateSchemasValues(parent: Model, o: FieldOptions, list: Value)
    requires IsAssociation(o) && list.Array?
    ensures forall j :: 0 <= j < |list.items| ==>
      CreateSchemas(parent, o, list).value.value[j] == CreateSchema(parent, o, list.items[j], ElementName(o.name, j)).value
  {
    CreateEachValues(parent, o, list.items, 0);
  }
}

=== FILE: index_maps.dfy ===
/**
 * The header map `map_headers_to_attributes` builds and the array decoder
 * reads: for each field name, the column it comes from, the columns of its
 * repetitions, or the map of a nested association. A has-many branch carries
 * its repetition count as a field of its node.
 */
module IndexMaps {
  import opened Wrappers
  import opened OrderedMaps

  datatype Node =
    | Index(at: nat)               // `{ index: i }`
    | Indexes(ats: seq<nat>)       // `{ indexes: [...] }`
    | One(sub: IndexMap)           // a has-one branch
    | Many(size: nat, sub: IndexMap) // a has-many branch and its `__size`

  /** An ordered hash from field names to nodes. */
  datatype IndexMap = IndexMap(entries: seq<(string, Node)>)

  const EmptyMap := IndexMap([])

  /** `mapped_headers[name]` */
  function NodeOf(m: IndexMap, name: string): Option<Node> {
    Get(m.entries, name)
  }

  /**
   * `largest_number_of_indexes_from_map`: the longest `indexes` list in the
   * map and in its nested branches, has-one and has-many alike, at any
   * depth. A has-many branch is walked through its map; its `__size` entry
   * holds no list and is not counted.
   */
  function Largest(m: IndexMap): (r: nat)
    ensures |m.entries| == 0 ==> r == 0
    ensures forall i :: 0 <= i < |m.entries| ==> NodeLargest(m.entries[i].1) <= r
    ensures r == 0 || exists i :: 0 <= i < |m.entries| && NodeLargest(m.entries[i].1) == r
    decreases m, 1
  {
    LargestFrom(m, 0)
  }

  function LargestFrom(m: IndexMap, i: nat): (r: nat)
    requires i <= |m.entries|
    ensures forall j :: i <= j < |m.entries| ==> NodeLargest(m.entries[j].1) <= r
    ensures r == 0 || exists j :: i <= j < |m.entries| && NodeLargest(m.entries[j].1) == r
    decreases m, 0, |m.entries| - i
  {
    if i == |m.entries| then 0
    else
      var here := NodeLargest(m.entries[i].1);
      var rest := LargestFrom(m, i + 1);
      if here > rest then here else rest
  }

  function NodeLargest(n: Node): nat
    decreases n, 2
  {
    match n
    case Indexes(ats) => |ats|
    case One(sub) => Largest(sub)
    case Many(_, sub) => Largest(sub)
    case Index(_) => 0
  }

  /** An `indexes` list found in the map itself or in one of its nested branches, at any depth. */
  ghost predicate Reaches(m: IndexMap, ats: seq<nat>)
    decreases m
  {
    exists i :: 0 <= i < |m.entries| &&
      (m.entries[i].1 == Indexes(ats) || (!m.entries[i].1.Index? && !m.entries[i].1.Indexes? && Reaches(m.entries[i].1.sub, ats)))
  }

  /** The largest count bounds every reachable `indexes` list. */
  lemma {:induction false} LargestBound(m: IndexMap, ats: seq<nat>)
    requires Reaches(m, ats)
    ensures |ats| <= Largest(m)
    decreases m
  {
    var i :| 0 <= i < |m.entries| &&
      (m.entries[i].1 == Indexes(ats) || (!m.entries[i].1.Index? && !m.entries[i].1.Indexes? && Reaches(m.entries[i].1.sub, ats)));
    if m.entries[i].1 != Indexes(ats) {
      LargestBound(m.entries[i].1.sub, ats);
    }
  }

  /** A non-zero largest count is the length of some reachable `indexes` list. */
  lemma {:induction false} LargestAttained(m: IndexMap)
    requires Largest(m) > 0
    ensures exists ats :: Reaches(m, ats) && |ats| == Largest(m)
    decreases m
  {
    var i :| 0 <= i < |m.entries| && NodeLargest(m.entries[i].1) == Largest(m);
    match m.entries[i].1
    case Indexes(ats) =>
      assert Reaches(m, ats);
    case One(sub) =>
      LargestAttained(sub);
      var ats :| Reaches(sub, ats) && |ats| == Largest(sub);
      assert Reaches(m, ats);
    case Many(_, sub) =>
      LargestAttained(sub);
      var ats :| Reaches(sub, ats) && |ats| == Largest(sub);
      assert Reaches(m, ats);
  }

  /** Every position a map records lies inside a header row of length `n`. */
  ghost predicate InRange(im: IndexMap, n: nat)
    decreases im, 1
  {
    forall i :: 0 <= i < |im.entries| ==> NodeInRange(im.entries[i].1, n)
  }

  ghost predicate NodeInRange(node: Node, n: nat)
    decreases node, 0
  {
    match node
    case Index(at) => at < n
    case Indexes(ats) => forall j :: 0 <= j < |ats| ==> ats[j] < n
    case One(sub) => InRange(sub, n)
    case Many(_, sub) => InRange(sub, n)
  }
}

=== FILE: instances.dfy ===
/**
 * Instances of schema classes: the values their instance variables hold,
 * the parsing errors they collect, and the read-side operations `as_json`,
 * `to_hash` and `not_set?`.
 */
module Instances {
  import opened Wrappers
  import opened Values
  import ErrorSink
  import opened OrderedMaps
  import opened Registry

  /** What an instance variable holds: a parsed value, a nested model, or a list of them (with nil holes). */
  datatype Slot = Scalar(v: Value) | One(m: Model) | Many(items: seq<Option<Model>>)

  /** An instance: its class, its instance variables in assignment order, and its parsing errors. */
  datatype Model = Model(cls: SchemaClass, ivars: seq<(string, Slot)>, errors: ErrorSink.Errors)

  /** `new`: no instance variable assigned, no error. */
  function New(cls: SchemaClass): (m: Model)
    ensures m.cls == cls && Keys(m.ivars) == [] && ErrorSink.IsEmpty(m.errors) && ErrorSink.Valid(m.errors)
  {
    Model(cls, [], ErrorSink.Empty)
  }

  /** The getter: the field's instance variable, `None` while it was never assigned. */
  function Read(m: Model, o: FieldOptions): Option<Slot> {
    Get(m.ivars, o.ivar)
  }

  /** A getter result is nil when the variable is unassigned or holds nil. */
  predicate IsNil(s: Option<Slot>) {
    s.None? || s == Some(Scalar(Nil))
  }

  /** `instance_variable_set` */
  function SetIvar(m: Model, ivar: string, s: Slot): (r: Model)
    ensures r.cls == m.cls && r.errors == m.errors
    ensures Get(r.ivars, ivar) == Some(s)
    ensures forall x :: x != ivar ==> Get(r.ivars, x) == Get(m.ivars, x)
    ensures Keys(r.ivars) == Keys(m.ivars) + (if ivar in Keys(m.ivars) then [] else [ivar])
  {
    PutKeys(m.ivars, ivar, s);
    m.(ivars := Put(m.ivars, ivar, s))
  }

  /** `not_set?`: no field's instance variable is defined. */
  predicate NotSet(m: Model) {
    forall i :: 0 <= i < |m.cls.fields| ==> Read(m, m.cls.fields[i].1).None?
  }

  /** A new instance is not set; assigning any field's variable makes it set. */
  lemma NotSetUntilAssigned(cls: SchemaClass, m: Model, i: nat, s: Slot)
    requires i < |m.cls.fields|
    ensures NotSet(New(cls))
    ensures !NotSet(SetIvar(m, m.cls.fields[i].1.ivar, s))
  {
    var r := SetIvar(m, m.cls.fields[i].1.ivar, s);
    assert Read(r, r.cls.fields[i].1).Some?;
  }

  /** The value `as_json` emits for a getter result (nil for an unassigned variable). */
  function JsonValue(s: Option<Slot>): Slot {
    s.GetOr(Scalar(Nil))
  }

  /** Whether `as_json` emits registry entry `i`: not an alias, and not nil unless nils are included. */
  predicate Emitted(m: Model, includeNils: bool, i: nat)
    requires i < |m.cls.fields|
  {
    !IsAlias(m.cls.fields[i].1) && (includeNils || !IsNil(Read(m, m.cls.fields[i].1)))
  }

  /** The pair `as_json` emits for registry entry `i`: its name and its getter's value. */
  function JsonEntry(m: Model, i: nat): (string, Slot)
    requires i < |m.cls.fields|
  {
    (m.cls.fields[i].0, JsonValue(Read(m, m.cls.fields[i].1)))
  }

  /**
   * `as_json(include_nils:)`: one entry per registry entry that is not an
   * alias, in registry order, leaving out nil values unless asked for them.
   * Registry names are distinct, so each entry is a new key of the result.
   */
  function AsJson(m: Model, includeNils: bool): (r: seq<(string, Slot)>)
    ensures forall e :: e in r ==> exists i :: 0 <= i < |m.cls.fields| && Emitted(m, includeNils, i) && e == JsonEntry(m, i)
    ensures forall i :: 0 <= i < |m.cls.fields| && Emitted(m, includeNils, i) ==> JsonEntry(m, i) in r
    ensures !includeNils ==> forall e :: e in r ==> e.1 != Scalar(Nil)
  {
    AsJsonFrom(m, includeNils, 0)
  }

  function AsJsonFrom(m: Model, includeNils: bool, i: nat): (r: seq<(string, Slot)>)
    requires i <= |m.cls.fields|
    ensures forall e :: e in r ==> exists j :: i <= j < |m.cls.fields| && Emitted(m, includeNils, j) && e == JsonEntry(m, j)
    ensures forall j :: i <= j < |m.cls.fields| && Emitted(m, includeNils, j) ==> JsonEntry(m, j) in r
    ensures !includeNils ==> forall e :: e in r ==> e.1 != Scalar(Nil)
    decreases |m.cls.fields| - i
  {
    if i == |m.cls.fields| then []
    else
      var (name, o) := m.cls.fields[i];
      var value := Read(m, o);
      var rest := AsJsonFrom(m, includeNils, i + 1);
      if IsAlias(o) || (IsNil(value) && !includeNils) then rest
      else
        assert Emitted(m, includeNils, i) && JsonEntry(m, i) == (name, JsonValue(value));
        [(name, JsonValue(value))] + rest
  }

  /** `to_hash` (`to_h`): `as_json` keeping nils. */
  function ToHash(m: Model): (r: seq<(string, Slot)>)
    ensures Keys(r) == NonAliasNames(m.cls)
    ensures forall e :: e in r ==> exists i :: 0 <= i < |m.cls.fields| && !IsAlias(m.cls.fields[i].1) && e == JsonEntry(m, i)
    ensures forall i :: 0 <= i < |m.cls.fields| && !IsAlias(m.cls.fields[i].1) ==> JsonEntry(m, i) in r
  {
    ToHashKeys(m, 0);
    AsJson(m, true)
  }

  /** The names of the registry entries that are not aliases, in order. */
  function NonAliasNames(cls: SchemaClass): seq<string> {
    NonAliasNamesFrom(cls, 0)
  }

  function NonAliasNamesFrom(cls: SchemaClass, i: nat): seq<string>
    requires i <= |cls.fields|
    decreases |cls.fields| - i
  {
    if i == |cls.fields| then []
    else if IsAlias(cls.fields[i].1) then NonAliasNamesFrom(cls, i + 1)
    else [cls.fields[i].0] + NonAliasNamesFrom(cls, i + 1)
  }

  lemma {:induction false} ToHashKeys(m: Model, i: nat)
    requires i <= |m.cls.fields|
    ensures Keys(AsJsonFrom(m, true, i)) == NonAliasNamesFrom(m.cls, i)
    decreases |m.cls.fields| - i
  {
    if i < |m.cls.fields| {
      ToHashKeys(m, i + 1);
      var rest := AsJsonFrom(m, true, i + 1);
      if !IsAlias(m.cls.fields[i].1) {
        var e := (m.cls.fields[i].0, JsonValue(Read(m, m.cls.fields[i].1)));
        assert Keys([e] + rest) == [e.0] + Keys(rest);
      }
    }
  }

  /** The entries whose value is not nil. */
  function DropNils(es: seq<(string, Slot)>): (r: seq<(string, Slot)>)
    ensures forall e :: e in r ==> e in es && e.1 != Scalar(Nil)
  {
    if |es| == 0 then []
    else if es[0].1 == Scalar(Nil) then DropNils(es[1..])
    else [es[0]] + DropNils(es[1..])
  }

  /** `as_json` without nils is `to_hash` with its nil values left out. */
  lemma AsJsonIsToHashWithoutNils(m: Model)
    ensures AsJson(m, false) == DropNils(ToHash(m))
  {
    AsJsonDropNils(m, 0);
  }

  lemma {:induction false} AsJsonDropNils(m: Model, i: nat)
    requires i <= |m.cls.fields|
    ensures AsJsonFrom(m, false, i) == DropNils(AsJsonFrom(m, true, i))
    decreases |m.cls.fields| - i
  {
    if i < |m.cls.fields| {
      AsJsonDropNils(m, i + 1);
      var full := AsJsonFrom(m, true, i);
      var o := m.cls.fields[i].1;
      if !IsAlias(o) {
        var e := (m.cls.fields[i].0, JsonValue(Read(m, o)));
        assert full == [e] + AsJsonFrom(m, true, i + 1);
        assert full[1..] == AsJsonFrom(m, true, i + 1);
        assert IsNil(Read(m, o)) <==> e.1 == Scalar(Nil);
      }
    }
  }
}

=== FILE: ordered_maps.dfy ===
/**
 * Ruby hashes iterate in insertion order; the registries, type tables and
 * index maps are all such ordered hashes. An ordered map is a list of
 * entries, one per key when built with `Put`.
 */
module OrderedMaps {
  import opened Wrappers

  function Keys<K, V>(m: seq<(K, V)>): (ks: seq<K>)
    ensures |ks| == |m|
    ensures forall i :: 0 <= i < |m| ==> ks[i] == m[i].0
  {
    seq(|m|, i requires 0 <= i < |m| => m[i].0)
  }

  predicate DistinctKeys<K(==), V>(m: seq<(K, V)>) {
    forall i, j :: 0 <= i < j < |m| ==> m[i].0 != m[j].0
  }

  /** Two maps with distinct keys and no key in common concatenate to a map with distinct keys. */
  lemma DistinctKeysAppend<K, V>(a: seq<(K, V)>, b: seq<(K, V)>)
    requires DistinctKeys(a) && DistinctKeys(b)
    requires forall k :: 0 <= k < |b| ==> b[k].0 !in Keys(a)
    ensures DistinctKeys(a + b)
  {
    var r := a + b;
    forall i, j | 0 <= i < j < |r| ensures r[i].0 != r[j].0 {
      if j >= |a| {
        assert r[j] == b[j - |a|];
        if i < |a| {
          assert r[i].0 == Keys(a)[i];
        } else {
          assert r[i] == b[i - |a|];
        }
      }
    }
  }

  /** Position of the first entry for `k`. */
  function Find<K(==,!new), V>(m: seq<(K, V)>, k: K): (r: Option<nat>)
    ensures r.Some? ==> r.value < |m| && m[r.value].0 == k
    ensures r.Some? ==> forall j :: 0 <= j < r.value ==> m[j].0 != k
    ensures r.None? <==> k !in Keys(m)
  {
    FindFrom(m, k, 0)
  }

  function FindFrom<K(==,!new), V>(m: seq<(K, V)>, k: K, i: nat): (r: Option<nat>)
    requires i <= |m|
    ensures r.Some? ==> i <= r.value < |m| && m[r.value].0 == k
    ensures r.Some? ==> forall j :: i <= j < r.value ==> m[j].0 != k
    ensures r.None? <==> forall j :: i <= j < |m| ==> m[j].0 != k
    decreases |m| - i
  {
    if i == |m| then None
    else if m[i].0 == k then Some(i)
    else FindFrom(m, k, i + 1)
  }

  /** `hash[k]`, with `None` for a missing key. */
  function Get<K(==,!new), V>(m: seq<(K, V)>, k: K): (r: Option<V>)
    ensures r.None? <==> k !in Keys(m)
  {
    match Find(m, k)
    case Some(i) => Some(m[i].1)
    case None => None
  }

  /** In a map with distinct keys, every entry is what `Get` returns for its key. */
  lemma GetEntry<K(!new), V>(m: seq<(K, V)>, i: nat)
    requires DistinctKeys(m) && i < |m|
    ensures Get(m, m[i].0) == Some(m[i].1)
  {
  }

  /** `hash[k] = v`: replaces the value in place, or appends a new entry. */
  function Put<K(==,!new), V>(m: seq<(K, V)>, k: K, v: V): (r: seq<(K, V)>)
    ensures Get(r, k) == Some(v)
    ensures forall n :: n != k ==> Get(r, n) == Get(m, n)
  {
    match Find(m, k)
    case Some(i) =>
      var r := m[i := (k, v)];
      SameKeysSameFind(m, r, k, 0);
      assert forall n :: n != k ==> Get(r, n) == Get(m, n) by {
        forall n | n != k ensures Get(r, n) == Get(m, n) {
          SameKeysSameFind(m, r, n, 0);
        }
      }
      r
    case None =>
      var r := m + [(k, v)];
      assert Keys(r)[|m|] == k;
      assert Find(r, k) == Some(|m|);
      assert forall n :: n != k ==> Find(r, n) == Find(m, n) by {
        forall n | n != k ensures Find(r, n) == Find(m, n) {
          AppendedFind(m, r, n, 0);
        }
      }
      r
  }

  /** Putting a new key appends its entry. */
  lemma PutFresh<K(!new), V>(m: seq<(K, V)>, k: K, v: V)
    requires k !in Keys(m)
    ensures Put(m, k, v) == m + [(k, v)]
  {
  }

  /** Putting an existing key keeps the key order; a new key goes last. */
  lemma PutKeys<K(!new), V>(m: seq<(K, V)>, k: K, v: V)
    ensures Keys(Put(m, k, v)) == Keys(m) + (if k in Keys(m) then [] else [k])
  {
    if k !in Keys(m) {
      assert Put(m, k, v) == m + [(k, v)];
    }
  }

  /** Putting an existing key rewrites its entry where it stands. */
  lemma PutExisting<K(!new), V>(m: seq<(K, V)>, k: K, v: V)
    requires k in Keys(m)
    ensures Find(m, k).Some?
    ensures Put(m, k, v) == m[Find(m, k).value := (k, v)]
  {
  }

  /** Every entry after a put is the new one or an entry that was already there. */
  lemma PutEntries<K(!new), V>(m: seq<(K, V)>, k: K, v: V)
    ensures forall j :: 0 <= j < |Put(m, k, v)| ==> Put(m, k, v)[j] == (k, v) || Put(m, k, v)[j] in m
  {
    var r := Put(m, k, v);
    forall j | 0 <= j < |r| ensures r[j] == (k, v) || r[j] in m {
      if r[j] != (k, v) {
        assert r[j] == m[j];
      }
    }
  }

  lemma SameKeysSameFind<K(!new), V>(a: seq<(K, V)>, b: seq<(K, V)>, n: K, i: nat)
    requires |a| == |b| && i <= |a|
    requires forall j :: 0 <= j < |a| ==> (a[j].0 == n <==> b[j].0 == n)
    ensures FindFrom(a, n, i) == FindFrom(b, n, i)
    decreases |a| - i
  {
    if i < |a| {
      SameKeysSameFind(a, b, n, i + 1);
    }
  }

  lemma AppendedFind<K(!new), V>(a: seq<(K, V)>, b: seq<(K, V)>, n: K, i: nat)
    requires |b| == |a| + 1 && i <= |a|
    requires forall j :: 0 <= j < |a| ==> b[j] == a[j]
    requires b[|a|].0 != n
    ensures FindFrom(a, n, i) == FindFrom(b, n, i)
    decreases |a| - i
  {
    if i < |a| {
      AppendedFind(a, b, n, i + 1);
    }
  }

  /** Past a first entry for another key, a lookup is the lookup in the rest. */
  lemma GetTail<K(!new), V>(m: seq<(K, V)>, k: K)
    requires |m| > 0 && m[0].0 != k
    ensures Get(m, k) == Get(m[1..], k)
  {
    var a := Find(m, k);
    var b := Find(m[1..], k);
    if a.Some? {
      assert m[1..][a.value - 1].0 == k;
    }
    if b.Some? {
      assert m[b.value + 1].0 == k;
      assert Keys(m)[b.value + 1] == k;
    }
  }

  /** Appending entries does not change what an existing key maps to. */
  lemma GetAppend<K(!new), V>(m: seq<(K, V)>, e: seq<(K, V)>, k: K)
    requires k in Keys(m)
    ensures Get(m + e, k) == Get(m, k)
  {
    PrefixFind(m, e, k, 0);
  }

  lemma PrefixFind<K(!new), V>(m: seq<(K, V)>, e: seq<(K, V)>, k: K, i: nat)
    requires i <= |m| && Find(m, k).Some? && i <= Find(m, k).value
    ensures FindFrom(m + e, k, i) == FindFrom(m, k, i)
    decreases |m| - i
  {
    if i < Find(m, k).value {
      PrefixFind(m, e, k, i + 1);
    }
  }

  /** Puts the entries one after another, in order. */
  function PutAll<K(==,!new), V>(m: seq<(K, V)>, es: seq<(K, V)>): (r: seq<(K, V)>)
    ensures forall n :: n !in Keys(es) ==> Get(r, n) == Get(m, n)
  {
    PutFrom(m, es, 0)
  }

  function PutFrom<K(==,!new), V>(m: seq<(K, V)>, es: seq<(K, V)>, i: nat): (r: seq<(K, V)>)
    requires i <= |es|
    ensures forall n :: (forall j :: i <= j < |es| ==> es[j].0 != n) ==> Get(r, n) == Get(m, n)
    decreases |es| - i
  {
    if i == |es| then m else PutFrom(Put(m, es[i].0, es[i].1), es, i + 1)
  }

  /** Putting entries whose keys are new and distinct appends them. */
  lemma PutAllFresh<K(!new), V>(m: seq<(K, V)>, es: seq<(K, V)>)
    requires forall k :: 0 <= k < |es| ==> es[k].0 !in Keys(m)
    requires DistinctKeys(es)
    ensures PutAll(m, es) == m + es
  {
    PutFromFresh(m, es, 0);
    assert es[0..] == es;
  }

  lemma {:induction false} PutFromFresh<K(!new), V>(m: seq<(K, V)>, es: seq<(K, V)>, i: nat)
    requires i <= |es|
    requires forall k :: i <= k < |es| ==> es[k].0 !in Keys(m)
    requires DistinctKeys(es)
    ensures PutFrom(m, es, i) == m + es[i..]
    decreases |es| - i
  {
    if i < |es| {
      var m' := Put(m, es[i].0, es[i].1);
      PutFresh(m, es[i].0, es[i].1);
      PutKeys(m, es[i].0, es[i].1);
      PutFromFresh(m', es, i + 1);
      SliceCons(es, i);
      ConcatCons(m, es[i], es[i + 1..]);
    }
  }

  lemma SliceCons<T>(s: seq<T>, i: nat)
    requires i < |s|
    ensures s[i..] == [s[i]] + s[i + 1..]
  {
  }

  lemma ConcatCons<T>(a: seq<T>, x: T, b: seq<T>)
    ensures (a + [x]) + b == a + ([x] + b)
  {
  }

  /** Position of the last entry for a key that occurs. */
  function LastIndex<K(==), V>(es: seq<(K, V)>, k: K): (i: nat)
    requires k in Keys(es)
    ensures i < |es| && es[i].0 == k
    ensures forall j :: i < j < |es| ==> es[j].0 != k
  {
    if es[|es| - 1].0 == k then |es| - 1
    else
      assert k in Keys(es[..|es| - 1]) by {
        var j :| 0 <= j < |es| && Keys(es)[j] == k;
        assert Keys(es[..|es| - 1])[j] == k;
      }
      LastIndex(es[..|es| - 1], k)
  }

  /** After putting a list of entries, a key maps to the value of its last entry. */
  lemma PutAllGet<K(!new), V>(m: seq<(K, V)>, es: seq<(K, V)>, i: nat)
    requires i < |es|
    requires forall j :: i < j < |es| ==> es[j].0 != es[i].0
    ensures Get(PutAll(m, es), es[i].0) == Some(es[i].1)
  {
    PutFromGet(m, es, 0, i);
  }

  lemma {:induction false} PutFromGet<K(!new), V>(m: seq<(K, V)>, es: seq<(K, V)>, s: nat, i: nat)
    requires s <= i < |es|
    requires forall j :: i < j < |es| ==> es[j].0 != es[i].0
    ensures Get(PutFrom(m, es, s), es[i].0) == Some(es[i].1)
    decreases |es| - s
  {
    var m' := Put(m, es[s].0, es[s].1);
    if s < i {
      PutFromGet(m', es, s + 1, i);
    }
  }
}

=== FILE: parsers.dfy ===
/**
 * The coercion functions a setter runs its raw value through
 * (Schema::Parsers::Common, ::Hash and ::Array). Each maps a value to a
 * typed value or nil, plus at most one error code. The source's regular
 * expressions are anchored with ^ and $; they are modelled as whole-string
 * matches.
 */
module Parsers {
  import opened Wrappers
  import opened Strings
  import opened Seqs
  import opened Values
  import opened ErrorSink

  /** The parser a field's type names (`parse_<type>`). */
  datatype Coercion = ToInteger | ToString | ToStringOrNil | ToFloat | ToBoolean | ToHash | ToArray

  /** A parser's outcome: the value stored (Nil for nil) and the error it records, if any. */
  datatype Coerced = Coerced(value: Value, error: Option<Code>)

  // ---------------------------------------------------------------------
  // Lexical pieces shared by INTEGER_REGEX and FLOAT_REGEX

  /** Length of the leading run of decimal digits. */
  function DigitRun(s: string): (n: nat)
    ensures n <= |s| && AllDigits(s[..n])
    ensures n < |s| ==> !IsDigit(s[n])
  {
    if |s| == 0 || !IsDigit(s[0]) then 0
    else
      var n := 1 + DigitRun(s[1..]);
      assert s[..n] == [s[0]] + s[1..][..n - 1];
      n
  }

  /** `[-+]?` */
  predicate IsSign(sign: string) {
    sign == "" || sign == "+" || sign == "-"
  }

  /** `(?:[1-9]\d*|0)` */
  predicate IntegerDigits(d: string) {
    d == "0" || (|d| >= 1 && '1' <= d[0] <= '9' && AllDigits(d))
  }

  function SignOf(s: string): (sign: string)
    ensures IsSign(sign) && sign <= s
  {
    if |s| > 0 && (s[0] == '+' || s[0] == '-') then s[..1] else ""
  }

  function Zeros(n: nat): (z: string)
    ensures |z| == n && forall i :: 0 <= i < n ==> z[i] == '0'
  {
    if n == 0 then "" else "0" + Zeros(n - 1)
  }

  // ---------------------------------------------------------------------
  // INTEGER_REGEX = /^[-+]?(?:[1-9]\d*|0)(?:\.0+)?$/

  /** The pieces of an integer literal: sign, digits, and the count of zeros after a point. */
  datatype IntegerParts = IntegerParts(sign: string, digits: string, zeros: nat)

  predicate IntegerPartsOk(p: IntegerParts) {
    IsSign(p.sign) && IntegerDigits(p.digits)
  }

  function RenderInteger(p: IntegerParts): string {
    p.sign + p.digits + (if p.zeros == 0 then "" else "." + Zeros(p.zeros))
  }

  /** `\.0+` or nothing; returns the number of zeros. */
  function ZeroFraction(f: string): Option<nat> {
    if f == "" then Some(0)
    else if |f| >= 2 && f[0] == '.' && forall i :: 1 <= i < |f| ==> f[i] == '0' then Some(|f| - 1)
    else None
  }

  /** Matches a string against INTEGER_REGEX, splitting it into its pieces. */
  function SplitInteger(s: string): Option<IntegerParts> {
    var sign := SignOf(s);
    var t := s[|sign|..];
    var d := DigitRun(t);
    if !IntegerDigits(t[..d]) then None
    else match ZeroFraction(t[d..])
      case None => None
      case Some(z) => Some(IntegerParts(sign, t[..d], z))
  }

  predicate IntegerLiteral(s: string) {
    SplitInteger(s).Some?
  }

  /** What a matched pattern is made of: every match is the rendering of well-formed pieces. */
  lemma SplitIntegerSound(s: string)
    requires IntegerLiteral(s)
    ensures IntegerPartsOk(SplitInteger(s).value)
    ensures RenderInteger(SplitInteger(s).value) == s
  {
    var sign := SignOf(s);
    var t := s[|sign|..];
    var d := DigitRun(t);
    var z := ZeroFraction(t[d..]).value;
    if z > 0 {
      assert t[d..] == "." + Zeros(z);
    }
    assert s == sign + t[..d] + t[d..];
  }

  /** ... and every rendering of well-formed pieces matches, giving back those pieces. */
  lemma SplitIntegerComplete(p: IntegerParts)
    requires IntegerPartsOk(p)
    ensures SplitInteger(RenderInteger(p)) == Some(p)
  {
    var s := RenderInteger(p);
    var frac := if p.zeros == 0 then "" else "." + Zeros(p.zeros);
    var t := p.digits + frac;
    Assoc(p.sign, p.digits, frac);
    SignOfConcat(p.sign, t);
    SplitAt(p.sign, t);
    DigitRunOfConcat(p.digits, frac);
    SplitAt(p.digits, frac);
    ZeroFractionOf(p.zeros);
  }

  /** The rendered fraction of zeros is read back as its count. */
  lemma ZeroFractionOf(z: nat)
    ensures ZeroFraction(if z == 0 then "" else "." + Zeros(z)) == Some(z)
  {
    if z > 0 {
      var f := "." + Zeros(z);
      assert forall i :: 1 <= i < |f| ==> f[i] == Zeros(z)[i - 1];
    }
  }


  /** The digit run of digits followed by a non-digit-led suffix is exactly the digits. */
  lemma DigitRunOfConcat(d: string, rest: string)
    requires AllDigits(d)
    requires rest == "" || !IsDigit(rest[0])
    ensures DigitRun(d + rest) == |d|
  {
    if |d| > 0 {
      assert (d + rest)[1..] == d[1..] + rest;
      DigitRunOfConcat(d[1..], rest);
    } else {
      assert d + rest == rest;
    }
  }

  /** `value.to_i` of a matched string: the signed value of its integer digits. */
  function IntegerLiteralValue(s: string): int
    requires IntegerLiteral(s)
  {
    var p := SplitInteger(s).value;
    var n: int := DigitsValue(p.digits);
    if p.sign == "-" then -n else n
  }

  /** Every Integer#to_s is an integer literal whose value is that integer. */
  lemma IntegerLiteralRoundTrip(i: int)
    ensures IntegerLiteral(IntToString(i))
    ensures IntegerLiteralValue(IntToString(i)) == i
  {
    var n: nat := if i < 0 then -i else i;
    var p := IntegerParts(if i < 0 then "-" else "", NatToString(n), 0);
    assert RenderInteger(p) == IntToString(i);
    SplitIntegerComplete(p);
    NatToStringRoundTrip(n);
  }

  // ---------------------------------------------------------------------
  // FLOAT_REGEX = /^[-+]?(?:[1-9]\d*|0)(?:\.\d+)?([Ee]-?\d+)?$/

  datatype Exponent = Exponent(marker: char, negative: bool, digits: string)

  /** The pieces of a float literal: sign, integer digits, optional fraction, optional exponent. */
  datatype FloatParts = FloatParts(sign: string, digits: string, fraction: Option<string>, exponent: Option<Exponent>)

  predicate FractionOk(f: Option<string>) {
    f.Some? ==> |f.value| >= 1 && AllDigits(f.value)
  }

  predicate ExponentOk(x: Option<Exponent>) {
    x.Some? ==> (x.value.marker == 'e' || x.value.marker == 'E') && |x.value.digits| >= 1 && AllDigits(x.value.digits)
  }

  predicate FloatPartsOk(p: FloatParts) {
    IsSign(p.sign) && IntegerDigits(p.digits) && FractionOk(p.fraction) && ExponentOk(p.exponent)
  }

  function RenderExponent(x: Option<Exponent>): string {
    match x
    case None => ""
    case Some(e) => [e.marker] + (if e.negative then "-" else "") + e.digits
  }

  function RenderFloat(p: FloatParts): string {
    p.sign + p.digits + RenderFraction(p.fraction) + RenderExponent(p.exponent)
  }

  /** `([Ee]-?\d+)?` against the whole remainder. */
  function SplitExponent(r: string): (x: Option<Option<Exponent>>)
    ensures x.Some? ==> ExponentOk(x.value)
  {
    if r == "" then Some(None)
    else if r[0] != 'e' && r[0] != 'E' then None
    else
      var neg := |r| > 1 && r[1] == '-';
      var ds := if neg then r[2..] else r[1..];
      if |ds| >= 1 && AllDigits(ds) then Some(Some(Exponent(r[0], neg, ds))) else None
  }

  /** `(?:\.\d+)?([Ee]-?\d+)?` against what follows the integer digits. */
  function SplitFloatTail(u: string): (r: Option<(Option<string>, Option<Exponent>)>)
    ensures r.Some? ==> FractionOk(r.value.0) && ExponentOk(r.value.1)
  {
    if |u| > 0 && u[0] == '.' then
      var f := DigitRun(u[1..]);
      assert u[1..][..f] == u[1..1 + f];
      if f == 0 then None
      else match SplitExponent(u[1 + f..])
        case None => None
        case Some(x) => Some((Some(u[1..1 + f]), x))
    else match SplitExponent(u)
      case None => None
      case Some(x) => Some((None, x))
  }

  /** Matches a string against FLOAT_REGEX, splitting it into its pieces. */
  function SplitFloat(s: string): (r: Option<FloatParts>)
    ensures r.Some? ==> FloatPartsOk(r.value)
  {
    var sign := SignOf(s);
    var t := s[|sign|..];
    var d := DigitRun(t);
    if !IntegerDigits(t[..d]) then None
    else match SplitFloatTail(t[d..])
      case None => None
      case Some(tail) => Some(FloatParts(sign, t[..d], tail.0, tail.1))
  }

  predicate FloatLiteral(s: string) {
    SplitFloat(s).Some?
  }

  lemma SplitExponentComplete(x: Option<Exponent>)
    requires ExponentOk(x)
    ensures SplitExponent(RenderExponent(x)) == Some(x)
  {
    if x.Some? {
      var e := x.value;
      var r := RenderExponent(x);
      if e.negative {
        assert r[2..] == e.digits;
      } else {
        assert r[1..] == e.digits;
      }
    }
  }

  function RenderFraction(f: Option<string>): string {
    if f.Some? then "." + f.value else ""
  }

  lemma SplitFloatTailComplete(f: Option<string>, x: Option<Exponent>)
    requires FractionOk(f) && ExponentOk(x)
    ensures SplitFloatTail(RenderFraction(f) + RenderExponent(x)) == Some((f, x))
  {
    var ex := RenderExponent(x);
    SplitExponentComplete(x);
    if f.Some? {
      FractionTail(f.value, x);
    } else {
      assert RenderFraction(f) + ex == ex;
      assert ex == "" || ex[0] == 'e' || ex[0] == 'E';
    }
  }

  lemma FractionTail(fs: string, x: Option<Exponent>)
    requires |fs| >= 1 && AllDigits(fs)
    requires SplitExponent(RenderExponent(x)) == Some(x)
    requires x.Some? ==> (x.value.marker == 'e' || x.value.marker == 'E')
    ensures SplitFloatTail("." + fs + RenderExponent(x)) == Some((Some(fs), x))
  {
    var ex := RenderExponent(x);
    var u := "." + fs + ex;
    assert u[1..] == fs + ex;
    assert ex == "" || !IsDigit(ex[0]);
    DigitRunOfConcat(fs, ex);
    var n := DigitRun(u[1..]);
    assert n == |fs|;
    assert u[1..1 + n] == fs;
    assert u[1 + n..] == ex;
  }

  /** Every rendering of well-formed float pieces matches FLOAT_REGEX, giving back those pieces. */
  lemma SplitFloatComplete(p: FloatParts)
    requires FloatPartsOk(p)
    ensures SplitFloat(RenderFloat(p)) == Some(p)
  {
    var tail := RenderFraction(p.fraction) + RenderExponent(p.exponent);
    var t := p.digits + tail;
    Assoc4(p.sign, p.digits, RenderFraction(p.fraction), RenderExponent(p.exponent));
    SignOfConcat(p.sign, t);
    SplitAt(p.sign, t);
    assert tail == "" || !IsDigit(tail[0]);
    DigitRunOfConcat(p.digits, tail);
    SplitAt(p.digits, tail);
    SplitFloatTailComplete(p.fraction, p.exponent);
  }


  /** An optional sign in front of a digit-led string is recognised as exactly that sign. */
  lemma SignOfConcat(sign: string, t: string)
    requires IsSign(sign) && |t| >= 1 && IsDigit(t[0])
    ensures SignOf(sign + t) == sign
  {
    if sign == "" {
      assert sign + t == t;
    } else {
      assert (sign + t)[0] == sign[0];
      assert (sign + t)[..1] == sign;
    }
  }

  /** The decimal a matched float literal denotes: (mantissa, exponent). */
  function FloatLiteralValue(s: string): Value
    requires FloatLiteral(s)
  {
    var p := SplitFloat(s).value;
    var fd := if p.fraction.Some? then p.fraction.value else "";
    var fdOk: string := fd;
    var ds := p.digits + fdOk;
    var ex := if p.exponent.Some? then
        (var e := p.exponent.value; var n: int := DigitsValue(e.digits); if e.negative then -n else n)
      else 0;
    var m: int := DigitsValue(ds);
    Float(if p.sign == "-" then -m else m, ex - |fd|)
  }

  // ---------------------------------------------------------------------
  // BOOLEAN_REGEX = /^(?:1|t|true|on|y|yes)$/i

  predicate BooleanWord(s: string) {
    Downcase(s) in ["1", "t", "true", "on", "y", "yes"]
  }

  // ---------------------------------------------------------------------
  // The parsers

  /** Float#to_i (truncation toward zero) of m * 10^e. */
  function Truncate(m: int, e: int): int {
    if e >= 0 then m * Pow10(e)
    else if m >= 0 then m / Pow10(-e)
    else -((-m) / Pow10(-e))
  }

  /** `value % 1 == 0.0` for m * 10^e. */
  predicate IsWhole(m: int, e: int) {
    e >= 0 || m % Pow10(-e) == 0
  }

  function ParseInteger(v: Value): (r: Coerced)
    ensures v.Int? ==> r == Coerced(v, None)
    ensures v.Str? ==> (r.error.None? <==> IntegerLiteral(v.s))
    ensures v.Str? && IntegerLiteral(v.s) ==> r == Coerced(Int(IntegerLiteralValue(v.s)), None)
    ensures v.Str? && !IntegerLiteral(v.s) ==> r == Coerced(Nil, Some(Invalid))
    ensures v.Float? ==> r.value == Int(Truncate(v.mantissa, v.exponent))
    ensures v.Float? ==> (r.error.None? <==> IsWhole(v.mantissa, v.exponent))
    ensures v.Nil? ==> r == Coerced(Nil, None)
    ensures v.Bool? || v.Hash? || v.Array? || v.Other? ==> r == Coerced(Nil, Some(UnhandledType))
  {
    match v
    case Int(_) => Coerced(v, None)
    case Str(s) =>
      if IntegerLiteral(s) then Coerced(Int(IntegerLiteralValue(s)), None)
      else Coerced(Nil, Some(Invalid))
    case Float(m, e) =>
      Coerced(Int(Truncate(m, e)), if IsWhole(m, e) then None else Some(Incompatable))
    case Nil => Coerced(Nil, None)
    case _ => Coerced(Nil, Some(UnhandledType))
  }

  function ParseString(v: Value): (r: Coerced)
    ensures v.Str? ==> r == Coerced(v, None)
    ensures v.Hash? || v.Array? ==> r == Coerced(Nil, Some(Incompatable))
    ensures v.Nil? ==> r == Coerced(Nil, None)
    ensures v.Int? ==> r == Coerced(Str(IntToString(v.i)), None)
    ensures !v.Hash? && !v.Array? ==> r.error.None?
  {
    match v
    case Str(_) => Coerced(v, None)
    case Hash(_) => Coerced(Nil, Some(Incompatable))
    case Array(_) => Coerced(Nil, Some(Incompatable))
    case Nil => Coerced(Nil, None)
    case _ => Coerced(Str(ToS(v)), None)
  }

  function ParseStringOrNil(v: Value): (r: Coerced)
    ensures v == Str("") ==> r == Coerced(Nil, None)
    ensures v != Str("") ==> r == ParseString(v)
  {
    match v
    case Str(s) => if |s| == 0 then Coerced(Nil, None) else Coerced(v, None)
    case _ => ParseString(v)
  }

  function ParseFloat(v: Value): (r: Coerced)
    ensures v.Float? ==> r == Coerced(v, None)
    ensures v.Int? ==> r == Coerced(Float(v.i, 0), None)
    ensures v.Str? ==> (r.error.None? <==> FloatLiteral(v.s))
    ensures v.Str? && FloatLiteral(v.s) ==> r == Coerced(FloatLiteralValue(v.s), None)
    ensures v.Str? && !FloatLiteral(v.s) ==> r == Coerced(Nil, Some(Invalid))
    ensures v.Nil? ==> r == Coerced(Nil, None)
    ensures v.Bool? || v.Hash? || v.Array? || v.Other? ==> r == Coerced(Nil, Some(UnhandledType))
  {
    match v
    case Float(_, _) => Coerced(v, None)
    case Int(i) => Coerced(Float(i, 0), None)
    case Str(s) =>
      if FloatLiteral(s) then Coerced(FloatLiteralValue(s), None)
      else Coerced(Nil, Some(Invalid))
    case Nil => Coerced(Nil, None)
    case _ => Coerced(Nil, Some(UnhandledType))
  }

  function ParseBoolean(v: Value): (r: Coerced)
    ensures v.Bool? ==> r == Coerced(v, None)
    ensures v.Int? ==> r == Coerced(Bool(v.i != 0), None)
    ensures v.Float? ==> r == Coerced(Bool(v.mantissa != 0), None)
    ensures v.Str? ==> r == Coerced(Bool(BooleanWord(v.s)), None)
    ensures v.Nil? ==> r == Coerced(Nil, None)
    ensures v.Hash? || v.Array? || v.Other? ==> r == Coerced(Nil, Some(UnhandledType))
  {
    match v
    case Bool(_) => Coerced(v, None)
    case Int(i) => Coerced(Bool(i != 0), None)
    case Float(m, _) => Coerced(Bool(m != 0), None)
    case Str(s) => Coerced(Bool(BooleanWord(s)), None)
    case Nil => Coerced(Nil, None)
    case _ => Coerced(Nil, Some(UnhandledType))
  }

  /** Schema::Parsers::Hash#parse_hash: unlike the common parsers, nil is an error. */
  function ParseHash(v: Value): (r: Coerced)
    ensures v.Hash? ==> r == Coerced(v, None)
    ensures !v.Hash? ==> r == Coerced(Nil, Some(Incompatable))
  {
    if v.Hash? then Coerced(v, None) else Coerced(Nil, Some(Incompatable))
  }

  /** Schema::Parsers::Array#parse_array: unlike the common parsers, nil is an error. */
  function ParseArray(v: Value): (r: Coerced)
    ensures v.Array? ==> r == Coerced(v, None)
    ensures !v.Array? ==> r == Coerced(Nil, Some(Incompatable))
  {
    if v.Array? then Coerced(v, None) else Coerced(Nil, Some(Incompatable))
  }

  /** Dispatch on the parser named by a field (`parse_<type>`). */
  function Parse(c: Coercion, v: Value): Coerced {
    match c
    case ToInteger => ParseInteger(v)
    case ToString => ParseString(v)
    case ToStringOrNil => ParseStringOrNil(v)
    case ToFloat => ParseFloat(v)
    case ToBoolean => ParseBoolean(v)
    case ToHash => ParseHash(v)
    case ToArray => ParseArray(v)
  }

  /** The common parsers (not hash/array) map nil to nil without an error. */
  predicate IsCommon(c: Coercion) {
    !c.ToHash? && !c.ToArray?
  }

  function ErrorList(e: Option<Code>): (l: seq<Code>)
    ensures |l| <= 1
  {
    if e.Some? then [e.value] else []
  }

  /**
   * A parser call `parse_x(field_name, parsing_errors, value)`: the typed
   * value, and the sink with at most one code added, under `field` only.
   */
  function Apply(c: Coercion, field: Key, errs: Errors, v: Value): (r: (Value, Errors))
    ensures r.0 == Parse(c, v).value
    ensures forall n :: n != field ==> Get(r.1, n) == Get(errs, n)
    ensures Get(r.1, field) == Get(errs, field) + ErrorList(Parse(c, v).error)
    ensures Parse(c, v).error.None? <==> r.1 == errs
  {
    var p := Parse(c, v);
    match p.error
    case None => (p.value, errs)
    case Some(code) => (p.value, Add(errs, field, code))
  }

  /** Every parser maps nil to nil; only the hash and array parsers record an error for it. */
  lemma NilHandling(c: Coercion)
    ensures Parse(c, Nil).value == Nil
    ensures Parse(c, Nil).error.None? <==> IsCommon(c)
  {
  }

  /**
   * Parsers are idempotent on what they produce: re-parsing a non-nil result
   * (or any result of a common parser) gives it back with no error. The one
   * exception is `parse_string_or_nil` on an object whose `to_s` is "": it
   * yields "", which a second pass turns into nil.
   */
  lemma ParseIdempotent(c: Coercion, v: Value)
    requires Parse(c, v).value != Nil || IsCommon(c)
    requires !(c == ToStringOrNil && Parse(c, v).value == Str(""))
    ensures Parse(c, Parse(c, v).value) == Coerced(Parse(c, v).value, None)
  {
  }

  /** A rendered integer parses back to itself. */
  lemma ParseIntegerOfRendering(i: int)
    ensures ParseInteger(Str(IntToString(i))) == Coerced(Int(i), None)
  {
    IntegerLiteralRoundTrip(i);
  }

  /** A float literal without fraction or exponent denotes its signed integer digits. */
  lemma WholeFloatLiteral(sign: string, digits: string)
    requires IsSign(sign) && IntegerDigits(digits)
    ensures FloatLiteral(sign + digits)
    ensures FloatLiteralValue(sign + digits) == Float(if sign == "-" then -(DigitsValue(digits) as int) else DigitsValue(digits), 0)
  {
    var p := FloatParts(sign, digits, None, None);
    assert FloatPartsOk(p);
    assert RenderFraction(None) + RenderExponent(None) == "";
    assert RenderFloat(p) == sign + digits + "" by {
      assert RenderFloat(p) == p.sign + p.digits + RenderFraction(None) + RenderExponent(None);
    }
    assert sign + digits + "" == sign + digits;
    SplitFloatComplete(p);
    assert digits + "" == digits;
  }

  /**
   * An Integer's rendering (a natural's digits, after a minus sign when
   * negative) parses as the Float equal to that Integer: the Float that
   * `parse_float` makes of the Integer itself.
   */
  lemma ParseFloatOfRendering(negative: bool, n: nat)
    ensures ParseFloat(Str((if negative then "-" else "") + NatToString(n))) == Coerced(Float(if negative then -(n as int) else n, 0), None)
  {
    var d := NatToString(n);
    assert IntegerDigits(d);
    WholeFloatLiteral(if negative then "-" else "", d);
    NatToStringRoundTrip(n);
  }
}

=== FILE: raw_maps.dfy ===
/**
 * The header map as the Ruby code actually holds it: a hash of hashes in
 * which a leaf is `{ index: i }` or `{ indexes: [...] }` and a has-many
 * branch is its nested map with one more key, `__size`, holding an
 * integer. The two readers that walk such a hash recursively,
 * `largest_number_of_indexes_from_map` and `get_mapped_headers`, are
 * modelled here as written; both send a Ruby `[]` to the integer under
 * `__size` once they meet a nested has-many branch, which raises.
 * `IndexMaps.Largest` and `CsvParser.MappedHeaders` are the corrected
 * readers; the lemmas below show where the two agree and where the
 * written ones fail.
 */
module RawMaps {
  import opened Wrappers
  import opened Values
  import opened OrderedMaps
  import opened Registry
  import opened IndexMaps
  import opened ArrayHeaders
  import opened CsvParser
  import ArrayDecoder

  /** A value in the Ruby header hash: an integer, an array of integers, or a hash. */
  datatype Raw =
    | RInt(n: int)
    | RList(ns: seq<nat>)
    | RHash(entries: seq<(string, Raw)>)

  /** What Ruby raises when a reader sends a message the value does not answer. */
  datatype RubyError = TypeError | NoMethodError

  /** The Ruby hash a node stands for. */
  function RawOf(n: Node): (r: Raw)
    ensures r.RHash?
    decreases n, 0
  {
    match n
    case Index(at) => RHash([("index", RInt(at))])
    case Indexes(ats) => RHash([("indexes", RList(ats))])
    case One(sub) => RHash(RawEntries(sub))
    case Many(size, sub) => RHash(Put(RawEntries(sub), "__size", RInt(size)))
  }

  function RawEntries(m: IndexMap): (r: seq<(string, Raw)>)
    ensures |r| == |m.entries|
    ensures forall i :: 0 <= i < |r| ==> r[i] == (m.entries[i].0, RawOf(m.entries[i].1))
    decreases m, 1
  {
    seq(|m.entries|, i requires 0 <= i < |m.entries| => (m.entries[i].0, RawOf(m.entries[i].1)))
  }

  /** The Ruby hash keeps the map's keys. */
  lemma RawKeys(m: IndexMap)
    ensures Keys(RawEntries(m)) == Keys(m.entries)
  {
  }

  /** `array[i]` with an integer: negative positions count from the end; nil outside the array. */
  function RubyAt(headers: seq<Value>, i: int): (h: Value)
    ensures 0 <= i ==> h == ArrayDecoder.RowAt(headers, i)
    ensures i < 0 && -i <= |headers| ==> h == headers[|headers| + i]
    ensures i < 0 && -i > |headers| ==> h == Nil
  {
    if 0 <= i then ArrayDecoder.RowAt(headers, i)
    else if -i <= |headers| then headers[|headers| + i]
    else Nil
  }

  // ---------------------------------------------------------------------
  // `get_mapped_headers`, as written.

  /**
   * One value of the hash: `info[:index]` if set, else `info[:indexes]`
   * mapped over the header row, else the value read as a hash in its own
   * right. Only a hash answers `[:index]`; only an integer is an array
   * position; only an array or a hash answers `map`.
   */
  function RawEntryHeaders(headers: seq<Value>, info: Raw): Result<seq<Value>, RubyError>
    decreases info, 1
  {
    match info
    case RHash(e) =>
      (match Get(e, "index")
       case Some(v) =>
         if v.RInt? then Success([RubyAt(headers, v.n)]) else Failure(TypeError)
       case None =>
         var indexes: Option<Raw> := Get(e, "indexes");
         match indexes
         case Some(RList(ns)) => Success(HeadersAt(headers, ns))
         case Some(RHash(es)) => if |es| == 0 then Success([]) else Failure(TypeError)
         case Some(RInt(_)) => Failure(NoMethodError)
         case None => RawHashHeaders(headers, info, 0))
    case _ => Failure(TypeError)
  }

  /** The hash's values from position `i` on, their headers concatenated. */
  function RawHashHeaders(headers: seq<Value>, h: Raw, i: nat): Result<seq<Value>, RubyError>
    requires h.RHash? && i <= |h.entries|
    decreases h, 0, |h.entries| - i
  {
    if i == |h.entries| then Success([])
    else
      match RawEntryHeaders(headers, h.entries[i].1)
      case Failure(e) => Failure(e)
      case Success(here) =>
        match RawHashHeaders(headers, h, i + 1)
        case Failure(e) => Failure(e)
        case Success(rest) => Success(here + rest)
  }

  /** `get_mapped_headers(@mapped_headers)` as the parser calls it. */
  function RawMappedHeaders(headers: seq<Value>, im: IndexMap): Result<seq<Value>, RubyError> {
    RawHashHeaders(headers, RHash(RawEntries(im)), 0)
  }

  /**
   * A map without has-many branches, whose field names are not `index` or
   * `indexes`: the shape the written reader can walk.
   */
  ghost predicate PlainMap(m: IndexMap)
    decreases m, 1
  {
    forall i :: 0 <= i < |m.entries| ==>
      m.entries[i].0 != "index" && m.entries[i].0 != "indexes" && PlainNode(m.entries[i].1)
  }

  ghost predicate PlainNode(n: Node)
    decreases n, 0
  {
    match n
    case Many(_, _) => false
    case One(sub) => PlainMap(sub)
    case _ => true
  }

  /** On a plain map the written reader and the corrected one list the same headers. */
  lemma {:induction false} RawHeadersAgree(headers: seq<Value>, m: IndexMap, i: nat)
    requires i <= |m.entries| && PlainMap(m)
    ensures RawHashHeaders(headers, RHash(RawEntries(m)), i) == Success(MappedHeadersFrom(headers, m, i))
    decreases m, 0, |m.entries| - i
  {
    if i < |m.entries| {
      var node := m.entries[i].1;
      assert RawEntries(m)[i].1 == RawOf(node);
      assert PlainNode(node);
      RawNodeAgree(headers, node);
      RawHeadersAgree(headers, m, i + 1);
    }
  }

  lemma {:induction false} RawNodeAgree(headers: seq<Value>, n: Node)
    requires PlainNode(n)
    ensures RawEntryHeaders(headers, RawOf(n)) == Success(NodeHeaders(headers, n))
    decreases n, 1
  {
    match n
    case Index(at) =>
      assert Get([("index", RInt(at))], "index") == Some(RInt(at));
    case Indexes(ats) =>
      assert Keys([("indexes", RList(ats))]) == ["indexes"];
      assert Get([("indexes", RList(ats))], "indexes") == Some(RList(ats));
    case One(sub) =>
      RawKeys(sub);
      assert "index" !in Keys(sub.entries) && "indexes" !in Keys(sub.entries);
      RawHeadersAgree(headers, sub, 0);
  }

  /** The written reader, on a plain map, is the corrected one. */
  lemma PlainMappedHeaders(headers: seq<Value>, im: IndexMap)
    requires PlainMap(im)
    ensures RawMappedHeaders(headers, im) == Success(MappedHeaders(headers, im))
  {
    RawHeadersAgree(headers, im, 0);
  }

  /** A value whose reading raises makes the walk over the hash raise. */
  lemma {:induction false} HeadersFailAt(headers: seq<Value>, h: Raw, i: nat, j: nat)
    requires h.RHash? && i <= j < |h.entries|
    requires RawEntryHeaders(headers, h.entries[j].1).Failure?
    ensures RawHashHeaders(headers, h, i).Failure?
    decreases j - i
  {
    if i < j {
      HeadersFailAt(headers, h, i + 1, j);
    }
  }

  /** The hash a has-many node stands for holds its `__size` integer as a value. */
  lemma ManySizeEntry(size: nat, sub: IndexMap) returns (p: nat)
    ensures p < |RawOf(Many(size, sub)).entries|
    ensures RawOf(Many(size, sub)).entries[p] == ("__size", RInt(size))
  {
    var e := RawOf(Many(size, sub)).entries;
    assert Get(e, "__size") == Some(RInt(size));
    p := Find(e, "__size").value;
  }

  /**
   * Any has-many branch at the top of the map (whose own fields are not
   * named `index` or `indexes`) makes the written reader raise: it reads
   * the branch as a hash and reaches `__size`.
   */
  lemma HasManyBreaksHeaders(headers: seq<Value>, m: IndexMap, j: nat)
    requires j < |m.entries| && m.entries[j].1.Many?
    requires "index" !in Keys(m.entries[j].1.sub.entries) && "indexes" !in Keys(m.entries[j].1.sub.entries)
    ensures RawMappedHeaders(headers, m).Failure?
  {
    var h := RHash(RawEntries(m));
    var node := m.entries[j].1;
    assert h.entries[j].1 == RawOf(node);
    ManyNodeBreaksHeaders(headers, node.size, node.sub);
    HeadersFailAt(headers, h, 0, j);
  }

  /** The hash of a has-many node, read by the written reader, raises. */
  lemma ManyNodeBreaksHeaders(headers: seq<Value>, size: nat, sub: IndexMap)
    requires "index" !in Keys(sub.entries) && "indexes" !in Keys(sub.entries)
    ensures RawEntryHeaders(headers, RawOf(Many(size, sub))).Failure?
  {
    var info := RawOf(Many(size, sub));
    RawKeys(sub);
    assert Get(info.entries, "index") == None;
    assert Get(info.entries, "indexes") == None;
    var p := ManySizeEntry(size, sub);
    HeadersFailAt(headers, info, 0, p);
  }

  /**
   * The parser's own map: once a has-many field with a header prefix
   * matches any header, `missing_fields` raises before it compares
   * anything, unless the associated class declares a field `index` or
   * `indexes`.
   */
  lemma HasManyFieldBreaksMappedHeaders(cls: SchemaClass, headers: seq<Value>, j: nat)
    requires WellFormed(cls) && j < |cls.fields|
    requires cls.fields[j].1.kind.HasMany? && cls.fields[j].1.kind.meta.headerPrefix.Some?
    requires |MapHeaders(cls.fields[j].1.kind.meta.target, headers, cls.fields[j].1.kind.meta.headerPrefix).entries| > 0
    requires Lookup(cls.fields[j].1.kind.meta.target, "index").None?
    requires Lookup(cls.fields[j].1.kind.meta.target, "indexes").None?
    ensures RawMappedHeaders(headers, MapHeaders(cls, headers, None)).Failure?
  {
    var meta := cls.fields[j].1.kind.meta;
    var sub := MapHeaders(meta.target, headers, meta.headerPrefix);
    var im := MapHeaders(cls, headers, None);
    HasManyNode(cls, headers, None, j);
    var q := Find(im.entries, cls.fields[j].0).value;
    assert im.entries[q].1 == Many(Largest(sub), sub);
    assert IsAssociation(cls.fields[j].1);
    assert "index" !in Keys(sub.entries) by {
      if "index" in Keys(sub.entries) {
        MapKeysNameFields(meta.target, headers, meta.headerPrefix, "index");
      }
    }
    assert "indexes" !in Keys(sub.entries) by {
      if "indexes" in Keys(sub.entries) {
        MapKeysNameFields(meta.target, headers, meta.headerPrefix, "indexes");
      }
    }
    HasManyBreaksHeaders(headers, im, q);
  }

  /**
   * The smallest case: one has-many branch with one repeated field. The
   * corrected reader lists its one header; the written one raises.
   */
  lemma FriendsHeaders()
    ensures var headers := [Str("Friends1Name")];
      var im := IndexMap([("friends", Many(1, IndexMap([("name", Indexes([0]))])))]);
      && RawMappedHeaders(headers, im).Failure?
      && MappedHeaders(headers, im) == [Str("Friends1Name")]
  {
    var headers := [Str("Friends1Name")];
    var sub := IndexMap([("name", Indexes([0]))]);
    var im := IndexMap([("friends", Many(1, sub))]);
    assert Keys(sub.entries) == ["name"];
    HasManyBreaksHeaders(headers, im, 0);
    assert MappedHeaders(headers, sub) == [Str("Friends1Name")];
  }

  // ---------------------------------------------------------------------
  // `largest_number_of_indexes_from_map`, as written.

  /** `value.size`: an array's length, a hash's entry count, an integer's byte width. */
  function RubySize(v: Raw): (n: nat)
    ensures v.RList? ==> n == |v.ns|
    ensures v.RHash? ==> n == |v.entries|
  {
    match v
    case RList(ns) => |ns|
    case RHash(es) => |es|
    case RInt(_) => 8
  }

  /**
   * The hash's values from position `i` on, with `size` the largest count
   * so far: a value with `indexes` offers their count, any other value is
   * read as a hash in its own right; only a hash answers `[:indexes]`.
   */
  function RawLargestFrom(h: Raw, i: nat, size: nat): Result<nat, RubyError>
    requires h.RHash? && i <= |h.entries|
    decreases h, |h.entries| - i
  {
    if i == |h.entries| then Success(size)
    else
      var info := h.entries[i].1;
      match info
      case RHash(e) =>
        (match Get(e, "indexes")
         case Some(v) => RawLargestFrom(h, i + 1, if RubySize(v) > size then RubySize(v) else size)
         case None =>
           match RawLargestFrom(info, 0, 0)
           case Failure(err) => Failure(err)
           case Success(n) => RawLargestFrom(h, i + 1, if n > size then n else size))
      case _ => Failure(TypeError)
  }

  /** `largest_number_of_indexes_from_map(mapped_model)` */
  function RawLargest(m: IndexMap): Result<nat, RubyError> {
    RawLargestFrom(RHash(RawEntries(m)), 0, 0)
  }

  /**
   * A map whose leaves are all `indexes` lists, with no has-many branch and
   * no field named `indexes`: the shape the written count can walk. It is
   * the shape of a has-many branch's map when no deeper has-many matched.
   */
  ghost predicate Repeated(m: IndexMap)
    decreases m
  {
    forall i :: 0 <= i < |m.entries| ==>
      m.entries[i].0 != "indexes" &&
      (m.entries[i].1.Indexes? || (m.entries[i].1.One? && Repeated(m.entries[i].1.sub)))
  }

  /** On such a map the written count is the corrected one. */
  lemma {:induction false} RawLargestAgree(m: IndexMap, i: nat, size: nat)
    requires i <= |m.entries| && Repeated(m)
    ensures RawLargestFrom(RHash(RawEntries(m)), i, size)
      == Success(if size > LargestFrom(m, i) then size else LargestFrom(m, i))
    decreases m, 1, |m.entries| - i
  {
    if i < |m.entries| {
      var n := NodeLargest(m.entries[i].1);
      LargestNodeStep(m, i, size);
      RawLargestAgree(m, i + 1, if n > size then n else size);
    }
  }

  /** One value of the hash offers what the corrected count gives its node. */
  lemma {:induction false} LargestNodeStep(m: IndexMap, i: nat, size: nat)
    requires i < |m.entries| && Repeated(m)
    ensures var n := NodeLargest(m.entries[i].1);
      RawLargestFrom(RHash(RawEntries(m)), i, size) == RawLargestFrom(RHash(RawEntries(m)), i + 1, if n > size then n else size)
    decreases m, 0
  {
    var h := RHash(RawEntries(m));
    var node := m.entries[i].1;
    assert h.entries[i].1 == RawOf(node);
    match node
    case Indexes(ats) =>
      LargestIndexesStep(h, i, size, ats);
    case One(sub) =>
      RawKeys(sub);
      assert Get(RawEntries(sub), "indexes") == None;
      RawLargestAgree(sub, 0, 0);
      LargestHashStep(h, i, size, Largest(sub));
  }

  /** An `indexes` leaf offers its count. */
  lemma LargestIndexesStep(h: Raw, i: nat, size: nat, ats: seq<nat>)
    requires h.RHash? && i < |h.entries| && h.entries[i].1 == RHash([("indexes", RList(ats))])
    ensures RawLargestFrom(h, i, size) == RawLargestFrom(h, i + 1, if |ats| > size then |ats| else size)
  {
    assert Keys([("indexes", RList(ats))]) == ["indexes"];
    assert Get([("indexes", RList(ats))], "indexes") == Some(RList(ats));
  }

  /** A hash without `indexes` offers its own largest count. */
  lemma LargestHashStep(h: Raw, i: nat, size: nat, n: nat)
    requires h.RHash? && i < |h.entries| && h.entries[i].1.RHash?
    requires Get(h.entries[i].1.entries, "indexes") == None
    requires RawLargestFrom(h.entries[i].1, 0, 0) == Success(n)
    ensures RawLargestFrom(h, i, size) == RawLargestFrom(h, i + 1, if n > size then n else size)
  {
  }


  /** The written count, on such a map, is `Largest`. */
  lemma RepeatedLargest(m: IndexMap)
    requires Repeated(m)
    ensures RawLargest(m) == Success(Largest(m))
  {
    RawLargestAgree(m, 0, 0);
  }

  /** A value the count cannot take makes the walk over the hash raise. */
  lemma {:induction false} LargestFailAt(h: Raw, i: nat, j: nat, size: nat)
    requires h.RHash? && i <= j < |h.entries| && LargestBreaks(h.entries[j].1)
    ensures RawLargestFrom(h, i, size).Failure?
    decreases j - i
  {
    if i < j {
      forall size': nat {:trigger RawLargestFrom(h, i + 1, size')} ensures RawLargestFrom(h, i + 1, size').Failure? {
        LargestFailAt(h, i + 1, j, size');
      }
      LargestStepFails(h, i, size);
    }
  }

  /** A value the written count cannot take: not a hash, or a hash without `indexes` whose own walk raises. */
  ghost predicate LargestBreaks(info: Raw) {
    !info.RHash? || (Get(info.entries, "indexes") == None && RawLargestFrom(info, 0, 0).Failure?)
  }

  /** A failure further on, whatever the count so far, is a failure from here. */
  lemma LargestStepFails(h: Raw, i: nat, size: nat)
    requires h.RHash? && i < |h.entries|
    requires forall s: nat {:trigger RawLargestFrom(h, i + 1, s)} :: RawLargestFrom(h, i + 1, s).Failure?
    ensures RawLargestFrom(h, i, size).Failure?
  {
  }


  /**
   * A nested has-many branch (whose own fields are not named `indexes`)
   * makes the written count raise: it is read as a hash and `__size` is
   * reached.
   */
  lemma NestedManyBreaksLargest(m: IndexMap, j: nat)
    requires j < |m.entries| && m.entries[j].1.Many?
    requires "indexes" !in Keys(m.entries[j].1.sub.entries)
    ensures RawLargest(m).Failure?
  {
    var h := RHash(RawEntries(m));
    var node := m.entries[j].1;
    assert h.entries[j].1 == RawOf(node);
    ManyNodeBreaksLargest(node.size, node.sub);
    LargestFailAt(h, 0, j, 0);
  }

  /** The count cannot take the hash of a has-many node. */
  lemma ManyNodeBreaksLargest(size: nat, sub: IndexMap)
    requires "indexes" !in Keys(sub.entries)
    ensures LargestBreaks(RawOf(Many(size, sub)))
  {
    var info := RawOf(Many(size, sub));
    RawKeys(sub);
    var p := ManySizeEntry(size, sub);
    LargestFailAt(info, 0, p, 0);
  }

  /**
   * In the mapper: a class whose has-many branch, once mapped, holds a
   * has-many branch of its own that matched some header cannot have the
   * outer branch's count taken as written, unless the innermost class
   * declares a field `indexes`.
   */
  lemma NestedHasManyBreaksCount(cls: SchemaClass, headers: seq<Value>, prefix: Option<string>, k: nat)
    requires WellFormed(cls) && k < |cls.fields|
    requires cls.fields[k].1.kind.HasMany? && cls.fields[k].1.kind.meta.headerPrefix.Some?
    requires |MapHeaders(cls.fields[k].1.kind.meta.target, headers, cls.fields[k].1.kind.meta.headerPrefix).entries| > 0
    requires Lookup(cls.fields[k].1.kind.meta.target, "indexes").None?
    ensures RawLargest(MapHeaders(cls, headers, prefix)).Failure?
  {
    var meta := cls.fields[k].1.kind.meta;
    var inner := MapHeaders(meta.target, headers, meta.headerPrefix);
    var im := MapHeaders(cls, headers, prefix);
    HasManyNode(cls, headers, prefix, k);
    var q := Find(im.entries, cls.fields[k].0).value;
    assert im.entries[q].1 == Many(Largest(inner), inner);
    assert IsAssociation(cls.fields[k].1);
    assert "indexes" !in Keys(inner.entries) by {
      if "indexes" in Keys(inner.entries) {
        MapKeysNameFields(meta.target, headers, meta.headerPrefix, "indexes");
      }
    }
    NestedManyBreaksLargest(im, q);
  }

  /**
   * The smallest case: a has-many branch holding a has-many branch whose
   * list is the longer one. The corrected count walks into the inner
   * branch and takes its two columns; the written one raises.
   */
  lemma NestedManyCount()
    ensures var games := IndexMap([("title", Indexes([1, 2]))]);
      var friend := IndexMap([("name", Indexes([0])), ("games", Many(2, games))]);
      && RawLargest(friend).Failure?
      && Largest(friend) == 2
  {
    var games := IndexMap([("title", Indexes([1, 2]))]);
    var friend := IndexMap([("name", Indexes([0])), ("games", Many(2, games))]);
    assert Keys(games.entries) == ["title"];
    NestedManyBreaksLargest(friend, 1);
    assert NodeLargest(games.entries[0].1) == 2;
    assert NodeLargest(friend.entries[1].1) == 2;
  }
}

=== FILE: registry.dfy ===
/**
 * The field registry of a schema class (`schema`): an ordered hash from a
 * field name to its options. Attribute declarations add an entry for the
 * field and one copy per alias; association declarations add one entry whose
 * options hold the nested class by reference.
 */
module Registry {
  import opened Wrappers
  import opened Parsers
  import opened OrderedMaps
  import opened Values

  /** The options of a has-one / has-many entry. */
  datatype AssocMeta = AssocMeta(
    className: string,                // :class_name
    target: SchemaClass,              // the nested class it names
    typeField: Option<Key>,           // :type_field, a Symbol or a String
    externalTypeField: Option<string>,// :external_type_field
    types: seq<(Value, SchemaClass)>, // :types, filled by add_type; any value names a type
    typeIgnorecase: Option<bool>,     // :type_ignorecase
    headerPrefix: Option<string>)     // :header_prefix

  /** `options[:type]` together with what it determines. */
  datatype Kind =
    | Attribute(declared: Coercion, parser: Coercion)
    | HasOne(meta: AssocMeta)
    | HasMany(meta: AssocMeta)

  datatype FieldOptions = FieldOptions(
    key: string,                 // external name matched against headers
    name: string,                // the declared (canonical) name
    kind: Kind,
    getter: string,
    setter: string,
    ivar: string,                // :instance_variable
    aliases: Option<seq<Key>>,   // as declared: Symbols or Strings
    aliasOf: Option<string>,     // set only on entries generated for an alias
    association: bool,           // :association
    startingIndex: Option<int>)  // first repetition number probed in headers

  /** A schema class, seen through its registry. */
  datatype SchemaClass = SchemaClass(fields: seq<(string, FieldOptions)>)

  const EmptyClass := SchemaClass([])

  predicate IsAlias(o: FieldOptions) {
    o.aliasOf.Some?
  }

  predicate IsAssociation(o: FieldOptions) {
    o.kind.HasOne? || o.kind.HasMany?
  }

  function Names(cls: SchemaClass): (ns: seq<string>)
    ensures ns == Keys(cls.fields)
  {
    Keys(cls.fields)
  }

  /** `schema[name]` */
  function Lookup(cls: SchemaClass, name: string): Option<FieldOptions> {
    Get(cls.fields, name)
  }

  /** `add_value_to_class_method(:schema, name => options)`: hash assignment. */
  function Store(cls: SchemaClass, name: string, opts: FieldOptions): (r: SchemaClass)
    ensures Lookup(r, name) == Some(opts)
    ensures forall n :: n != name ==> Lookup(r, n) == Lookup(cls, n)
  {
    SchemaClass(OrderedMaps.Put(cls.fields, name, opts))
  }

  /** `Schema::Model.default_attribute_options(name, type)` */
  function DefaultAttributeOptions(name: string, kind: Kind): (o: FieldOptions)
    ensures o.key == name && o.name == name && o.kind == kind
    ensures o.getter == name && o.setter == name + "=" && o.ivar == "@" + name
    ensures !IsAlias(o) && o.aliases.None? && !o.association
  {
    FieldOptions(name, name, kind, name, name + "=", "@" + name, None, None, false, None)
  }

  /** Distinct names get distinct setters and instance variables. */
  lemma DefaultNamesDistinct(a: string, b: string, ka: Kind, kb: Kind)
    requires a != b
    ensures DefaultAttributeOptions(a, ka).ivar != DefaultAttributeOptions(b, kb).ivar
    ensures DefaultAttributeOptions(a, ka).setter != DefaultAttributeOptions(b, kb).setter
  {
    assert ("@" + a)[1..] == a && ("@" + b)[1..] == b;
    assert (a + "=")[..|a|] == a && (b + "=")[..|b|] == b;
  }

  /** Options a declaration may pass; each one given replaces the default. */
  datatype Overrides = Overrides(
    key: Option<string>,
    getter: Option<string>,
    setter: Option<string>,
    ivar: Option<string>,
    alias: Option<Key>,
    aliases: Option<seq<Key>>,
    parser: Option<Coercion>,
    startingIndex: Option<int>,
    association: Option<bool>,
    className: Option<string>,
    typeField: Option<Key>,
    externalTypeField: Option<string>,
    typeIgnorecase: Option<bool>,
    headerPrefix: Option<string>)

  const NoOverrides := Overrides(None, None, None, None, None, None, None, None, None, None, None, None, None, None)

  /** `defaults.merge(options)` for the keys every entry has. */
  function Merge(d: FieldOptions, ov: Overrides): (o: FieldOptions)
    ensures o.key == ov.key.GetOr(d.key) && o.getter == ov.getter.GetOr(d.getter)
    ensures o.setter == ov.setter.GetOr(d.setter) && o.ivar == ov.ivar.GetOr(d.ivar)
    ensures o.aliases == (if ov.aliases.Some? then ov.aliases else d.aliases)
    ensures o.startingIndex == (if ov.startingIndex.Some? then ov.startingIndex else d.startingIndex)
    ensures o.association == ov.association.GetOr(d.association)
    ensures o.name == d.name && o.kind == d.kind && o.aliasOf == d.aliasOf
  {
    d.(key := ov.key.GetOr(d.key), getter := ov.getter.GetOr(d.getter),
       setter := ov.setter.GetOr(d.setter), ivar := ov.ivar.GetOr(d.ivar),
       aliases := if ov.aliases.Some? then ov.aliases else d.aliases,
       startingIndex := if ov.startingIndex.Some? then ov.startingIndex else d.startingIndex,
       association := ov.association.GetOr(d.association))
  }

  /**
   * The options `attribute(name, type, options)` stores: `alias:` becomes
   * `aliases: [alias]`, the parser defaults to `parse_<type>`, and every
   * option the caller gives overrides its default.
   */
  function AttributeOptions(name: string, declared: Coercion, ov: Overrides): (o: FieldOptions)
    ensures o.name == name && !IsAlias(o) && o.association == ov.association.GetOr(false)
    ensures o.kind == Attribute(declared, ov.parser.GetOr(declared))
    ensures ov.alias.Some? ==> o.aliases == Some([ov.alias.value])
    ensures ov.alias.None? ==> o.aliases == ov.aliases
    ensures ov == NoOverrides ==> o == DefaultAttributeOptions(name, Attribute(declared, declared))
  {
    var ov' := if ov.alias.Some? then ov.(aliases := Some([ov.alias.value])) else ov;
    Merge(DefaultAttributeOptions(name, Attribute(declared, ov.parser.GetOr(declared))), ov')
  }

  /** The entry added for one alias: a copy with its own key, pointing back at the field. */
  function AliasOptions(o: FieldOptions, alias: string): (a: FieldOptions)
    ensures a.key == alias && a.aliasOf == Some(o.name)
    ensures a.name == o.name && a.kind == o.kind && a.ivar == o.ivar && a.association == o.association
    ensures a.getter == o.getter && a.setter == o.setter && a.startingIndex == o.startingIndex
  {
    o.(key := alias, aliasOf := Some(o.name))
  }

  /** The registry names of the declared aliases (`alias_name.to_sym`, `alias_name.to_s`). */
  function AliasList(o: FieldOptions): (names: seq<string>)
    ensures |names| == |o.aliases.GetOr([])|
    ensures forall k :: 0 <= k < |names| ==> names[k] == KeyText(o.aliases.GetOr([])[k])
  {
    var al := o.aliases.GetOr([]);
    seq(|al|, k requires 0 <= k < |al| => KeyText(al[k]))
  }

  /** The entry `add_aliases` stores for one alias. */
  function AliasEntries(o: FieldOptions, names: seq<string>): (es: seq<(string, FieldOptions)>)
    ensures |es| == |names|
    ensures forall k :: 0 <= k < |es| ==> es[k] == (names[k], AliasOptions(o, names[k]))
    ensures Keys(es) == names
  {
    if |names| == 0 then []
    else [(names[0], AliasOptions(o, names[0]))] + AliasEntries(o, names[1..])
  }

  /** `add_aliases(name, options)`: one registry assignment per alias, in order. */
  function AddAliases(cls: SchemaClass, o: FieldOptions): (r: SchemaClass)
    ensures forall a :: a in AliasList(o) ==> Lookup(r, a) == Some(AliasOptions(o, a))
    ensures forall n :: n !in AliasList(o) ==> Lookup(r, n) == Lookup(cls, n)
  {
    var es := AliasEntries(o, AliasList(o));
    var r := SchemaClass(PutAll(cls.fields, es));
    assert forall a :: a in AliasList(o) ==> Lookup(r, a) == Some(AliasOptions(o, a)) by {
      forall a | a in AliasList(o) ensures Lookup(r, a) == Some(AliasOptions(o, a)) {
        PutAllGet(cls.fields, es, LastIndex(es, a));
      }
    }
    r
  }

  /** `attribute(name, type, options)`: the field's entry, then one entry per alias. */
  function DeclareAttribute(cls: SchemaClass, name: string, declared: Coercion, ov: Overrides): (r: SchemaClass)
    ensures var o := AttributeOptions(name, declared, ov);
      && (forall a :: a in AliasList(o) ==> Lookup(r, a) == Some(AliasOptions(o, a)))
      && (name !in AliasList(o) ==> Lookup(r, name) == Some(o))
      && (forall n :: n != name && n !in AliasList(o) ==> Lookup(r, n) == Lookup(cls, n))
  {
    AddField(cls, AttributeOptions(name, declared, ov))
  }

  /** Stores the options under the field's name, then adds its aliases. */
  function AddField(cls: SchemaClass, o: FieldOptions): (r: SchemaClass)
    ensures forall a :: a in AliasList(o) ==> Lookup(r, a) == Some(AliasOptions(o, a))
    ensures o.name !in AliasList(o) ==> Lookup(r, o.name) == Some(o)
    ensures forall n :: n != o.name && n !in AliasList(o) ==> Lookup(r, n) == Lookup(cls, n)
  {
    AddAliases(Store(cls, o.name, o), o)
  }

  /**
   * What a class built by the declarations keeps: one entry per name; the
   * association flag marks exactly the has-one / has-many entries; an alias
   * entry is a copy of a declared attribute (same storage, same kind); the
   * declared fields use distinct storage; nested classes are well formed.
   */
  ghost predicate WellFormed(cls: SchemaClass)
    decreases cls
  {
    && DistinctKeys(cls.fields)
    && (forall i :: 0 <= i < |cls.fields| ==> EntryOk(cls, i))
    && DistinctStorage(cls)
    && (forall i :: 0 <= i < |cls.fields| && IsAssociation(cls.fields[i].1) ==>
          var meta := cls.fields[i].1.kind.meta;
          && WellFormed(meta.target)
          && (forall k :: 0 <= k < |meta.types| ==> WellFormed(meta.types[k].1)))
  }

  predicate DistinctStorage(cls: SchemaClass) {
    forall i, j :: 0 <= i < j < |cls.fields| && !IsAlias(cls.fields[i].1) && !IsAlias(cls.fields[j].1) ==>
      cls.fields[i].1.ivar != cls.fields[j].1.ivar
  }

  predicate EntryOk(cls: SchemaClass, i: nat)
    requires i < |cls.fields|
  {
    var (n, o) := cls.fields[i];
    && (o.association <==> IsAssociation(o))
    && (!IsAlias(o) ==> o.name == n)
    && (IsAlias(o) ==> o.kind.Attribute? && CanonicalOk(cls, o))
  }

  /** The field an alias entry points at is a declared field with the same storage and kind. */
  predicate CanonicalOk(cls: SchemaClass, a: FieldOptions)
    requires IsAlias(a)
  {
    match Lookup(cls, a.aliasOf.value)
    case Some(c) => !IsAlias(c) && c.name == a.name && c.ivar == a.ivar && c.kind == a.kind
    case None => false
  }

  /** The conditions under which `attribute` extends a class without clashing. */
  predicate FreshDeclaration(cls: SchemaClass, o: FieldOptions) {
    && o.name !in Names(cls)
    && (forall k :: 0 <= k < |AliasList(o)| ==> AliasList(o)[k] !in Names(cls) && AliasList(o)[k] != o.name)
    && (forall k, l :: 0 <= k < l < |AliasList(o)| ==> AliasList(o)[k] != AliasList(o)[l])
    && (forall i :: 0 <= i < |cls.fields| ==> cls.fields[i].1.ivar != o.ivar)
  }
}

=== FILE: registry_facts.dfy ===
/**
 * What `attribute` does to the registry when every name it adds is new:
 * the field's entry is appended, then one entry per alias, in order.
 */
module AttributeAppends {
  import opened Wrappers
  import opened OrderedMaps
  import opened Registry

  /** With fresh names, `attribute` appends the field's entry and then one entry per alias. */
  lemma AddFieldAppends(cls: SchemaClass, o: FieldOptions)
    requires FreshDeclaration(cls, o)
    ensures AddField(cls, o).fields == cls.fields + ([(o.name, o)] + AliasEntries(o, AliasList(o)))
  {
    StoreFresh(cls, o.name, o);
    AddFieldSteps(cls, o);
    AliasesAppend(cls, o, Store(cls, o.name, o));
    ConcatCons(cls.fields, (o.name, o), AliasEntries(o, AliasList(o)));
  }

  /** Storing a new name appends its entry. */
  lemma StoreFresh(cls: SchemaClass, name: string, o: FieldOptions)
    requires name !in Names(cls)
    ensures Store(cls, name, o).fields == cls.fields + [(name, o)]
  {
    PutFresh(cls.fields, name, o);
  }

  /** `attribute` stores the field, then adds its aliases. */
  lemma AddFieldSteps(cls: SchemaClass, o: FieldOptions)
    ensures AddField(cls, o) == AddAliases(Store(cls, o.name, o), o)
  {
  }


  /** After the field itself, the aliases of a fresh declaration are appended in order. */
  lemma AliasesAppend(cls: SchemaClass, o: FieldOptions, c: SchemaClass)
    requires FreshDeclaration(cls, o)
    requires c.fields == cls.fields + [(o.name, o)]
    ensures AddAliases(c, o).fields == c.fields + AliasEntries(o, AliasList(o))
  {
    var es := AliasEntries(o, AliasList(o));
    AliasEntriesDistinct(o);
    AliasesFresh(cls, o, c);
    PutAllFresh(c.fields, es);
    AddAliasesPutAll(c, o);
  }



  /** `add_aliases` puts one entry per alias, in order. */
  lemma AddAliasesPutAll(cls: SchemaClass, o: FieldOptions)
    ensures AddAliases(cls, o).fields == PutAll(cls.fields, AliasEntries(o, AliasList(o)))
  {
  }

  /** Distinct aliases give entries with distinct keys. */
  lemma AliasEntriesDistinct(o: FieldOptions)
    requires forall k, l :: 0 <= k < l < |AliasList(o)| ==> AliasList(o)[k] != AliasList(o)[l]
    ensures DistinctKeys(AliasEntries(o, AliasList(o)))
  {
    var names := AliasList(o);
    var es := AliasEntries(o, names);
    forall i, j | 0 <= i < j < |es| ensures es[i].0 != es[j].0 {
      assert es[i].0 == names[i] && es[j].0 == names[j];
    }
  }

  /** No alias of a fresh declaration is a key once the field itself is stored. */
  lemma AliasesFresh(cls: SchemaClass, o: FieldOptions, c: SchemaClass)
    requires FreshDeclaration(cls, o)
    requires c.fields == cls.fields + [(o.name, o)]
    ensures forall k :: 0 <= k < |AliasEntries(o, AliasList(o))| ==> AliasEntries(o, AliasList(o))[k].0 !in Keys(c.fields)
  {
    var names := AliasList(o);
    var es := AliasEntries(o, names);
    assert Keys(c.fields) == Keys(cls.fields) + [o.name];
    forall k | 0 <= k < |es| ensures es[k].0 !in Keys(c.fields) {
      assert es[k].0 == names[k];
    }
  }
}

/**
 * Why declarations keep a class well formed: with a fresh name, fresh
 * distinct aliases and fresh storage, `attribute` appends the field's entry
 * and one entry per alias, and the extended registry still has distinct
 * keys, consistent aliases and distinct storage.
 */
module RegistryFacts {
  import opened Wrappers
  import opened OrderedMaps
  import opened Registry
  import opened AttributeAppends
  import Parsers

  /**
   * Declaring an attribute with a new name, new distinct aliases and new
   * storage keeps a class well formed.
   */
  lemma DeclareAttributeKeepsWellFormed(cls: SchemaClass, name: string, declared: Parsers.Coercion, ov: Overrides)
    requires WellFormed(cls)
    requires !ov.association.GetOr(false)
    requires FreshDeclaration(cls, AttributeOptions(name, declared, ov))
    ensures WellFormed(DeclareAttribute(cls, name, declared, ov))
  {
    var o := AttributeOptions(name, declared, ov);
    AddFieldAppends(cls, o);
    AppendAttributeKeepsWellFormed(cls, o, [(name, o)] + AliasEntries(o, AliasList(o)));
  }

  /** The entries `attribute` appends: the field, then its aliases. */
  predicate AttributeEntries(cls: SchemaClass, o: FieldOptions, added: seq<(string, FieldOptions)>) {
    && FreshDeclaration(cls, o)
    && o.kind.Attribute? && !o.association && !IsAlias(o)
    && added == [(o.name, o)] + AliasEntries(o, AliasList(o))
  }

  lemma AppendAttributeKeepsWellFormed(cls: SchemaClass, o: FieldOptions, added: seq<(string, FieldOptions)>)
    requires WellFormed(cls) && AttributeEntries(cls, o, added)
    ensures WellFormed(SchemaClass(cls.fields + added))
  {
    AppendedNamesFresh(cls, o, added);
    AppendedKeysDistinct(cls, o, added);
    AppendedEntriesOk(cls, o, added);
    AppendedStorageDistinct(cls, o, added);
    AppendedNestedOk(cls, o, added);
  }

  /** The appended entries are attributes, so every association entry is one the class already had. */
  lemma AppendedNestedOk(cls: SchemaClass, o: FieldOptions, added: seq<(string, FieldOptions)>)
    requires WellFormed(cls) && AttributeEntries(cls, o, added)
    ensures var r := cls.fields + added;
      forall i :: 0 <= i < |r| && IsAssociation(r[i].1) ==>
        var meta := r[i].1.kind.meta;
        && WellFormed(meta.target)
        && (forall k :: 0 <= k < |meta.types| ==> WellFormed(meta.types[k].1))
  {
    var r := cls.fields + added;
    var n := |cls.fields|;
    AppendedShape(cls, o, added);
    forall i | 0 <= i < |r| && IsAssociation(r[i].1)
      ensures var meta := r[i].1.kind.meta;
        && WellFormed(meta.target)
        && (forall k :: 0 <= k < |meta.types| ==> WellFormed(meta.types[k].1))
    {
      if i < n {
        assert r[i] == cls.fields[i];
      }
    }
  }

  /** Every appended entry is an attribute entry sharing the field's storage; all but the first are aliases. */
  lemma AppendedShape(cls: SchemaClass, o: FieldOptions, added: seq<(string, FieldOptions)>)
    requires AttributeEntries(cls, o, added)
    ensures forall k :: 0 <= k < |added| ==> added[k].1.kind == o.kind && added[k].1.ivar == o.ivar
    ensures forall k :: 0 < k < |added| ==> IsAlias(added[k].1) && added[k].1.aliasOf == Some(o.name)
    ensures added[0] == (o.name, o)
  {
    var es := AliasEntries(o, AliasList(o));
    forall k | 0 < k < |added|
      ensures IsAlias(added[k].1) && added[k].1.aliasOf == Some(o.name)
      ensures added[k].1.kind == o.kind && added[k].1.ivar == o.ivar
    {
      assert added[k] == es[k - 1];
    }
  }

  lemma AppendedNamesFresh(cls: SchemaClass, o: FieldOptions, added: seq<(string, FieldOptions)>)
    requires AttributeEntries(cls, o, added)
    ensures forall k :: 0 <= k < |added| ==> added[k].0 !in Names(cls)
  {
    var es := AliasEntries(o, AliasList(o));
    forall k | 0 <= k < |added| ensures added[k].0 !in Names(cls) {
      if k > 0 {
        assert added[k] == es[k - 1];
      }
    }
  }

  lemma AppendedKeysDistinct(cls: SchemaClass, o: FieldOptions, added: seq<(string, FieldOptions)>)
    requires DistinctKeys(cls.fields) && AttributeEntries(cls, o, added)
    requires forall k :: 0 <= k < |added| ==> added[k].0 !in Names(cls)
    ensures DistinctKeys(cls.fields + added)
  {
    var es := AliasEntries(o, AliasList(o));
    AliasEntriesDistinct(o);
    assert Keys([(o.name, o)]) == [o.name];
    assert forall k :: 0 <= k < |es| ==> es[k].0 !in Keys([(o.name, o)]);
    DistinctKeysAppend([(o.name, o)], es);
    DistinctKeysAppend(cls.fields, added);
  }


  lemma AppendedEntriesOk(cls: SchemaClass, o: FieldOptions, added: seq<(string, FieldOptions)>)
    requires WellFormed(cls) && AttributeEntries(cls, o, added)
    requires DistinctKeys(cls.fields + added)
    ensures forall i :: 0 <= i < |cls.fields + added| ==> EntryOk(SchemaClass(cls.fields + added), i)
  {
    forall i | 0 <= i < |cls.fields + added| ensures EntryOk(SchemaClass(cls.fields + added), i) {
      if i < |cls.fields| {
        KeptEntryOk(cls, o, added, i);
      } else {
        AddedEntryOk(cls, o, added, i);
      }
    }
  }

  /** An entry the class had stays consistent: an alias still finds its field. */
  lemma KeptEntryOk(cls: SchemaClass, o: FieldOptions, added: seq<(string, FieldOptions)>, i: nat)
    requires WellFormed(cls) && AttributeEntries(cls, o, added) && i < |cls.fields|
    ensures EntryOk(SchemaClass(cls.fields + added), i)
  {
    var r := SchemaClass(cls.fields + added);
    assert r.fields[i] == cls.fields[i];
    assert EntryOk(cls, i);
    var a := r.fields[i].1;
    if IsAlias(a) {
      var cn := a.aliasOf.value;
      assert CanonicalOk(cls, a);
      assert cn in Names(cls);
      GetAppend(cls.fields, added, cn);
    }
  }

  /** An appended entry is consistent: the field itself, or an alias of it. */
  lemma AddedEntryOk(cls: SchemaClass, o: FieldOptions, added: seq<(string, FieldOptions)>, i: nat)
    requires AttributeEntries(cls, o, added) && DistinctKeys(cls.fields + added)
    requires |cls.fields| <= i < |cls.fields + added|
    ensures EntryOk(SchemaClass(cls.fields + added), i)
  {
    var r := SchemaClass(cls.fields + added);
    var n := |cls.fields|;
    AppendedShape(cls, o, added);
    assert Lookup(r, o.name) == Some(o) by {
      GetEntry(r.fields, n);
    }
    assert r.fields[i] == added[i - n];
  }

  lemma AppendedStorageDistinct(cls: SchemaClass, o: FieldOptions, added: seq<(string, FieldOptions)>)
    requires DistinctStorage(cls) && AttributeEntries(cls, o, added)
    ensures DistinctStorage(SchemaClass(cls.fields + added))
  {
    var r := cls.fields + added;
    var n := |cls.fields|;
    forall i, j | 0 <= i < j < |r| && !IsAlias(r[i].1) && !IsAlias(r[j].1)
      ensures r[i].1.ivar != r[j].1.ivar
    {
      StoredBefore(cls, o, added, j);
      assert r[i] == cls.fields[i];
      if j < n {
        assert r[j] == cls.fields[j];
      }
    }
  }

  /** Only the first appended entry has storage of its own: a non-alias entry lies at or before it. */
  lemma StoredBefore(cls: SchemaClass, o: FieldOptions, added: seq<(string, FieldOptions)>, j: nat)
    requires AttributeEntries(cls, o, added)
    requires j < |cls.fields + added| && !IsAlias((cls.fields + added)[j].1)
    ensures j <= |cls.fields|
    ensures j == |cls.fields| ==> (cls.fields + added)[j].1 == o
  {
    var n := |cls.fields|;
    if j >= n {
      assert (cls.fields + added)[j] == added[j - n];
    }
  }
}

=== FILE: seqs.dfy ===
/** Small facts about concatenation, kept apart so that proofs can cite them in a small context. */
module Seqs {
  lemma Assoc<T>(a: seq<T>, b: seq<T>, c: seq<T>)
    ensures a + b + c == a + (b + c)
  {
  }

  lemma Assoc4<T>(a: seq<T>, b: seq<T>, c: seq<T>, d: seq<T>)
    ensures a + b + c + d == a + (b + (c + d))
  {
  }

  /** The two halves of a concatenation are its operands. */
  lemma SplitAt<T>(a: seq<T>, b: seq<T>)
    ensures (a + b)[..|a|] == a && (a + b)[|a|..] == b
  {
  }
}

=== FILE: strings.dfy ===
/**
 * Character and string helpers the library relies on through Ruby's core
 * classes: Integer#to_s, String#downcase / #upcase (ASCII only) and
 * Array#index.
 */
module Strings {
  import opened Wrappers

  predicate IsDigit(c: char) { '0' <= c <= '9' }

  predicate AllDigits(s: string) {
    forall i :: 0 <= i < |s| ==> IsDigit(s[i])
  }

  predicate IsLower(c: char) { 'a' <= c <= 'z' }

  predicate IsUpper(c: char) { 'A' <= c <= 'Z' }

  function DigitValue(c: char): (d: nat)
    requires IsDigit(c)
    ensures d < 10
  {
    c as int - '0' as int
  }

  function DigitChar(d: nat): (c: char)
    requires d < 10
    ensures IsDigit(c) && DigitValue(c) == d
  {
    ('0' as int + d) as char
  }

  /** Decimal rendering of a natural number (Integer#to_s for n >= 0). */
  function NatToString(n: nat): (s: string)
    ensures |s| >= 1 && AllDigits(s)
    ensures s[0] == '0' <==> n == 0
    ensures n == 0 ==> s == "0"
  {
    if n < 10 then [DigitChar(n)] else NatToString(n / 10) + [DigitChar(n % 10)]
  }

  /** The number a string of decimal digits denotes (leading zeros allowed). */
  function DigitsValue(s: string): nat
    requires AllDigits(s)
  {
    if |s| == 0 then 0 else 10 * DigitsValue(s[..|s| - 1]) + DigitValue(s[|s| - 1])
  }

  /** Reading back a rendered natural gives the natural. */
  lemma {:induction false} NatToStringRoundTrip(n: nat)
    ensures DigitsValue(NatToString(n)) == n
  {
    if n >= 10 {
      var s := NatToString(n);
      assert s[..|s| - 1] == NatToString(n / 10);
      NatToStringRoundTrip(n / 10);
    }
  }

  /** Integer#to_s: an optional minus sign followed by the digits. */
  function IntToString(i: int): (s: string)
    ensures |s| >= 1
    ensures i < 0 <==> s[0] == '-'
  {
    if i < 0 then "-" + NatToString(-i) else NatToString(i)
  }

  /** Two integers with the same rendering are equal. */
  lemma IntToStringInjective(a: int, b: int)
    requires IntToString(a) == IntToString(b)
    ensures a == b
  {
    IntToStringRoundTrip(a);
    IntToStringRoundTrip(b);
  }

  /** The number a rendering denotes: its digits, negated after a minus sign. */
  function RenderedValue(s: string): int
    requires |s| >= 1 && (if s[0] == '-' then AllDigits(s[1..]) else AllDigits(s))
  {
    if s[0] == '-' then -(DigitsValue(s[1..]) as int) else DigitsValue(s)
  }

  /** Reading back a rendered integer gives the integer. */
  lemma IntToStringRoundTrip(i: int)
    ensures var s := IntToString(i);
      (if s[0] == '-' then AllDigits(s[1..]) else AllDigits(s)) && RenderedValue(s) == i
  {
    if i < 0 {
      assert IntToString(i)[1..] == NatToString(-i);
      NatToStringRoundTrip(-i);
    } else {
      NatToStringRoundTrip(i);
    }
  }


  /** Array#index: the first position holding `x`, or nil. */
  function IndexOf<T(==)>(s: seq<T>, x: T): (r: Option<nat>)
    ensures r.Some? ==> r.value < |s| && s[r.value] == x
    ensures r.Some? ==> forall j :: 0 <= j < r.value ==> s[j] != x
    ensures r.None? <==> x !in s
  {
    if |s| == 0 then None
    else if s[0] == x then Some(0)
    else match IndexOf(s[1..], x)
      case None => None
      case Some(k) => Some(k + 1)
  }

  function DowncaseChar(c: char): (d: char)
    ensures !IsUpper(d)
  {
    if IsUpper(c) then (c as int + 32) as char else c
  }

  function UpcaseChar(c: char): (d: char)
    ensures !IsLower(d)
  {
    if IsLower(c) then (c as int - 32) as char else c
  }

  /** String#downcase, restricted to ASCII letters. */
  function Downcase(s: string): (r: string)
    ensures |r| == |s|
    ensures forall i :: 0 <= i < |s| ==> r[i] == DowncaseChar(s[i])
  {
    if |s| == 0 then "" else [DowncaseChar(s[0])] + Downcase(s[1..])
  }

  /** Downcasing is idempotent. */
  lemma DowncaseIdempotent(s: string)
    ensures Downcase(Downcase(s)) == Downcase(s)
  {
  }
}

=== FILE: utils.dfy ===
/**
 * Naming helpers used when association and type classes are generated, and
 * the options an association declaration stores.
 */
module Utils {
  import opened Wrappers
  import opened Strings
  import opened OrderedMaps
  import opened Registry

  /** The characters `classify_name` keeps: digits, lower-case letters, `_` and `-`. */
  predicate NameChar(c: char) {
    IsDigit(c) || IsLower(c) || c == '_' || c == '-'
  }

  /** The joiners of the camel-casing pattern (its class also names `|`, which never survives the filter). */
  predicate IsJoiner(c: char) {
    c == '_' || c == '|' || c == '-'
  }

  /** First substitution: drop every character that is not a `NameChar`. */
  function KeepNameChars(s: string): (f: string)
    ensures |f| <= |s|
    ensures forall i :: 0 <= i < |f| ==> NameChar(f[i])
  {
    if |s| == 0 then []
    else (if NameChar(s[0]) then [s[0]] else []) + KeepNameChars(s[1..])
  }

  /**
   * Second substitution after the first character: a joiner and the
   * character after it become that character upcased.
   */
  function Camelize(f: string): (r: string)
    ensures |r| <= |f|
    decreases |f|
  {
    if |f| == 0 then []
    else if IsJoiner(f[0]) && |f| >= 2 then [UpcaseChar(f[1])] + Camelize(f[2..])
    else [f[0]] + Camelize(f[1..])
  }

  /** `Schema::Utils.classify_name` */
  function ClassifyName(name: string): (r: string)
    ensures |r| <= |name|
  {
    var f := KeepNameChars(name);
    if |f| == 0 then "" else [UpcaseChar(f[0])] + Camelize(f[1..])
  }

  /** The result is empty exactly when the name has no character `classify_name` keeps. */
  lemma ClassifyEmpty(name: string)
    ensures |ClassifyName(name)| == 0 <==> forall i :: 0 <= i < |name| ==> !NameChar(name[i])
  {
    KeepEmpty(name);
  }

  lemma {:induction false} KeepEmpty(s: string)
    ensures |KeepNameChars(s)| == 0 <==> forall i :: 0 <= i < |s| ==> !NameChar(s[i])
  {
    if |s| > 0 {
      KeepEmpty(s[1..]);
      if !NameChar(s[0]) {
        assert forall i :: 1 <= i < |s| ==> s[i] == s[1..][i - 1];
      }
    }
  }

  /**
   * Reference reading of the second substitution when case is ignored: every
   * joiner that has a character after it disappears, everything else stays.
   */
  function DropJoiners(f: string): (r: string)
    decreases |f|
  {
    if |f| == 0 then []
    else if IsJoiner(f[0]) && |f| >= 2 then [f[1]] + DropJoiners(f[2..])
    else [f[0]] + DropJoiners(f[1..])
  }

  /**
   * Up to case, `classify_name` is the filtered name with the joiners
   * removed: it changes nothing else.
   */
  lemma ClassifyIgnoringCase(name: string)
    requires |KeepNameChars(name)| > 0
    ensures var f := KeepNameChars(name);
      Downcase(ClassifyName(name)) == [f[0]] + DropJoiners(f[1..])
  {
    var f := KeepNameChars(name);
    assert DowncaseChar(UpcaseChar(f[0])) == f[0];
    CamelizeIgnoringCase(f[1..]);
  }

  lemma {:induction false} CamelizeIgnoringCase(f: string)
    requires forall i :: 0 <= i < |f| ==> NameChar(f[i])
    ensures Downcase(Camelize(f)) == DropJoiners(f)
    decreases |f|
  {
    if |f| > 0 {
      if IsJoiner(f[0]) && |f| >= 2 {
        assert f[2..][0..] == f[2..];
        assert forall i :: 0 <= i < |f[2..]| ==> f[2..][i] == f[i + 2];
        CamelizeIgnoringCase(f[2..]);
        assert DowncaseChar(UpcaseChar(f[1])) == f[1];
        DowncaseConcat([UpcaseChar(f[1])], Camelize(f[2..]));
      } else {
        assert forall i :: 0 <= i < |f[1..]| ==> f[1..][i] == f[i + 1];
        CamelizeIgnoringCase(f[1..]);
        DowncaseConcat([f[0]], Camelize(f[1..]));
      }
    }
  }

  lemma DowncaseConcat(a: string, b: string)
    ensures Downcase(a + b) == Downcase(a) + Downcase(b)
  {
    var l := Downcase(a + b);
    var r := Downcase(a) + Downcase(b);
    forall i | 0 <= i < |l| ensures l[i] == r[i] {
      if i < |a| {
        assert (a + b)[i] == a[i];
      } else {
        assert (a + b)[i] == b[i - |a|];
      }
    }
  }

  /** A name made only of digits and lower-case letters is just capitalised. */
  lemma ClassifyPlainName(name: string)
    requires |name| > 0
    requires forall i :: 0 <= i < |name| ==> IsDigit(name[i]) || IsLower(name[i])
    ensures ClassifyName(name) == [UpcaseChar(name[0])] + name[1..]
  {
    KeepAll(name);
    CamelizePlainPrefix(name[1..], "");
    assert name[1..] + "" == name[1..];
  }

  /** A name made only of kept characters passes the filter unchanged. */
  lemma {:induction false} KeepAll(s: string)
    requires forall i :: 0 <= i < |s| ==> NameChar(s[i])
    ensures KeepNameChars(s) == s
  {
    if |s| > 0 {
      assert forall i :: 0 <= i < |s[1..]| ==> s[1..][i] == s[i + 1];
      KeepAll(s[1..]);
    }
  }

  lemma {:induction false} KeepConcat(a: string, b: string)
    ensures KeepNameChars(a + b) == KeepNameChars(a) + KeepNameChars(b)
    decreases |a|
  {
    if |a| > 0 {
      assert (a + b)[1..] == a[1..] + b;
      KeepConcat(a[1..], b);
    } else {
      assert a + b == b;
    }
  }

  /** Characters that are not joiners pass through the camel-casing unchanged. */
  lemma {:induction false} CamelizePlainPrefix(a: string, b: string)
    requires forall i :: 0 <= i < |a| ==> !IsJoiner(a[i])
    ensures Camelize(a + b) == a + Camelize(b)
    decreases |a|
  {
    if |a| > 0 {
      assert (a + b)[0] == a[0];
      assert (a + b)[1..] == a[1..] + b;
      CamelizePlainPrefix(a[1..], b);
      assert [a[0]] + (a[1..] + Camelize(b)) == a + Camelize(b);
    } else {
      assert a + b == b;
    }
  }

  /** A joiner and the character after it become that character upcased. */
  lemma CamelizeJoin(j: char, c: char, b: string)
    requires IsJoiner(j)
    ensures Camelize([j, c] + b) == [UpcaseChar(c)] + Camelize(b)
  {
    assert ([j, c] + b)[2..] == b;
  }

  // Steps for evaluating the substitutions on concrete names, stated over
  // variables so that each literal is only unfolded once.

  lemma CamelizeAfterPlain(a: string, b: string, c: string)
    requires forall i :: 0 <= i < |a| ==> !IsJoiner(a[i])
    requires Camelize(b) == c
    ensures Camelize(a + b) == a + c
  {
    CamelizePlainPrefix(a, b);
  }

  lemma CamelizeAfterJoin(j: char, x: char, b: string, c: string)
    requires IsJoiner(j) && Camelize(b) == c
    ensures Camelize([j, x] + b) == [UpcaseChar(x)] + c
  {
    CamelizeJoin(j, x, b);
  }

  lemma ClassifyFrom(s: string, f: string, c: string)
    requires KeepNameChars(s) == f && |f| > 0 && Camelize(f[1..]) == c
    ensures ClassifyName(s) == [UpcaseChar(f[0])] + c
  {
  }

  lemma ExampleFilterLiterals()
    ensures "name-foo_bar_1!" == "name-foo_bar_1" + "!"
    ensures forall i :: 0 <= i < |"name-foo_bar_1"| ==> NameChar("name-foo_bar_1"[i])
    ensures KeepNameChars("!") == ""
  {
  }

  lemma ExampleTailLiterals()
    ensures "_1" == ['_', '1'] + ""
    ensures "ar_1" == "ar" + "_1" && "ar" + "1" == "ar1"
    ensures "_bar_1" == ['_', 'b'] + "ar_1" && [UpcaseChar('b')] + "ar1" == "Bar1"
  {
  }

  lemma ExampleHeadLiterals()
    ensures "oo_bar_1" == "oo" + "_bar_1" && "oo" + "Bar1" == "ooBar1"
    ensures "-foo_bar_1" == ['-', 'f'] + "oo_bar_1" && [UpcaseChar('f')] + "ooBar1" == "FooBar1"
    ensures "ame-foo_bar_1" == "ame" + "-foo_bar_1" && "ame" + "FooBar1" == "ameFooBar1"
  {
  }

  lemma ExampleResultLiterals()
    ensures "name-foo_bar_1"[1..] == "ame-foo_bar_1" && "name-foo_bar_1"[0] == 'n'
    ensures [UpcaseChar('n')] + "ameFooBar1" == "NameFooBar1"
  {
  }

  lemma ExampleTail()
    ensures Camelize("_bar_1") == "Bar1"
  {
    ExampleTailLiterals();
    assert Camelize("") == "";
    CamelizeAfterJoin('_', '1', "", "");
    CamelizeAfterPlain("ar", "_1", "1");
    CamelizeAfterJoin('_', 'b', "ar_1", "ar1");
  }

  lemma ExampleCamelize()
    ensures Camelize("ame-foo_bar_1") == "ameFooBar1"
  {
    ExampleHeadLiterals();
    ExampleTail();
    CamelizeAfterPlain("oo", "_bar_1", "Bar1");
    CamelizeAfterJoin('-', 'f', "oo_bar_1", "ooBar1");
    CamelizeAfterPlain("ame", "-foo_bar_1", "FooBar1");
  }

  lemma ExampleFilter()
    ensures KeepNameChars("name-foo_bar_1!") == "name-foo_bar_1"
  {
    ExampleFilterLiterals();
    KeepAll("name-foo_bar_1");
    KeepConcat("name-foo_bar_1", "!");
  }

  /** The published example: `'name-foo_bar_1!'` becomes `'NameFooBar1'`. */
  lemma ClassifyExample()
    ensures ClassifyName("name-foo_bar_1!") == "NameFooBar1"
  {
    ExampleResultLiterals();
    ExampleFilter();
    ExampleCamelize();
    ClassifyFrom("name-foo_bar_1!", "name-foo_bar_1", "ameFooBar1");
  }

  /** The kind names `association_options` classifies. */
  function AssociationTypeName(many: bool): string {
    if many then "has_many" else "has_one"
  }

  lemma HasOneLiterals()
    ensures forall i :: 0 <= i < |"has_one"| ==> NameChar("has_one"[i])
    ensures "has_one"[1..] == "as" + "_one" && "_one" == ['_', 'o'] + "ne" && "has_one"[0] == 'h'
    ensures "ne" + "" == "ne" && [UpcaseChar('o')] + "ne" == "One"
    ensures [UpcaseChar('h')] + ("as" + "One") == "HasOne"
  {
  }

  lemma HasManyLiterals()
    ensures forall i :: 0 <= i < |"has_many"| ==> NameChar("has_many"[i])
    ensures "has_many"[1..] == "as" + "_many" && "_many" == ['_', 'm'] + "any" && "has_many"[0] == 'h'
    ensures "any" + "" == "any" && [UpcaseChar('m')] + "any" == "Many"
    ensures [UpcaseChar('h')] + ("as" + "Many") == "HasMany"
  {
  }

  lemma HasOneName()
    ensures ClassifyName(AssociationTypeName(false)) == "HasOne"
  {
    HasOneKept();
    HasOneCamelized();
    ClassifyFrom("has_one", "has_one", "asOne");
  }

  lemma HasOneKept()
    ensures KeepNameChars("has_one") == "has_one"
  {
    HasOneLiterals();
    KeepAll("has_one");
  }

  lemma HasOneCamelized()
    ensures "has_one"[1..] == "as_one" && Camelize("as_one") == "asOne"
    ensures "has_one"[0] == 'h' && [UpcaseChar('h')] + "asOne" == "HasOne"
  {
    HasOneLiterals();
    assert Camelize("") == "";
    CamelizeAfterPlain("ne", "", "");
    CamelizeAfterJoin('_', 'o', "ne", "ne");
    CamelizeAfterPlain("as", "_one", "One");
  }

  lemma HasManyName()
    ensures ClassifyName(AssociationTypeName(true)) == "HasMany"
  {
    HasManyKept();
    HasManyCamelized();
    ClassifyFrom("has_many", "has_many", "asMany");
  }

  lemma HasManyKept()
    ensures KeepNameChars("has_many") == "has_many"
  {
    HasManyLiterals();
    KeepAll("has_many");
  }

  lemma HasManyCamelized()
    ensures "has_many"[1..] == "as_many" && Camelize("as_many") == "asMany"
    ensures "has_many"[0] == 'h' && [UpcaseChar('h')] + "asMany" == "HasMany"
  {
    HasManyLiterals();
    assert Camelize("") == "";
    CamelizeAfterPlain("any", "", "");
    CamelizeAfterJoin('_', 'm', "any", "any");
    CamelizeAfterPlain("as", "_many", "Many");
  }

  /**
   * `Schema::Utils.association_options(name, type, options)`: the default
   * attribute options for the association, with `class_name` defaulting to
   * `Schema` + the classified type + the classified name, then the
   * caller's options merged over them.
   */
  function AssociationOptions(name: string, many: bool, target: SchemaClass, ov: Overrides): (o: FieldOptions)
    ensures o.name == name && !IsAlias(o) && IsAssociation(o) && o.kind.HasMany? == many
    ensures o.kind.meta.className
      == ov.className.GetOr("Schema" + ClassifyName(AssociationTypeName(many)) + ClassifyName(name))
    ensures o.kind.meta.target == target && o.kind.meta.types == []
    ensures o.kind.meta.typeField == ov.typeField && o.kind.meta.externalTypeField == ov.externalTypeField
    ensures o.kind.meta.typeIgnorecase == ov.typeIgnorecase && o.kind.meta.headerPrefix == ov.headerPrefix
    ensures o.key == ov.key.GetOr(name) && o.getter == ov.getter.GetOr(name)
    ensures o.setter == ov.setter.GetOr(name + "=") && o.ivar == ov.ivar.GetOr("@" + name)
    ensures o.association == ov.association.GetOr(false)
  {
    var className := ov.className.GetOr("Schema" + ClassifyName(AssociationTypeName(many)) + ClassifyName(name));
    var meta := AssocMeta(className, target, ov.typeField, ov.externalTypeField, [], ov.typeIgnorecase, ov.headerPrefix);
    Merge(DefaultAttributeOptions(name, if many then HasMany(meta) else HasOne(meta)), ov)
  }

  /** With no class name given, a has-one is named `SchemaHasOne<Name>`. */
  lemma DefaultHasOneClassName(name: string, target: SchemaClass, ov: Overrides)
    requires ov.className.None?
    ensures AssociationOptions(name, false, target, ov).kind.meta.className == "Schema" + "HasOne" + ClassifyName(name)
  {
    var t := ClassifyName(AssociationTypeName(false));
    HasOneName();
    assert AssociationOptions(name, false, target, ov).kind.meta.className == "Schema" + t + ClassifyName(name);
  }

  /** With no class name given, a has-many is named `SchemaHasMany<Name>`. */
  lemma DefaultHasManyClassName(name: string, target: SchemaClass, ov: Overrides)
    requires ov.className.None?
    ensures AssociationOptions(name, true, target, ov).kind.meta.className == "Schema" + "HasMany" + ClassifyName(name)
  {
    var t := ClassifyName(AssociationTypeName(true));
    HasManyName();
    assert AssociationOptions(name, true, target, ov).kind.meta.className == "Schema" + t + ClassifyName(name);
  }

  /** `add_association_class`: stores the association's options under its name. */
  function DeclareAssociation(cls: SchemaClass, name: string, many: bool, target: SchemaClass, ov: Overrides): (r: SchemaClass)
    ensures Lookup(r, name) == Some(AssociationOptions(name, many, target, ov))
    ensures forall n :: n != name ==> Lookup(r, n) == Lookup(cls, n)
  {
    Store(cls, name, AssociationOptions(name, many, target, ov))
  }

  /**
   * Declaring an association under a new name, with new storage, a well
   * formed nested class and the association flag set, keeps a class well formed.
   */
  lemma DeclareAssociationKeepsWellFormed(cls: SchemaClass, name: string, many: bool, target: SchemaClass, ov: Overrides)
    requires WellFormed(cls) && WellFormed(target)
    requires ov.association == Some(true)
    requires name !in Names(cls)
    requires forall i :: 0 <= i < |cls.fields| ==> cls.fields[i].1.ivar != ov.ivar.GetOr("@" + name)
    ensures WellFormed(DeclareAssociation(cls, name, many, target, ov))
  {
    var o := AssociationOptions(name, many, target, ov);
    PutFresh(cls.fields, name, o);
    var r := DeclareAssociation(cls, name, many, target, ov);
    assert r.fields == cls.fields + [(name, o)];
    AppendAssociationKeepsWellFormed(cls, o);
  }

  lemma AppendAssociationKeepsWellFormed(cls: SchemaClass, o: FieldOptions)
    requires IsAssociation(o) && o.association && !IsAlias(o) && o.kind.meta.types == []
    requires WellFormed(cls) && WellFormed(o.kind.meta.target)
    requires o.name !in Names(cls)
    requires forall i :: 0 <= i < |cls.fields| ==> cls.fields[i].1.ivar != o.ivar
    ensures WellFormed(SchemaClass(cls.fields + [(o.name, o)]))
  {
    var r := SchemaClass(cls.fields + [(o.name, o)]);
    var n := |cls.fields|;
    assert forall i :: 0 <= i < n ==> r.fields[i] == cls.fields[i];
    assert DistinctKeys(r.fields) by {
      forall i, j | 0 <= i < j < |r.fields| ensures r.fields[i].0 != r.fields[j].0 {
        if j == n {
          assert r.fields[i].0 in Names(cls);
        }
      }
    }
    forall i | 0 <= i < |r.fields| ensures EntryOk(r, i) {
      if i < n {
        assert EntryOk(cls, i);
        var a := r.fields[i].1;
        if IsAlias(a) {
          assert CanonicalOk(cls, a);
          GetAppend(cls.fields, [(o.name, o)], a.aliasOf.value);
        }
      }
    }
  }
}

=== FILE: values.dfy ===
/**
 * Ruby values as they reach the library: payload hashes, CSV cells and the
 * typed values the parsers produce.
 */
module Values {
  import opened Strings

  /** A hash key: a Symbol (`:name`) or a String (`"name"`). */
  datatype Key = SymKey(name: string) | StrKey(text: string)

  /**
   * A Ruby value. `Float(m, e)` is the decimal m * 10^e (binary rounding is
   * not modelled); `Other` is any other object, carried by its `to_s`.
   * A Hash is an ordered list of entries, as Ruby hashes iterate.
   */
  datatype Value =
    | Nil
    | Bool(b: bool)
    | Int(i: int)
    | Float(mantissa: int, exponent: int)
    | Str(s: string)
    | Hash(entries: seq<(Key, Value)>)
    | Array(items: seq<Value>)
    | Other(repr: string)

  /** `key.to_s`: the text of a Symbol or String key. */
  function KeyText(k: Key): string {
    match k
    case SymKey(n) => n
    case StrKey(t) => t
  }

  /** Ruby truthiness: everything except nil and false. */
  predicate Truthy(v: Value) {
    !v.Nil? && v != Bool(false)
  }

  /** `hash[key]`: the value of the first entry with that key, or nil. */
  function HashGet(entries: seq<(Key, Value)>, k: Key): (r: Value)
    ensures r != Nil ==> exists i :: 0 <= i < |entries| && entries[i] == (k, r)
    ensures (forall i :: 0 <= i < |entries| ==> entries[i].0 != k) ==> r == Nil
  {
    if |entries| == 0 then Nil
    else if entries[0].0 == k then entries[0].1
    else
      var r := HashGet(entries[1..], k);
      assert r != Nil ==> exists i :: 0 <= i < |entries[1..]| && entries[1..][i] == (k, r);
      r
  }

  function Pow10(n: nat): (p: nat)
    ensures p >= 1
  {
    if n == 0 then 1 else 10 * Pow10(n - 1)
  }

  function PadLeft(s: string, width: nat): (r: string)
    ensures |r| >= width && |r| >= |s|
    decreases width - |s|
  {
    if |s| >= width then s else PadLeft("0" + s, width)
  }

  function StripTrailingZeros(s: string): (r: string)
    ensures |r| <= |s|
  {
    if |s| > 0 && s[|s| - 1] == '0' then StripTrailingZeros(s[..|s| - 1]) else s
  }

  /** Fixed-point rendering of a decimal float, as Float#to_s for moderate magnitudes. */
  function FloatToString(m: int, e: int): string {
    var sign := if m < 0 then "-" else "";
    var a: nat := if m < 0 then -m else m;
    if e >= 0 then sign + NatToString(Scale(a, e)) + ".0"
    else sign + FixedPoint(a, -e)
  }

  function Scale(a: nat, e: nat): nat {
    if e == 0 then a else 10 * Scale(a, e - 1)
  }

  /** a / 10^places rendered with its fractional digits, trailing zeros dropped. */
  function FixedPoint(a: nat, places: nat): string {
    var p := Pow10(places);
    NatToString(Quotient(a, p)) + "." + FractionDigits(Remainder(a, p), places)
  }

  function Quotient(a: nat, p: nat): nat
    requires p >= 1
  {
    a / p
  }

  function Remainder(a: nat, p: nat): nat
    requires p >= 1
  {
    a % p
  }

  function FractionDigits(rest: nat, places: nat): string {
    var frac := StripTrailingZeros(PadLeft(NatToString(rest), places));
    if |frac| == 0 then "0" else frac
  }

  function InspectKey(k: Key): string {
    match k
    case SymKey(n) => ":" + n
    case StrKey(t) => "\"" + t + "\""
  }

  /** Object#inspect for the modelled values (Ruby 3.3 hash syntax, no escaping). */
  function Inspect(v: Value): string
    decreases v, 1, 0
  {
    match v
    case Nil => "nil"
    case Bool(b) => if b then "true" else "false"
    case Int(i) => IntToString(i)
    case Float(m, e) => FloatToString(m, e)
    case Str(s) => "\"" + s + "\""
    case Other(r) => r
    case Array(items) => "[" + InspectItems(v, 0) + "]"
    case Hash(entries) => "{" + InspectEntries(v, 0) + "}"
  }

  function InspectItems(v: Value, i: nat): string
    requires v.Array? && i <= |v.items|
    decreases v, 0, |v.items| - i
  {
    if i == |v.items| then ""
    else (if i > 0 then ", " else "") + Inspect(v.items[i]) + InspectItems(v, i + 1)
  }

  function InspectEntries(v: Value, i: nat): string
    requires v.Hash? && i <= |v.entries|
    decreases v, 0, |v.entries| - i
  {
    if i == |v.entries| then ""
    else
      (if i > 0 then ", " else "") + InspectKey(v.entries[i].0) + "=>"
      + Inspect(v.entries[i].1) + InspectEntries(v, i + 1)
  }

  /** Kernel#String / #to_s. */
  function ToS(v: Value): (s: string)
    ensures v.Str? ==> s == v.s
    ensures v.Int? ==> s == IntToString(v.i)
    ensures v.Nil? ==> s == ""
  {
    match v
    case Str(s) => s
    case Nil => ""
    case _ => Inspect(v)
  }
}

=== FILE: wrappers.dfy ===
/** Failure-compatible wrappers used throughout the model. */
module Wrappers {

  /** Ruby's `nil`-or-value, for lookups that may miss. */
  datatype Option<+T> = None | Some(value: T) {
    function GetOr(default: T): T {
      match this
      case Some(v) => v
      case None => default
    }
  }

  /** A value or an error, for operations that raise in the source. */
  datatype Result<+R, +E> = Success(value: R) | Failure(error: E)
}
